=== FILE: README.md ===
# tracks-rs core, modelled in Dafny

tracks-rs is an animation-track engine. It evaluates keyframed *point
definitions* of four value kinds (float, vector3, vector4 and quaternion) at a
song time. A keyframe's values may come from named *base providers* that the
host game updates every frame. The engine keeps *tracks*: named bags of value
properties and path properties, together with the game objects they drive. It
also runs a *coroutine scheduler* that applies event animations to track
properties as the song plays, with the beat length taken from the song's bpm.

This project models that core as pure functions over immutable datatypes:

- `Easings`, `FfiEasings`: the easing enumeration, its names and its index table.
- `BaseValues`, `FfiTypes`: `BaseValue` and its four-slot C wrapper.
- `ProviderContext`, `Providers`: the base provider context and the value providers.
  This includes splitting a JSON value list into static runs and named providers.
- `Modifiers`, `PointData`: modifiers, their operation fold and the four kinds of point data.
- `PointDefinitions`, `PointParsing`: point definitions, interpolation over them,
  and parsing them from JSON.
- `PathInterpolation`: the blending cursor of a path property.
- `Tracks`: the older track, the one the scheduler animates.
- `Track`: the newer track, with its property-name table, its v1/v2 aliases and its callbacks.
- `TracksHolder`, `Context`: the holder of tracks and the context that owns everything.
- `Coroutines`: the event scheduler.

Conventions:

- A Rust panic, an `unwrap` of `None` and an out-of-range index become
  `Err(Failure)` of the `Result` type in `Wrappers`.
- `f32` is modelled as `real`.
- Floating-point behaviour that the model cannot express comes in as an explicit
  parameter. The `Maths` record holds the easing curves, `slerp`, the Euler
  conversions, the HSV mix and the result of dividing by zero.
- The `Json` datatype stands for the few `serde_json` shapes the parser inspects.

## Model

| member | source | states |
|---|---|---|
| Easings.Ordinal | src/easings/functions.rs:8-41 | every easing has a position in the enumeration below the number of easings |
| Easings.Name | src/easings/functions.rs:126-129 | the `Display` name of every easing is the Rust variant name, which starts with `E` |
| Easings.CamelName | src/easings/functions.rs:85-123 | the JSON spelling of every easing starts with `e` |
| Easings.FromStr | src/easings/functions.rs:85-123 | parsing accepts only strings that start with `e` (the JSON spellings) |
| Easings.FromStrCamelName | src/easings/functions.rs:85-123 | every easing is parsed back from its JSON spelling |
| Easings.FromStrSound | src/easings/functions.rs:85-123 | a string that parses is exactly the JSON spelling of the easing it yields |
| Easings.FromStrExact | src/easings/functions.rs:85-123 | `from_str(s)` yields `f` if and only if `s` is `f`'s JSON spelling |
| Easings.FromStrInjective | src/easings/functions.rs:85-123 | two strings that parse to the same easing are the same string |
| Easings.DisplayNotParsed | src/easings/functions.rs:85-129 | the `Display` name is not a spelling `from_str` accepts, so display and parse are not inverses |
| FfiEasings.InterpolateEasing | src/ffi/easings.rs:7-9 | the C entry point evaluates the easing's own curve at `t` |
| FfiEasings.ByIndex | src/ffi/easings.rs:14-50 | an index outside the table gives `EaseLinear` |
| FfiEasings.Count | src/ffi/easings.rs:54-56 | the reported count bounds every easing's index |
| FfiEasings.ByIndexInRange | src/ffi/easings.rs:14-50 | for every index in range, the easing returned sits at that index |
| FfiEasings.ByIndexOrdinal | src/ffi/easings.rs:14-50 | looking up an easing's own index gives that easing back, so the table covers every easing |
| FfiEasings.ByIndexOutside | src/ffi/easings.rs:14-56 | -1 and the count itself both fall back to `EaseLinear` |
| BaseValues.Len | src/values/value.rs:87-107 | `len` is the length of `as_slice` and never 0 |
| BaseValues.FromSlice | src/values/value.rs:50-58 | 1, 3 and 4 numbers are accepted and other lengths panic; the slice reads back unchanged; a quaternion results exactly for 4 numbers with the flag set |
| BaseValues.FromSliceAsSlice | src/values/value.rs:50-107 | rebuilding a value from its own slice gives the value back |
| BaseValues.AsFloat | src/values/value.rs:59-64 | `Some` exactly for a float, holding its number |
| BaseValues.AsVec3 | src/values/value.rs:66-71 | `Some` exactly for a vector3, holding the vector |
| BaseValues.AsVec4 | src/values/value.rs:73-78 | `Some` exactly for a vector4, holding the vector |
| BaseValues.AsQuat | src/values/value.rs:80-85 | `Some` exactly for a quaternion, holding it |
| BaseValues.Lerp | src/values/value.rs:109-121 | values of the same kind blend into that kind; mixed kinds panic |
| BaseValues.LerpComponents | src/values/value.rs:109-121 | for the non-rotation kinds, every component of the blend is `a + (b - a) * t` |
| BaseValues.Index | src/values/value.rs:237-253 | a float answers every index with its number; other kinds answer in range with that component and panic out of range |
| BaseValues.Scale | src/values/value.rs:211-221 | multiplying keeps the kind and scales every component |
| BaseValues.DivScalar | src/values/value.rs:224-234 | dividing keeps the kind and divides every component, with division by zero given by `Maths` |
| FfiTypes.Tag | src/ffi/types.rs:33-38 | the type tag is one of the four C enum values |
| FfiTypes.FromBaseValue | src/ffi/types.rs:58-98 | the wrapper carries the value's kind, and its first slots hold the value's components in order |
| FfiTypes.ToBaseValue | src/ffi/types.rs:101-125 | the value has the wrapper's kind, and its components are the wrapper's leading slots |
| FfiTypes.RoundTrip | src/ffi/types.rs:58-125 | wrapping a value for C and unwrapping it gives it back, whatever the unused slots hold |
| ProviderContext.Default | src/values/base_provider_context.rs:16-63 | the new context holds every known base, each at the zero of its declared kind |
| ProviderContext.GetValues | src/values/base_provider_context.rs:65-113 | a known base reads back its stored value, of its declared kind; an unknown base panics |
| ProviderContext.Stored | src/values/base_provider_context.rs:115-227 | a float slot takes the first component of any value; other slots accept only a value of their own kind |
| ProviderContext.SetValues | src/values/base_provider_context.rs:115-227 | setting succeeds exactly for a known base and an acceptable value; it changes that slot alone and keeps every slot's kind |
| ProviderContext.GetAfterSet | src/values/base_provider_context.rs:65-227 | after `set_values`, that base reads back what was stored, or the value itself for a non-float slot, and every other base reads as before |
| Providers.StaticRoundTrip | src/values/static.rs:13-22 | static providers give back exactly their numbers, whatever the context |
| Providers.BaseValuesOf | src/values/base.rs:14-24 | a base provider reads its base's current components, as many as its kind has; an unknown base panics |
| Providers.BaseReflectsSet | src/values/base.rs:20-24 | a base provider reads whatever `set_values` last stored under its base |
| Providers.Values | src/values/mod.rs:46-56 | each provider variant answers with its own values; both rotation providers answer three numbers |
| Providers.ClampLerp | src/values/mod.rs:59-62 | the result stays between start and end, equals start for `t <= 0` and equals end for `t >= 1` |
| Providers.SmoothNew | src/values/smooth.rs:16-23 | a smoothing provider starts at zeros, one per source number |
| Providers.SmoothUpdate | src/values/smooth.rs:32-37 | each value moves toward its source by the clamped fraction; delta 0 changes nothing and delta 1 reaches the source |
| Providers.PartialNew | src/values/partial.rs:16-23 | a partial provider starts at zeros, one per selected part |
| Providers.PartialUpdate | src/values/partial.rs:32-37 | succeeds exactly when every part indexes the source and there are as many values as parts, and otherwise panics with an out-of-range index; each value becomes the source number its part selects, and the values past the parts are kept |
| Providers.ToProvider | src/values/mod.rs:70-76 | JSON static values become a static provider and a JSON base becomes a base provider |
| Providers.ToRawValues | src/values/mod.rs:82-87 | the raw values are exactly what the converted provider yields |
| Providers.BaseName | src/values/base_provider_context.rs:229-236 | the base name is the part before the first `.`, a prefix with no `.` in it |
| Providers.GetValueProvider | src/values/base_provider_context.rs:229-242 | succeeds exactly when the name before the dot is a known base; a quaternion base is wrapped in a quaternion provider |
| Providers.GetValueProviderArity | src/values/base_provider_context.rs:229-242 | the provider found always evaluates, to 3 numbers for a rotation base and to the base's own length otherwise |
| Providers.Close | src/values/mod.rs:118-131 | an empty run adds nothing; a non-empty run adds one static provider of its numbers, dropping non-numbers |
| Providers.Named | src/values/mod.rs:97-116 | the providers that came from base names are never static |
| Providers.DeserializeFromOk | src/values/mod.rs:97-116 | from any position, the scan succeeds exactly when every remaining string names a known base |
| Providers.DeserializeFromNumbers | src/values/mod.rs:97-131 | the static runs emitted from any position hold exactly the numbers of the open run and the rest, in order |
| Providers.DeserializeFromNamed | src/values/mod.rs:97-116 | the named providers emitted are those of the remaining strings, in order |
| Providers.DeserializeValuesSpec | src/values/mod.rs:97-131 | `deserialize_values` succeeds exactly when every string is a known base; the static providers hold every number of the list in order; the others are the strings' providers in order |
| Modifiers.OperationFromStr | src/modifiers/operation.rs:10-21 | exactly the four JSON spellings select their operation; anything else is no operation |
| Modifiers.StaticValues | src/modifiers/mod.rs:82-88 | `Some` exactly for static modifier values, holding them |
| Modifiers.NewFloatModifier | src/modifiers/float_modifier.rs:14-24 | the modifier keeps its parts and has a base provider exactly when it is dynamic or a child has one |
| Modifiers.NewVector3Modifier | src/modifiers/vector3_modifier.rs:16-26 | as for floats, for vector3 modifiers |
| Modifiers.NewVector4Modifier | src/modifiers/vector4_modifier.rs:16-26 | as for floats, for vector4 modifiers |
| Modifiers.NewQuaternionModifier | src/modifiers/quaternion_modifier.rs:25-35 | as for floats, for quaternion modifiers |
| Modifiers.Flatten | src/modifiers/mod.rs:110-111 | the reference definition `FillValuesSpec` compares against: every provider's numbers, concatenated in order; it succeeds only when every provider can be read |
| Modifiers.Fill | src/modifiers/mod.rs:108-120 | the `fill_values` loop from a partly filled buffer: the result never exceeds the count and extends what was already collected |
| Modifiers.FillValues | src/modifiers/mod.rs:108-120 | `fill_values` never returns more than the requested count of numbers, and no providers give no numbers |
| Modifiers.FillSpec | src/modifiers/mod.rs:108-120 | from a partly filled buffer, the loop gives the collected numbers followed by every provider's numbers, cut to the count |
| Modifiers.FillValuesSpec | src/modifiers/mod.rs:108-120 | `fill_values` is the concatenated provider values cut to the requested count |
| Modifiers.TranslateFloat | src/modifiers/float_modifier.rs:51-53 | one number is needed, and the first is the value |
| Modifiers.TranslateVec3 | src/modifiers/vector3_modifier.rs:59-61 | three numbers are needed, and the first three are the vector |
| Modifiers.TranslateVec4 | src/modifiers/vector4_modifier.rs:58-60 | four numbers are needed, and the first four are the vector |
| Modifiers.TranslateQuat | src/modifiers/quaternion_modifier.rs:105-107 | three numbers are needed, read as Unity Euler degrees |
| Modifiers.TranslateEulerSpec | src/modifiers/quaternion_modifier.rs:37-55 | each Euler component is taken from the flattened provider values, with a missing one read as 0 |
| Modifiers.WithModifiers | src/modifiers/mod.rs:23-79 | replacing the children keeps the operation and the base-provider flag |
| Modifiers.GetFloat | src/modifiers/mod.rs:31-37 | asking a non-float modifier for a float panics |
| Modifiers.FloatGetPoint | src/modifiers/float_modifier.rs:31-45 | the value folds the children left to right over the modifier's own value, each child applied with its operation; a last child with no operation replaces the value |
| Modifiers.GetVector3 | src/modifiers/mod.rs:39-45 | asking a non-vector3 modifier for a vector3 panics |
| Modifiers.Vector3GetPoint | src/modifiers/vector3_modifier.rs:33-53 | as for floats, for vector3 modifiers |
| Modifiers.GetVector4 | src/modifiers/mod.rs:47-53 | asking a non-vector4 modifier for a vector4 panics |
| Modifiers.Vector4GetPoint | src/modifiers/vector4_modifier.rs:33-49 | as for floats, for vector4 modifiers |
| Modifiers.GetVectorPoint | src/modifiers/quaternion_modifier.rs:57-81 | asking a non-quaternion modifier for its Euler vector panics |
| Modifiers.VectorPointFold | src/modifiers/quaternion_modifier.rs:57-81 | a quaternion modifier folds its children over Euler vectors, left to right |
| Modifiers.GetQuaternion | src/modifiers/quaternion_modifier.rs:88-96 | a static quaternion modifier without children gives its stored rotation; otherwise the folded Euler vector is converted to a rotation |
| Modifiers.FloatRawPoint | src/modifiers/float_modifier.rs:47-49 | the raw point is the static value, or 0 for a dynamic one |
| Modifiers.Vec3RawPoint | src/modifiers/vector3_modifier.rs:55-57 | the raw point is the static vector, or zero for a dynamic one |
| Modifiers.Vec4RawPoint | src/modifiers/vector4_modifier.rs:51-56 | the raw point is the static vector, or zero for a dynamic one |
| Modifiers.QuatRawPoint | src/modifiers/quaternion_modifier.rs:98-103 | the raw point is the static rotation, or the identity for a dynamic one |
| PointData.NewFloatPointData | src/point_data/float_point_data.rs:20-27 | the keyframe keeps its time, easing and children, has no operation, and has a base provider exactly when it is dynamic or a child has one |
| PointData.NewVector3PointData | src/point_data/vector3_point_data.rs:22-36 | as for floats, plus the smoothing flag |
| PointData.NewVector4PointData | src/point_data/vector4_point_data.rs:21-35 | as for floats, plus the HSV flag |
| PointData.NewQuaternionPointData | src/point_data/quaternion_point_data.rs:20-32 | as for floats, for rotations |
| PointData.PointFloat | src/point_data/mod.rs:50-55 | a float keyframe gives its modifier's value; any other kind panics |
| PointData.PointVector3 | src/point_data/mod.rs:57-62 | a vector3 keyframe gives its modifier's value; any other kind panics |
| PointData.PointVector4 | src/point_data/mod.rs:64-69 | a vector4 keyframe gives its modifier's value; any other kind panics |
| PointData.PointQuaternion | src/point_data/mod.rs:71-76 | a rotation keyframe gives its modifier's value; any other kind panics |
| PointData.StaticPointValue | src/point_data/mod.rs:50-76 | a static keyframe without children evaluates to its stored value, for each of the four kinds |
| PointDefinitions.DefinitionHasBaseProvider | src/point_definition/base_point_definition.rs:48-63 | true exactly when some keyframe has a base provider |
| PointDefinitions.GetPoint | src/point_definition/base_point_definition.rs:173-188 | a keyframe's value has the definition's kind and exists exactly when the keyframe of that kind evaluates; it is that keyframe's typed value wrapped in the matching `BaseValue` variant |
| PointDefinitions.CatmullRom | src/point_definition/vector3_point_definition.rs:24-56 | the spline passes through its two inner points at t = 0 and t = 1 |
| PointDefinitions.CatmullRom3 | src/point_definition/vector3_point_definition.rs:24-56 | the same, per component of a vector |
| PointDefinitions.SmoothVectorLerp | src/point_definition/vector3_point_definition.rs:24-56 | the smoothed value meets the left keyframe at 0 and the right one at 1; at the definition's ends the missing neighbours are the endpoints themselves |
| PointDefinitions.LerpHsvVec4 | src/point_definition/vector4_point_definition.rs:23-45 | the colour is the HSV mix and the alpha is blended linearly, so it starts at the first alpha and ends at the second |
| PointDefinitions.InterpolateFloat | src/point_definition/float_point_definition.rs:91-103 | defined exactly when both keyframes evaluate; the blend meets them at 0 and 1 |
| PointDefinitions.InterpolateVector3 | src/point_definition/vector3_point_definition.rs:141-158 | a smoothed right keyframe selects the spline; otherwise the two values are blended linearly |
| PointDefinitions.InterpolateVector4 | src/point_definition/vector4_point_definition.rs:129-147 | the left keyframe's HSV flag selects an HSV blend or a linear one |
| PointDefinitions.InterpolateQuaternion | src/point_definition/quaternion_point_definition.rs:107-118 | the two rotations are slerped |
| PointDefinitions.InterpolatePoints | src/point_definition/base_point_definition.rs:65-91 | the blend has the definition's kind, exists exactly when that kind's blend does, and is that blend wrapped in the matching `BaseValue` variant |
| PointDefinitions.InterpolatePointsMeetsKeyframes | src/point_definition/base_point_definition.rs:65-91 | for the linear float, vector3 and vector4 blends, the blend at 0 is the left keyframe's `get_point` value and the blend at 1 is the right one's |
| PointDefinitions.SearchFrom | src/point_definition/mod.rs:185-200 | the search keeps `l` before the time and `r` at or after it, and ends with adjacent indices |
| PointDefinitions.SearchIndex | src/point_definition/mod.rs:185-200 | the binary search returns adjacent indices that bracket the time when the first keyframe is before it |
| PointDefinitions.BracketUnique | src/point_definition/mod.rs:185-200 | on time-sorted keyframes only one interval brackets a time, so every search agrees |
| PointDefinitions.NormalTime | src/point_definition/mod.rs:251-255 | inside the interval the normalised time lies in (0, 1] and reaches 1 at the right keyframe |
| PointDefinitions.InterpolateWith | src/point_definition/mod.rs:230-262 | no keyframes give the default and "last"; at or after the last keyframe its value with "last"; at or before the first its value; the "last" flag is set exactly from the last keyframe on |
| PointDefinitions.InterpolateBetween | src/point_definition/mod.rs:247-261 | strictly between the ends, some bracketing interval is blended at the right keyframe's eased normalised time |
| PointDefinitions.Interpolate | src/point_definition/mod.rs:230-262 | a typed definition yields a value of its own kind, and its zero when it has no keyframes |
| PointDefinitions.BaseInterpolate | src/point_definition/mod.rs:230-235 | the enum yields `BaseValue::default()` (the float 0) for a definition with no keyframes |
| PointDefinitions.BaseInterpolateDelegates | src/point_definition/base_point_definition.rs:65-91 | the enum agrees with the typed definition except for an empty non-float one, where its value has the wrong kind |
| PointDefinitions.SingleStatic | src/point_definition/float_point_definition.rs:53-89 | the static fast path applies exactly to one static provider |
| PointDefinitions.TotalCount | src/point_definition/float_point_definition.rs:53-89 | the count is the number of values all providers yield |
| PointDefinitions.DynamicTime | src/point_definition/float_point_definition.rs:53-89 | a dynamic keyframe's time is the last provider value when the count is right, and 0 otherwise |
| PointDefinitions.LastOfLastIsLast | src/point_definition/float_point_definition.rs:53-89 | the last value of the last provider is the last of all values |
| PointDefinitions.CreateFloatPointData | src/point_definition/float_point_definition.rs:53-89 | two static numbers give a static value and its time; anything else gives a dynamic value whose time comes from the providers |
| PointDefinitions.CreateVector3PointData | src/point_definition/vector3_point_definition.rs:103-139 | four static numbers give a static vector and its time; `splineCatmullRom` sets smoothing; otherwise the keyframe is dynamic |
| PointDefinitions.CreateVector4PointData | src/point_definition/vector4_point_definition.rs:90-127 | five static numbers give a static colour and its time; `lerpHSV` sets HSV blending; otherwise the keyframe is dynamic |
| PointDefinitions.CreateQuaternionPointData | src/point_definition/quaternion_point_definition.rs:65-105 | four static numbers give Euler degrees, converted once, and a time; otherwise the keyframe is dynamic |
| PointDefinitions.CreatePointData | src/point_definition/base_point_definition.rs:116-137 | the keyframe has the definition's kind, the given easing and the given children |
| PointDefinitions.CreateModifier | src/point_definition/base_point_definition.rs:93-114 | one static provider of the kind's static length gives a static modifier; otherwise it is dynamic, and every kind but vector3 panics on a wrong value count |
| PointParsing.Filter | src/point_definition/mod.rs:205-227 | a group holds only entries of the list that belong to that group |
| PointParsing.GroupValuesSpec | src/point_definition/mod.rs:205-227 | a non-array has no groups; a group is present exactly when some entry belongs to it, and it holds those entries in order |
| PointParsing.GroupOrderIrrelevant | src/point_definition/mod.rs:224-226 | whatever order the `HashMap` yields its groups in, the parse records the same groups |
| PointParsing.FirstEase | src/point_definition/mod.rs:158-165 | the easing comes from the first flag starting with `ease`, falling back to linear when that flag does not parse or there is none |
| PointParsing.DeserializeModifier | src/point_definition/mod.rs:69-106 | a nested modifier has the definition's kind; it needs a value group and a flag group, or the parse panics |
| PointParsing.DeserializeModifiers | src/point_definition/mod.rs:80-87 | the nested modifiers parse one for one, all of the definition's kind |
| PointParsing.ParsePoint | src/point_definition/mod.rs:122-180 | a `null` entry is skipped; a non-null entry that parses makes a keyframe exactly when it has a value group, and that keyframe has the definition's kind |
| PointParsing.ParsePointNeedsValues | src/point_definition/mod.rs:170-171 | a keyframe is produced only when its array has a value group |
| PointParsing.ValuesOnly | src/point_definition/mod.rs:127-180 | a keyframe with only numbers and base names has no flags, no children and linear easing |
| PointParsing.ParsePointFrom | src/point_definition/mod.rs:122-180 | a non-null entry whose values and child modifiers read is exactly the keyframe built from them, its flags (which select the vector3 spline and the vector4 HSV blend) and the easing of its first `ease` flag; a failure to build it fails the entry |
| PointParsing.ParsePointEasing | src/point_definition/mod.rs:122-180 | every keyframe an entry makes is eased by the entry's first flag starting with `ease`, or linear when there is none or it names no easing, and carries the entry's child modifiers |
| PointParsing.ParsePointNoKeyframe | src/point_definition/mod.rs:122-171 | a keyframe is made only from a non-null entry whose values and child modifiers both read |
| PointParsing.ParsePointsTwo | src/point_definition/mod.rs:122-180 | two entries that each make a keyframe make exactly those two keyframes, in order |
| PointParsing.FloatKeyframe | src/point_definition/mod.rs:122-180 | `[v, t]` parses to a static float keyframe of value `v` at time `t` |
| PointParsing.Root | src/point_definition/mod.rs:111-118 | a list of lists is the keyframe list; a flat list is one keyframe with time 0 appended |
| PointParsing.Parse | src/point_definition/mod.rs:110-182 | a non-array or an empty array panics; otherwise the parse succeeds exactly when the root entries do, and the definition's keyframes are theirs, at most one per entry and all of the definition's kind |
| PointParsing.ParsePoints | src/point_definition/mod.rs:122-181 | the list parses exactly when every entry parses; every keyframe is the one some entry made, there are at most as many as entries, and each has the definition's kind |
| PointParsing.ParsePointsOne | src/point_definition/mod.rs:122-180 | a single entry parses exactly when its `ParsePoint` does, and gives its keyframe if it made one and nothing otherwise |
| PointParsing.ParsePointsAppend | src/point_definition/mod.rs:122-181 | parsing two runs of entries one after the other gives the first run's keyframes followed by the second's, so keyframes come in input order |
| PointParsing.ParseEach | src/point_definition/mod.rs:122-181 | for any way of reading one entry, the loop succeeds exactly when every entry does; every keyframe it keeps is one an entry made, and there are at most as many as entries |
| PointParsing.ParseEachOne | src/point_definition/mod.rs:122-180 | the loop over one entry keeps that entry's keyframe if it made one, and nothing otherwise |
| PointParsing.ParseEachAppend | src/point_definition/mod.rs:122-181 | the loop distributes over concatenation: the keyframes of `a + b` are those of `a` followed by those of `b` |
| PointParsing.ParseFlatFloat | src/point_definition/mod.rs:111-118 | the flat list `[v]` parses to one static keyframe of value `v` at time 0 |
| PointParsing.ParseTwoKeyframes | src/context.rs:239-242 | `[[0,0],[10,1]]` parses to two linear float keyframes: 0 at time 0 and 10 at time 1 |
| PathInterpolation.New | src/point_definition/point_definition_interpolation.rs:18-25 | a new cursor holds the definition, no previous one and time 0 |
| PathInterpolation.Empty | src/point_definition/point_definition_interpolation.rs:27-34 | an empty cursor has nothing to blend and its declared kind |
| PathInterpolation.Finish | src/point_definition/point_definition_interpolation.rs:40-42 | finishing drops the previous definition and changes nothing else |
| PathInterpolation.Init | src/point_definition/point_definition_interpolation.rs:44-57 | the current definition becomes the previous one and time restarts at 0; a definition of another kind panics |
| PathInterpolation.SetTime | src/animation/coroutine_manager.rs:247-249 | the scheduler only moves the blend time |
| PathInterpolation.Interpolate | src/point_definition/point_definition_interpolation.rs:59-72 | nothing without a definition; one definition alone is evaluated; with two, their values are blended by the cursor's time |
| PathInterpolation.InterpolateKeepsType | src/point_definition/point_definition_interpolation.rs:59-72 | on definitions of its kind with keyframes, the cursor yields a value of that kind |
| PathInterpolation.BlendEndpoints | src/point_definition/point_definition_interpolation.rs:59-72 | at time 0 the blend is the previous definition's value, and at time 1 the current one's |
| PathInterpolation.EmptyPrevFails | src/point_definition/point_definition_interpolation.rs:59-72 | an empty non-float previous definition yields a float that cannot be blended with the current value, so it panics |
| GameObjects.Register | src/animation/tracks.rs:71-77 | a game object is appended once; registering a known one changes nothing, so the list stays free of duplicates |
| GameObjects.Remove | src/animation/tracks.rs:93-95 | every occurrence goes and everything else is kept |
| GameObjects.RegisterThenRemove | src/animation/tracks.rs:71-95 | removing a freshly registered game object restores the list |
| Tracks.Get | src/animation/tracks.rs:124-142 | a dedicated name reads its field; any other id reads the custom map |
| Tracks.Insert | src/animation/tracks.rs:115-122 | afterwards the id reads the new property, and no other id changes |
| Tracks.ValueNamesResolution | src/animation/tracks.rs:25-48 | only the listed v1 names reach a value field, so `_position` is a custom id |
| Tracks.PathNamesResolution | src/animation/tracks.rs:165-189 | in the path map `time` is a custom id and `definite_position` a field |
| Tracks.Default | src/animation/tracks.rs:102-111 | the default track has every value field unset, every path field at the blank path cursor, no custom ids, no name and no game objects |
| Tracks.RegisterProperty | src/animation/tracks.rs:63-65 | afterwards `get_property(id)` is the new property, whatever the id, and nothing else changes |
| Tracks.RegisterPathProperty | src/animation/tracks.rs:67-69 | the same for path properties |
| Tracks.RegisterGameObject | src/animation/tracks.rs:71-77 | the game object is added once, and the properties are untouched |
| Tracks.RemoveGameObject | src/animation/tracks.rs:93-95 | the game object is gone, the remaining objects are `GameObjects.Remove`'s result so they keep their order, an absent object changes nothing, and the properties are untouched |
| Tracks.MarkUpdated | src/animation/tracks.rs:97-99 | the update stamp grows and nothing else changes |
| Track.FromV1 | src/animation/track.rs:438-474 | a v1 property name never starts with `_` |
| Track.FromV2 | src/animation/track.rs:438-474 | a v2 property name always starts with `_` |
| Track.V1Spelling | src/animation/track.rs:438-497 | every accepted v1 name is a known property's `Display` name |
| Track.V2Spelling | src/animation/track.rs:438-474 | every accepted v2 name is a known property's v2 alias |
| Track.FromStrAccepts | src/animation/track.rs:438-497 | every known property parses from both its v1 and its v2 spelling |
| Track.FromStrSound | src/animation/track.rs:438-497 | a parsed name is one of the two spellings of a known property, and its display name parses to the same property |
| Track.UnknownNotParsed | src/animation/track.rs:438-497 | the placeholder for unknown names is never produced by parsing |
| Track.NewHandle | src/animation/track.rs:56-62 | a handle names a property when the id parses, and keeps the raw id otherwise |
| Track.GetByName | src/animation/track.rs:289-307 | a property with a dedicated field is found; the others are `None` |
| Track.CustomGet | src/animation/track.rs:329-334 | an id that is not a property name reads the custom map |
| Track.Get | src/animation/track.rs:329-334 | a parsed name goes to its field, any other id to the custom map |
| Track.GetByHandle | src/animation/track.rs:344-349 | a handle reads the field it names or the custom id it holds |
| Track.GetByHandleAgrees | src/animation/track.rs:56-62 | reading through a handle made from an id gives the same result as reading by the id |
| Track.AliasSameSlot | src/animation/track.rs:597-613 | a v2 alias, the v1 name and the property itself reach the same slot |
| Track.Insert | src/animation/track.rs:280-287 | afterwards the id reads the new property unless it names a property without a field, where the insert is dropped; ids that do not share its property are unchanged |
| Track.InsertThroughAlias | src/animation/track.rs:280-287 | a property inserted under one spelling is read back under the other |
| Track.EmptyValue | src/animation/track.rs:226-246 | a fresh value slot has no value and its declared kind |
| Track.DefaultProperties | src/animation/track.rs:226-246 | every value field starts empty with its declared kind, and there are no custom ids |
| Track.DefaultPaths | src/animation/track.rs:249-264 | every path field starts as an empty cursor of its declared kind, and there are no custom ids |
| Track.DefaultPropertiesUnslotted | src/animation/track.rs:280-307 | `definite_position` has no value field, so inserting under it is dropped |
| Track.DefaultPropertiesAlias | src/animation/track.rs:280-334 | a value inserted as `_dissolve` is read as `dissolve` |
| Track.DefaultPathsUnslotted | src/animation/track.rs:363-387 | `time` has no path field, so inserting under it is dropped |
| Track.DefaultPathsAlias | src/animation/track.rs:363-410 | a path inserted as `_definitePosition` is read as `definite_position` |
| Track.Notify | src/animation/track.rs:167-177 | every registered callback is told, in order |
| Track.Default | src/animation/track.rs:267-276 | the default track has default maps, no name, no game objects and no callbacks |
| Track.RegisterProperty | src/animation/track.rs:159-161 | registering is an insert into the value map, and nothing else changes |
| Track.RegisterPathProperty | src/animation/track.rs:163-165 | registering is an insert into the path map, and nothing else changes |
| Track.RegisterGameObject | src/animation/track.rs:167-177 | a known game object changes nothing and tells no one; a new one is appended and every callback is told it was added |
| Track.RemoveGameObject | src/animation/track.rs:201-207 | every occurrence goes, the remaining objects are `GameObjects.Remove`'s result so they keep their order, and every callback is told it was removed |
| Track.RegisterCallback | src/animation/track.rs:179-184 | the callback is appended and nothing else changes |
| Track.WithoutCallback | src/animation/track.rs:209-216 | every occurrence of the callback goes and the others stay; a callback that is not registered leaves the list as it was |
| Track.WithoutCallbackAppend | src/animation/track.rs:209-216 | `retain` decides each callback on its own, so removal distributes over concatenation and the survivors keep their order and multiplicity |
| Track.RemoveCallback | src/animation/track.rs:209-216 | the callback is no longer registered, the others stay in their order (so later notifications follow it), an unregistered callback changes nothing, and nothing else changes |
| Track.Reset | src/animation/track.rs:218-223 | only the name survives, and no callback is told about later game objects |
| TracksHolder.New | src/animation/tracks_holder.rs:28-32 | a new holder is empty |
| TracksHolder.GetTrack | src/animation/tracks_holder.rs:44-46 | an issued key finds its track; any other key is `None` |
| TracksHolder.AddTrack | src/animation/tracks_holder.rs:34-42 | a duplicate name panics; otherwise the new key finds the track, was not issued before, and every other key is unchanged, so names stay unique |
| TracksHolder.FindFrom | src/animation/tracks_holder.rs:51-60 | the search finds the first track with the name, or establishes there is none |
| TracksHolder.GetTrackKey | src/animation/tracks_holder.rs:51-56 | a key is found exactly when some track has the name, and it is that track's key |
| TracksHolder.GetTrackByName | src/animation/tracks_holder.rs:58-60 | a track is found exactly when some track has the name, and it has that name |
| TracksHolder.KeyAndNameAgree | src/animation/tracks_holder.rs:44-60 | the track under the found key is the track found by name; with unique names it is the only one |
| TracksHolder.AddThenFind | src/animation/tracks_holder.rs:34-60 | after adding a track, its name finds it and its key |
| Context.Default | src/context.rs:63-72 | the default context has no tracks, no definitions, nothing scheduled and fresh base providers |
| Context.GetPointDefinition | src/context.rs:45-53 | a definition is found exactly under its id and kind |
| Context.AddPointDefinition | src/context.rs:27-43 | an id already used for that kind panics; otherwise the definition is found under its id and kind, and no other lookup changes |
| Context.SameIdPerType | src/context.rs:27-53 | one id can name one definition of each kind |
| Context.AddTwiceFails | src/context.rs:27-43 | adding an id twice for one kind panics and keeps the first definition |
| Context.FadeDefinition | src/context.rs:100-114 | the fade of the crate's scenario is a float definition of two keyframes with no base provider |
| Context.FadeValues | src/context.rs:100-114 | the fade is 0 at time 0 and 5 at time 0.5, before its last keyframe |
| Context.DissolveScenario | src/context.rs:192-229 | one beat at 60 bpm started at 0 sets the property to 0 and schedules one task; polling at 0.5 sets it to 5 and keeps the task |
| Coroutines.SetNull | src/animation/coroutine_manager.rs:34-40 | a value event loses its value; a path event's cursor is restarted with no current definition |
| Coroutines.Duration | src/animation/coroutine_manager.rs:60 | the song-time length of an event is `60 * raw_duration / bpm`, non-negative for a positive bpm |
| Coroutines.Progress | src/animation/coroutine_manager.rs:226-228 | progress never exceeds 1, is 1 once the event is over, and before that is the elapsed fraction |
| Coroutines.SetPropertyValue | src/animation/coroutine_manager.rs:259-275 | the property takes the definition's value at the time, and the track is marked updated only when that changes the property |
| Coroutines.SetPropertyValueIdempotent | src/animation/coroutine_manager.rs:259-275 | applying the same time twice changes nothing the second time |
| Coroutines.Animate | src/animation/coroutine_manager.rs:215-238 | the property is set at the eased progress, and the animation continues exactly while time remains and it is not lazily parked on its last keyframe |
| Coroutines.AssignPath | src/animation/coroutine_manager.rs:240-257 | the blend time becomes the eased progress; the cursor continues while time remains and otherwise drops its previous definition |
| Coroutines.EnqueueEvent | src/animation/coroutine_manager.rs:93-158 | no definition clears the property; an event that is over or constant is applied once at time 1; otherwise it is animated once, a break uses up a repetition, and a path event restarts its cursor; an event that is over is never scheduled, and a scheduled task carries the event from the same start time |
| Coroutines.StartEventCoroutine | src/animation/coroutine_manager.rs:53-91 | the event is enqueued with its beat length in song time, and only a task that remains is appended |
| Coroutines.PollEvent | src/animation/coroutine_manager.rs:167-212 | a value event is animated, and a break with repetitions left restarts it one duration later and continues; a path event advances its cursor |
| Coroutines.Retained | src/animation/coroutine_manager.rs:160-165 | retaining keeps at most the tasks polled |
| Coroutines.RetainedAppend | src/animation/coroutine_manager.rs:160-165 | retaining distributes over concatenation, so tasks keep their order |
| Coroutines.RetainedMembers | src/animation/coroutine_manager.rs:160-165 | a task is kept exactly when its poll said to continue |
| Coroutines.PollEvents | src/animation/coroutine_manager.rs:160-165 | every task is polled once, in order, and exactly the ones that continue are kept |

## Left out

- The C ABI (`src/ffi/` beyond the easing table and the value wrapper) and the
  headers: marshalling only, with raw pointers and callbacks into host code.
- `f32` arithmetic, NaN and infinity: numbers are `real`. Division by zero, the
  easing curves, `slerp`, the Euler conversions and the HSV mix are the fields of a
  `Maths` parameter, so their bodies are not modelled.
- The base providers backed by host callbacks (`base_ffi.rs`) and the smoothed
  rotation provider: they call host code or rotation maths that only the `Maths`
  parameter stands for.
- Game objects are opaque values compared by identity, as the host's pointers are.
- `last_updated` reads a clock; the older track counts updates instead.
- `HashMap` iteration order in `group_values` is unspecified. The model records the
  groups in a map, and `GroupOrderIrrelevant` shows that the order does not matter.
- The repeat count is a `u32`; the model uses `nat`, and the saturating decrement
  is written out.
- When several things fail in one call, the model returns one error. Which one is
  not part of the model.
- The older path map's default value comes from a `WrapBaseValueType` default that
  is not part of this model. It is a parameter of `Tracks.Default`.
- `Coroutines.PollEvents` returns the new manager. `poll_events(mut self)` consumes
  its manager, so as written the retained tasks are dropped with it.
- Revision drift: `coroutine_manager.rs` refers to the older `tracks::Track` and to
  a value property that is an `Option<BaseValue>`. The model follows that revision:
  the property and its track travel inside the event.
- The value property of the newer track is modelled as a value and its declared
  kind. A union slot that is never set is simply absent.
- `Coroutines.SetPropertyValue`: the property is compared with the new value by
  exact equality, as in the source. `f32` equality of NaN is not modelled.
- Benchmarks, the `tracks-window` graphing tool and `build.rs`: not part of the core.
- Behaviours of the code that the model keeps as they are written:
  - keyframes are kept in the order they are authored and are never sorted
    (src/point_definition/mod.rs:180);
  - a definition with no keyframes gives the default value together with "last"
    (src/point_definition/mod.rs:232-234);
  - an interval of length 0 gives normalised time 0 (src/point_definition/mod.rs:251-255);
  - a vector3 modifier's static fast path needs 4 numbers, and a wrong dynamic count
    is only logged (src/point_definition/vector3_point_definition.rs:86-94);
  - the enum yields `Float(0)` for an empty definition of any kind
    (src/point_definition/mod.rs:230-235).

=== FILE: context.dfy ===
/** `TracksContext`: everything one map's animations share — its tracks, its named
    point definitions, the coroutine scheduler and the game's base providers.

    A point definition is registered under its id and its value type, so the same id
    may name one definition of every type.
 */
module Context {
  import opened Wrappers
  import opened BaseValues
  import ProviderContext
  import PointDefinitions
  import TracksHolder
  import Coroutines
  import Easings
  import Maths
  import Modifiers
  import PointData
  import Tracks
  import Vectors

  datatype TracksContext = TracksContext(
    tracks: TracksHolder.TracksHolder,
    pointDefinitions: map<(string, ValueType), PointDefinitions.PointDefinition>,
    coroutineManager: Coroutines.CoroutineManager,
    baseProviders: ProviderContext.BaseProviderContext)

  /** `TracksContext::default()`: no tracks, no definitions, nothing scheduled, and the
      base providers at their start values. */
  function Default(): (c: TracksContext)
    ensures |c.tracks.tracks| == 0 && TracksHolder.UniqueNames(c.tracks)
    ensures forall n, t :: GetPointDefinition(c, n, t).None?
    ensures c.coroutineManager.coroutines == []
    ensures c.baseProviders == ProviderContext.Default() && ProviderContext.Valid(c.baseProviders)
  {
    TracksContext(TracksHolder.New(), map[], Coroutines.CoroutineManager([]), ProviderContext.Default())
  }

  /** `get_point_definition`: the definition registered under the id for that type. */
  function GetPointDefinition(c: TracksContext, name: string, ty: ValueType): (r: Option<PointDefinitions.PointDefinition>)
    ensures r.Some? <==> (name, ty) in c.pointDefinitions
    ensures r.Some? ==> r.value == c.pointDefinitions[(name, ty)]
  {
    if (name, ty) in c.pointDefinitions then Some(c.pointDefinitions[(name, ty)]) else None
  }

  /** `add_point_definition`: registering an id a second time for the same type makes the
      crate panic; otherwise the definition is found under its id and its own type, and
      no other lookup changes. */
  function AddPointDefinition(c: TracksContext, id: string, d: PointDefinitions.PointDefinition): (r: Result<TracksContext>)
    ensures r.Err? <==> GetPointDefinition(c, id, d.kind).Some?
    ensures r.Err? ==> r.error == DuplicateName
    ensures r.Ok? ==> GetPointDefinition(r.value, id, d.kind) == Some(d)
    ensures r.Ok? ==> forall n, t :: (n, t) != (id, d.kind) ==> GetPointDefinition(r.value, n, t) == GetPointDefinition(c, n, t)
    ensures r.Ok? ==> r.value.tracks == c.tracks && r.value.coroutineManager == c.coroutineManager &&
                      r.value.baseProviders == c.baseProviders
  {
    var key := (id, PointDefinitions.GetType(d));
    if key in c.pointDefinitions then Err(DuplicateName)
    else Ok(c.(pointDefinitions := c.pointDefinitions[key := d]))
  }

  /** One id can name a definition of each value type: adding two definitions of
      different types under the same id succeeds twice, and both are found. */
  lemma SameIdPerType(c: TracksContext, id: string, d1: PointDefinitions.PointDefinition, d2: PointDefinitions.PointDefinition)
    requires d1.kind != d2.kind
    requires GetPointDefinition(c, id, d1.kind).None? && GetPointDefinition(c, id, d2.kind).None?
    ensures AddPointDefinition(c, id, d1).Ok?
    ensures AddPointDefinition(AddPointDefinition(c, id, d1).value, id, d2).Ok?
    ensures var c2 := AddPointDefinition(AddPointDefinition(c, id, d1).value, id, d2).value;
      GetPointDefinition(c2, id, d1.kind) == Some(d1) && GetPointDefinition(c2, id, d2.kind) == Some(d2)
  {
  }

  /** Adding the same id and type twice fails the second time, and the first definition stays. */
  lemma AddTwiceFails(c: TracksContext, id: string, d1: PointDefinitions.PointDefinition, d2: PointDefinitions.PointDefinition)
    requires d1.kind == d2.kind && AddPointDefinition(c, id, d1).Ok?
    ensures AddPointDefinition(AddPointDefinition(c, id, d1).value, id, d2) == Err(DuplicateName)
    ensures GetPointDefinition(AddPointDefinition(c, id, d1).value, id, d2.kind) == Some(d1)
  {
  }

  // ------------------------------------------------------ a dissolve fade

  /** The float definition of the crate's context scenario: 0 at time 0, 10 at time 1. */
  function FadeDefinition(): (d: PointDefinitions.PointDefinition)
    ensures d.kind == FloatType && |d.points| == 2
    ensures !PointDefinitions.DefinitionHasBaseProvider(d)
  {
    PointDefinitions.PointDefinition(FloatType, [
      PointData.NewFloatPointData(Modifiers.StaticValue(0.0), 0.0, [], Easings.EaseLinear),
      PointData.NewFloatPointData(Modifiers.StaticValue(10.0), 1.0, [], Easings.EaseLinear)])
  }

  /** The fade holds its start value at time 0 and is halfway, at 5, at time 0.5. */
  lemma FadeValues(ctx: ProviderContext.BaseProviderContext, m: Maths.Maths)
    requires ProviderContext.Valid(ctx) && Maths.LinearIsIdentity(m)
    ensures PointDefinitions.BaseInterpolate(FadeDefinition(), 0.0, ctx, m) == Ok((Float(0.0), false))
    ensures PointDefinitions.BaseInterpolate(FadeDefinition(), 0.5, ctx, m) == Ok((Float(5.0), false))
  {
    var d := FadeDefinition();
    PointData.StaticPointValue(ctx, m, 0.0, Easings.EaseLinear, 0.0, Vectors.Vec3(0.0, 0.0, 0.0),
      Vectors.Vec4(0.0, 0.0, 0.0, 0.0), Vectors.Vec3(0.0, 0.0, 0.0), Vectors.Quat(0.0, 0.0, 0.0, 1.0), false, false);
    PointData.StaticPointValue(ctx, m, 1.0, Easings.EaseLinear, 10.0, Vectors.Vec3(0.0, 0.0, 0.0),
      Vectors.Vec4(0.0, 0.0, 0.0, 0.0), Vectors.Vec3(0.0, 0.0, 0.0), Vectors.Quat(0.0, 0.0, 0.0, 1.0), false, false);
    assert PointData.PointFloat(d.points[0], ctx, m) == Ok(0.0);
    assert PointData.PointFloat(d.points[1], ctx, m) == Ok(10.0);
    assert PointDefinitions.SearchFrom(d.points, 0.5, 0, 2) == (0, 1);
    assert PointDefinitions.NormalTime(0.0, 1.0, 0.5) == 0.5;
    assert Maths.Ease(m, Easings.EaseLinear, 0.5) == 0.5;
    assert PointDefinitions.InterpolateFloat(d.points, 0, 1, 0.5, ctx, m) == Ok(5.0);
  }

  /** The crate's context scenario: a dissolve fade over one beat at 60 bpm, started at
      song time 0 and polled at 0.5.  Starting it sets the property to 0 and schedules
      one task; the poll sets the property to 5 and keeps the task going. */
  lemma DissolveScenario(ctx: ProviderContext.BaseProviderContext, m: Maths.Maths, track: Tracks.Track)
    requires ProviderContext.Valid(ctx) && Maths.LinearIsIdentity(m)
    ensures var data := Coroutines.EventData(1.0, Easings.EaseLinear, 0, 0.0,
                                             Coroutines.AnimateTrack(None, FadeDefinition()), track);
      var started := Coroutines.StartEventCoroutine(Coroutines.CoroutineManager([]), 60.0, 0.0, ctx, data, m);
      started.Ok? && |started.value.0.coroutines| == 1 &&
      started.value.1.eventType == Coroutines.AnimateTrack(Some(Float(0.0)), FadeDefinition()) &&
      var polled := Coroutines.PollEvent(0.5, ctx, m, started.value.0.coroutines[0]);
      polled.Ok? && polled.value.1 == Coroutines.Yield &&
      polled.value.0.eventType == Coroutines.AnimateTrack(Some(Float(5.0)), FadeDefinition())
  {
    var d := FadeDefinition();
    FadeValues(ctx, m);
    var data := Coroutines.EventData(1.0, Easings.EaseLinear, 0, 0.0, Coroutines.AnimateTrack(None, d), track);
    assert Coroutines.Duration(m, 60.0, 1.0) == 1.0;
    assert Coroutines.Progress(m, 0.0, 1.0) == 0.0;
    assert Coroutines.EasedProgress(m, Easings.EaseLinear, 0.0, 1.0) == 0.0;
    assert !Coroutines.AppliedOnce(0.0, 1.0, 0.0, 0, data);
    var a := Coroutines.Animate(d, None, track, 1.0, 0.0, 0.0, Easings.EaseLinear, false, ctx, m);
    assert a.Ok? && a.value.0 == Some(Float(0.0)) && a.value.2 == Coroutines.Yield;
    var started := Coroutines.StartEventCoroutine(Coroutines.CoroutineManager([]), 60.0, 0.0, ctx, data, m);
    assert started.Ok? && started.value.1.task.Some?;
    var task := started.value.0.coroutines[0];
    assert task == started.value.1.task.value;
    assert task.duration == 1.0 && task.startTime == 0.0 && task.easing == Easings.EaseLinear;
    assert Coroutines.Progress(m, 0.5, 1.0) == 0.5;
    assert Coroutines.EasedProgress(m, Easings.EaseLinear, 0.5, 1.0) == 0.5;
    var b := Coroutines.Animate(d, Some(Float(0.0)), task.track, 1.0, 0.0, 0.5, Easings.EaseLinear, false, ctx, m);
    assert b.Ok? && b.value.0 == Some(Float(5.0)) && b.value.2 == Coroutines.Yield;
  }
}

=== FILE: coroutines.dfy ===
/** The coroutine scheduler of `animation/coroutine_manager.rs`: events that
    animate a track property or a path property over a song-time interval,
    applied once when they are started and then on every poll until they end,
    possibly repeating.

    In the crate an event reaches its property and its track through pointers,
    so what it writes is seen by everyone.  The model keeps the property and the
    track inside the event, and every operation returns the event and track as
    it left them, including for events that are not (or no longer) scheduled.
 */
module Coroutines {
  import opened Wrappers
  import opened Easings
  import opened Maths
  import opened BaseValues
  import opened ProviderContext
  import opened PointDefinitions
  import opened PathInterpolation
  import opened Tracks

  /** What an event animates: a value property along a definition, or a path property
      switched to a new definition. */
  datatype EventType =
    | AnimateTrack(property: ValueProperty, points: PointDefinition)
    | AssignPathAnimation(path: PathProperty, pathPoints: Option<PointDefinition>)

  /** `EventData`: the duration is in beats; `repeat` is a `u32`, never negative. */
  datatype EventData = EventData(
    rawDuration: real,
    easing: Functions,
    repeat: nat,
    startTime: real,
    property: EventType,
    track: Track)

  /** A scheduled event: its duration is already in song time. */
  datatype CoroutineTask = CoroutineTask(
    eventType: EventType,
    repeat: nat,
    duration: real,
    easing: Functions,
    startTime: real,
    track: Track)

  datatype CoroutineResult = Yield | Break

  datatype CoroutineManager = CoroutineManager(coroutines: seq<CoroutineTask>)

  /** An event after `enqueue_event`: its property and track as it left them, and the task
      to schedule if it has not ended yet. */
  datatype Enqueued = Enqueued(eventType: EventType, track: Track, task: Option<CoroutineTask>)

  /** `get_point_definition`. */
  function GetPointDefinition(e: EventType): Option<PointDefinition> {
    match e
    case AnimateTrack(_, points) => Some(points)
    case AssignPathAnimation(_, pathPoints) => pathPoints
  }

  /** `set_null`: the value property is cleared, the path property is switched to nothing. */
  function SetNull(e: EventType): (r: EventType)
    ensures r.AnimateTrack? <==> e.AnimateTrack?
    ensures e.AnimateTrack? ==> r == AnimateTrack(None, e.points)
    ensures e.AssignPathAnimation? ==>
      r.path.point.None? && r.path.prev == e.path.point && r.path.time == 0.0 &&
      r.path.ty == e.path.ty && r.pathPoints == e.pathPoints
  {
    match e
    case AnimateTrack(_, points) => AnimateTrack(None, points)
    case AssignPathAnimation(path, pathPoints) => AssignPathAnimation(Init(path, None).value, pathPoints)
  }

  /** `u32::saturating_sub(1)`. */
  function Decrement(n: nat): nat {
    if n == 0 then 0 else n - 1
  }

  /** The song-time length of an event: `60 * raw_duration / bpm`. */
  function Duration(m: Maths, bpm: real, rawDuration: real): (d: real)
    ensures bpm != 0.0 ==> d * bpm == 60.0 * rawDuration
    ensures bpm > 0.0 && rawDuration >= 0.0 ==> d >= 0.0
  {
    Div(m, 60.0 * rawDuration, bpm)
  }

  /** `(elapsed / duration).min(1.0)`: the share of the event that has passed. */
  function Progress(m: Maths, elapsed: real, duration: real): (p: real)
    ensures p <= 1.0
    ensures duration > 0.0 && elapsed >= duration ==> p == 1.0
    ensures duration > 0.0 && 0.0 <= elapsed < duration ==> 0.0 <= p < 1.0 && p * duration == elapsed
  {
    var q := Div(m, elapsed, duration);
    if q < 1.0 then q else 1.0
  }

  /** The time at which an event evaluates its definition: the eased progress. */
  function EasedProgress(m: Maths, easing: Functions, elapsed: real, duration: real): real {
    Ease(m, easing, Progress(m, elapsed, duration))
  }

  /** `set_property_value`: the definition at `time` becomes the property's value; the
      track is marked as updated only when that changes the property.  The result
      tells whether the definition's last point was reached. */
  function SetPropertyValue(points: PointDefinition, property: ValueProperty, track: Track, time: real,
                            ctx: BaseProviderContext, m: Maths): (r: Result<(ValueProperty, Track, bool)>)
    requires Valid(ctx)
    ensures r.Ok? <==> BaseInterpolate(points, time, ctx, m).Ok?
    ensures r.Ok? ==> r.value.0 == Some(BaseInterpolate(points, time, ctx, m).value.0)
    ensures r.Ok? ==> r.value.2 == BaseInterpolate(points, time, ctx, m).value.1
    ensures r.Ok? && r.value.0 == property ==> r.value.1 == track
    ensures r.Ok? && r.value.0 != property ==> r.value.1 == MarkUpdated(track)
  {
    var vl :- BaseInterpolate(points, time, ctx, m);
    if Some(vl.0) == property then Ok((property, track, vl.1))
    else Ok((Some(vl.0), MarkUpdated(track), vl.1))
  }

  /** Setting a property twice at the same time changes nothing the second time. */
  lemma SetPropertyValueIdempotent(points: PointDefinition, property: ValueProperty, track: Track, time: real,
                                   ctx: BaseProviderContext, m: Maths)
    requires Valid(ctx) && SetPropertyValue(points, property, track, time, ctx, m).Ok?
    ensures var r := SetPropertyValue(points, property, track, time, ctx, m).value;
      SetPropertyValue(points, r.0, r.1, time, ctx, m) == Ok(r)
  {
  }

  /** `animate_track`: the property follows the definition at the eased progress; the
      event goes on while its interval lasts, unless it is lazy (no base provider) and
      the last point has been reached. */
  function Animate(points: PointDefinition, property: ValueProperty, track: Track, duration: real,
                   startTime: real, songTime: real, easing: Functions, nonLazy: bool,
                   ctx: BaseProviderContext, m: Maths): (r: Result<(ValueProperty, Track, CoroutineResult)>)
    requires Valid(ctx)
    ensures var time := EasedProgress(m, easing, songTime - startTime, duration);
      var s := SetPropertyValue(points, property, track, time, ctx, m);
      (r.Ok? <==> s.Ok?) &&
      (r.Ok? ==> r.value.0 == s.value.0 && r.value.1 == s.value.1) &&
      (r.Ok? ==> (r.value.2 == Yield <==>
                  songTime - startTime < duration && (nonLazy || !BaseInterpolate(points, time, ctx, m).value.1)))
  {
    var elapsed := songTime - startTime;
    var s :- SetPropertyValue(points, property, track, EasedProgress(m, easing, elapsed, duration), ctx, m);
    var skip := !nonLazy && s.2;
    Ok((s.0, s.1, if elapsed < duration && !skip then Yield else Break))
  }

  /** `assign_path_animation`: the blend weight becomes the eased progress; the event goes
      on while its interval lasts and, when it ends, the blend is finished. */
  function AssignPath(path: PathProperty, duration: real, startTime: real, easing: Functions, songTime: real,
                      m: Maths): (r: (PathProperty, CoroutineResult))
    ensures r.1 == Yield <==> songTime - startTime < duration
    ensures r.0.time == EasedProgress(m, easing, songTime - startTime, duration)
    ensures r.0.point == path.point && r.0.ty == path.ty
    ensures r.1 == Yield ==> r.0.prev == path.prev
    ensures r.1 == Break ==> r.0.prev.None?
  {
    var elapsed := songTime - startTime;
    var blended := SetTime(path, EasedProgress(m, easing, elapsed, duration));
    if elapsed < duration then (blended, Yield) else (Finish(blended), Break)
  }

  /** Whether an event is over before it starts: no length, or even its last repetition
      has already ended. */
  predicate NoDuration(songTime: real, duration: real, startTime: real, repeat: nat) {
    duration == 0.0 || startTime + duration * (repeat as real + 1.0) < songTime
  }

  /** A value animation that `enqueue_event` applies once, at time 1, instead of
      animating it: one that is over, or one whose value cannot change over time
      (at most one point and no base provider). */
  predicate AppliedOnce(songTime: real, duration: real, startTime: real, repeat: nat, data: EventData) {
    data.property.AnimateTrack? &&
    (NoDuration(songTime, duration, startTime, repeat) ||
     (|data.property.points.points| <= 1 && !DefinitionHasBaseProvider(data.property.points)))
  }

  /** `enqueue_event`: apply the event once and decide whether it must be scheduled. */
  function EnqueueEvent(songTime: real, duration: real, startTime: real, easing: Functions, repeat: nat,
                        data: EventData, ctx: BaseProviderContext, m: Maths): (r: Result<Enqueued>)
    requires Valid(ctx)
    // without a definition the property is cleared, the track marked and nothing scheduled
    ensures GetPointDefinition(data.property).None? ==>
      r == Ok(Enqueued(SetNull(data.property), MarkUpdated(data.track), None))
    // an event that is over, or a constant one, is applied once at time 1 and not scheduled
    ensures AppliedOnce(songTime, duration, startTime, repeat, data) ==>
      var s := SetPropertyValue(data.property.points, data.property.property, data.track, 1.0, ctx, m);
      (r.Ok? <==> s.Ok?) &&
      (r.Ok? ==> r.value == Enqueued(AnimateTrack(s.value.0, data.property.points), s.value.1, None))
    // otherwise it is animated once; a break uses up one repetition without moving the start
    ensures data.property.AnimateTrack? && !AppliedOnce(songTime, duration, startTime, repeat, data) ==>
      var a := Animate(data.property.points, data.property.property, data.track, duration, startTime, songTime,
                       easing, DefinitionHasBaseProvider(data.property.points), ctx, m);
      (r.Ok? <==> a.Ok?) &&
      (r.Ok? ==> r.value.eventType == AnimateTrack(a.value.0, data.property.points) && r.value.track == a.value.1) &&
      (r.Ok? ==> (r.value.task.None? <==> a.value.2 == Break && Decrement(repeat) == 0)) &&
      (r.Ok? && r.value.task.Some? ==>
        r.value.task.value.repeat == (if a.value.2 == Break then Decrement(repeat) else repeat))
    // a path animation switches the blend to the new definition, which must be of the path's type
    ensures data.property.AssignPathAnimation? && data.property.pathPoints.Some? ==>
      (r.Ok? <==> data.property.pathPoints.value.kind == data.property.path.ty)
    ensures data.property.AssignPathAnimation? && data.property.pathPoints.Some? && r.Ok? ==>
      var started := Init(data.property.path, data.property.pathPoints).value;
      r.value.track == data.track && r.value.eventType.AssignPathAnimation? &&
      r.value.eventType.pathPoints.None? &&
      (NoDuration(songTime, duration, startTime, repeat) ==>
        r.value.eventType.path == Finish(started) && r.value.task.None?) &&
      (!NoDuration(songTime, duration, startTime, repeat) ==>
        r.value.eventType.path == AssignPath(started, duration, startTime, easing, songTime, m).0 &&
        (r.value.task.None? <==> songTime - startTime >= duration))
    // an event that is over is never scheduled
    ensures r.Ok? && NoDuration(songTime, duration, startTime, repeat) ==> r.value.task.None?
    // a scheduled task carries the event as it was left, from the same start time
    ensures r.Ok? && r.value.task.Some? ==>
      var task := r.value.task.value;
      task.eventType == r.value.eventType && task.track == r.value.track &&
      task.duration == duration && task.easing == easing && task.startTime == startTime
    ensures r.Ok? && r.value.task.Some? && data.property.AssignPathAnimation? ==> r.value.task.value.repeat == repeat
  {
    var noDuration := NoDuration(songTime, duration, startTime, repeat);
    if GetPointDefinition(data.property).None? then
      Ok(Enqueued(SetNull(data.property), MarkUpdated(data.track), None))
    else
      var hasBase := DefinitionHasBaseProvider(GetPointDefinition(data.property).value);
      match data.property
      case AnimateTrack(property, points) =>
        if noDuration || (|points.points| <= 1 && !hasBase) then
          var s :- SetPropertyValue(points, property, data.track, 1.0, ctx, m);
          Ok(Enqueued(AnimateTrack(s.0, points), s.1, None))
        else
          var a :- Animate(points, property, data.track, duration, startTime, songTime, easing, hasBase, ctx, m);
          var left := if a.2 == Break then Decrement(repeat) else repeat;
          var event := AnimateTrack(a.0, points);
          if left == 0 && a.2 == Break then Ok(Enqueued(event, a.1, None))
          else Ok(Enqueued(event, a.1, Some(CoroutineTask(event, left, duration, easing, startTime, a.1))))
      case AssignPathAnimation(path, pathPoints) =>
        var started :- Init(path, pathPoints);
        if noDuration then
          Ok(Enqueued(AssignPathAnimation(Finish(started), None), data.track, None))
        else
          var res := AssignPath(started, duration, startTime, easing, songTime, m);
          var event := AssignPathAnimation(res.0, None);
          if res.1 == Break then Ok(Enqueued(event, data.track, None))
          else Ok(Enqueued(event, data.track, Some(CoroutineTask(event, repeat, duration, easing, startTime, data.track))))
  }

  /** `start_event_coroutine`: convert the duration to song time, apply the event, and
      schedule it at the end of the list if it goes on. */
  function StartEventCoroutine(mgr: CoroutineManager, bpm: real, songTime: real, ctx: BaseProviderContext,
                               data: EventData, m: Maths): (r: Result<(CoroutineManager, Enqueued)>)
    requires Valid(ctx)
    ensures var e := EnqueueEvent(songTime, Duration(m, bpm, data.rawDuration), data.startTime, data.easing,
                                  data.repeat, data, ctx, m);
      (r.Ok? <==> e.Ok?) && (r.Ok? ==> r.value.1 == e.value)
    ensures r.Ok? ==>
      r.value.0.coroutines == mgr.coroutines + (if r.value.1.task.Some? then [r.value.1.task.value] else [])
    ensures r.Ok? && r.value.1.task.Some? && bpm != 0.0 ==>
      r.value.1.task.value.duration * bpm == 60.0 * data.rawDuration
  {
    var e :- EnqueueEvent(songTime, Duration(m, bpm, data.rawDuration), data.startTime, data.easing,
                          data.repeat, data, ctx, m);
    if e.task.Some? then Ok((CoroutineManager(mgr.coroutines + [e.task.value]), e))
    else Ok((mgr, e))
  }

  /** `poll_event`: advance one scheduled event to `songTime`.  A value animation that
      ends while repetitions are left starts its next repetition one duration later. */
  function PollEvent(songTime: real, ctx: BaseProviderContext, m: Maths, task: CoroutineTask): (r: Result<(CoroutineTask, CoroutineResult)>)
    requires Valid(ctx)
    ensures task.eventType.AnimateTrack? ==>
      var e := task.eventType;
      var a := Animate(e.points, e.property, task.track, task.duration, task.startTime, songTime, task.easing,
                       DefinitionHasBaseProvider(e.points), ctx, m);
      (r.Ok? <==> a.Ok?) &&
      (r.Ok? ==> r.value.0.eventType == AnimateTrack(a.value.0, e.points) && r.value.0.track == a.value.1) &&
      (r.Ok? && a.value.2 == Break && task.repeat > 0 ==>
        r.value.1 == Yield && r.value.0.repeat == task.repeat - 1 &&
        r.value.0.startTime == task.startTime + task.duration) &&
      (r.Ok? && !(a.value.2 == Break && task.repeat > 0) ==>
        r.value.1 == a.value.2 && r.value.0.repeat == task.repeat && r.value.0.startTime == task.startTime)
    ensures task.eventType.AssignPathAnimation? ==>
      var res := AssignPath(task.eventType.path, task.duration, task.startTime, task.easing, songTime, m);
      r == Ok((task.(eventType := AssignPathAnimation(res.0, task.eventType.pathPoints)), res.1))
    ensures r.Ok? ==> r.value.0.duration == task.duration && r.value.0.easing == task.easing
  {
    match task.eventType
    case AnimateTrack(property, points) =>
      var a :- Animate(points, property, task.track, task.duration, task.startTime, songTime, task.easing,
                       DefinitionHasBaseProvider(points), ctx, m);
      var event := AnimateTrack(a.0, points);
      if a.2 == Break && task.repeat > 0 then
        Ok((CoroutineTask(event, task.repeat - 1, task.duration, task.easing, task.startTime + task.duration, a.1), Yield))
      else
        Ok((CoroutineTask(event, task.repeat, task.duration, task.easing, task.startTime, a.1), a.2))
    case AssignPathAnimation(path, pathPoints) =>
      var res := AssignPath(path, task.duration, task.startTime, task.easing, songTime, m);
      Ok((CoroutineTask(AssignPathAnimation(res.0, pathPoints), task.repeat, task.duration, task.easing,
                        task.startTime, task.track), res.1))
  }

  /** The tasks whose poll yielded, in their original order: what `retain_mut` keeps. */
  function Retained(outcomes: seq<(CoroutineTask, CoroutineResult)>): (kept: seq<CoroutineTask>)
    ensures |kept| <= |outcomes|
  {
    if |outcomes| == 0 then []
    else
      var last := outcomes[|outcomes| - 1];
      Retained(outcomes[..|outcomes| - 1]) + (if last.1 == Yield then [last.0] else [])
  }

  /** Retention distributes over concatenation, so the survivors keep their relative order. */
  lemma {:induction false} RetainedAppend(a: seq<(CoroutineTask, CoroutineResult)>, b: seq<(CoroutineTask, CoroutineResult)>)
    ensures Retained(a + b) == Retained(a) + Retained(b)
    decreases |b|
  {
    if |b| == 0 {
      assert a + b == a;
    } else {
      var b' := b[..|b| - 1];
      assert (a + b)[..|a + b| - 1] == a + b';
      assert (a + b)[|a + b| - 1] == b[|b| - 1];
      RetainedAppend(a, b');
    }
  }

  /** A task survives exactly when some poll of it yielded. */
  lemma {:induction false} RetainedMembers(outcomes: seq<(CoroutineTask, CoroutineResult)>, t: CoroutineTask)
    ensures t in Retained(outcomes) <==> exists i :: 0 <= i < |outcomes| && outcomes[i] == (t, Yield)
  {
    if |outcomes| > 0 {
      var init := outcomes[..|outcomes| - 1];
      RetainedMembers(init, t);
      if exists i :: 0 <= i < |init| && init[i] == (t, Yield) {
        var i :| 0 <= i < |init| && init[i] == (t, Yield);
        assert outcomes[i] == (t, Yield);
      }
      if exists i :: 0 <= i < |outcomes| && outcomes[i] == (t, Yield) {
        var i :| 0 <= i < |outcomes| && outcomes[i] == (t, Yield);
        if i < |init| {
          assert init[i] == (t, Yield);
        }
      }
    }
  }

  /** `poll_events`: poll every task in order and keep exactly those that yielded.  The
      outcome of every poll is returned too, since what the ended events wrote last is
      visible through their property and track. */
  method PollEvents(mgr: CoroutineManager, songTime: real, ctx: BaseProviderContext, m: Maths)
    returns (r: Result<(CoroutineManager, seq<(CoroutineTask, CoroutineResult)>)>)
    requires Valid(ctx)
    ensures r.Ok? <==> forall i :: 0 <= i < |mgr.coroutines| ==> PollEvent(songTime, ctx, m, mgr.coroutines[i]).Ok?
    ensures r.Ok? ==> |r.value.1| == |mgr.coroutines|
    ensures r.Ok? ==> forall i :: 0 <= i < |mgr.coroutines| ==>
      r.value.1[i] == PollEvent(songTime, ctx, m, mgr.coroutines[i]).value
    ensures r.Ok? ==> r.value.0.coroutines == Retained(r.value.1)
  {
    var outcomes: seq<(CoroutineTask, CoroutineResult)> := [];
    var kept: seq<CoroutineTask> := [];
    var i := 0;
    while i < |mgr.coroutines|
      invariant 0 <= i <= |mgr.coroutines|
      invariant |outcomes| == i
      invariant forall j :: 0 <= j < i ==> PollEvent(songTime, ctx, m, mgr.coroutines[j]).Ok?
      invariant forall j :: 0 <= j < i ==> outcomes[j] == PollEvent(songTime, ctx, m, mgr.coroutines[j]).value
      invariant kept == Retained(outcomes)
    {
      var polled := PollEvent(songTime, ctx, m, mgr.coroutines[i]);
      if polled.Err? {
        return Err(polled.error);
      }
      assert (outcomes + [polled.value])[..i] == outcomes;
      outcomes := outcomes + [polled.value];
      if polled.value.1 == Yield {
        kept := kept + [polled.value.0];
      }
      i := i + 1;
    }
    r := Ok((CoroutineManager(kept), outcomes));
  }
}

=== FILE: easings.dfy ===
/** The easing curves of the crate: the `Functions` enum, its parser from the
    camel-case names used in map files, and its `Display` text.

    The curves themselves are not part of this module; evaluating one goes
    through the `ease` field of the `Maths` record.
 */
module Easings {
  import opened Wrappers

  /** The 32 easing functions, in declaration order (the order is the C discriminant). */
  datatype Functions =
    | EaseLinear
    | EaseStep
    | EaseInQuad
    | EaseOutQuad
    | EaseInOutQuad
    | EaseInCubic
    | EaseOutCubic
    | EaseInOutCubic
    | EaseInQuart
    | EaseOutQuart
    | EaseInOutQuart
    | EaseInQuint
    | EaseOutQuint
    | EaseInOutQuint
    | EaseInSine
    | EaseOutSine
    | EaseInOutSine
    | EaseInCirc
    | EaseOutCirc
    | EaseInOutCirc
    | EaseInExpo
    | EaseOutExpo
    | EaseInOutExpo
    | EaseInElastic
    | EaseOutElastic
    | EaseInOutElastic
    | EaseInBack
    | EaseOutBack
    | EaseInOutBack
    | EaseInBounce
    | EaseOutBounce
    | EaseInOutBounce

  /** The number of easing functions the enum declares. */
  const FunctionCount: nat := 32

  /** The C discriminant of a variant: its position in the declaration. */
  function Ordinal(f: Functions): (i: nat)
    ensures i < FunctionCount
  {
    match f
    case EaseLinear => 0
    case EaseStep => 1
    case EaseInQuad => 2
    case EaseOutQuad => 3
    case EaseInOutQuad => 4
    case EaseInCubic => 5
    case EaseOutCubic => 6
    case EaseInOutCubic => 7
    case EaseInQuart => 8
    case EaseOutQuart => 9
    case EaseInOutQuart => 10
    case EaseInQuint => 11
    case EaseOutQuint => 12
    case EaseInOutQuint => 13
    case EaseInSine => 14
    case EaseOutSine => 15
    case EaseInOutSine => 16
    case EaseInCirc => 17
    case EaseOutCirc => 18
    case EaseInOutCirc => 19
    case EaseInExpo => 20
    case EaseOutExpo => 21
    case EaseInOutExpo => 22
    case EaseInElastic => 23
    case EaseOutElastic => 24
    case EaseInOutElastic => 25
    case EaseInBack => 26
    case EaseOutBack => 27
    case EaseInOutBack => 28
    case EaseInBounce => 29
    case EaseOutBounce => 30
    case EaseInOutBounce => 31
  }

  /** The Rust identifier of a variant, which `Debug` (and so `Display`) prints. */
  function Name(f: Functions): (r: string)
    ensures |r| > 0 && r[0] == 'E'
  {
    match f
    case EaseLinear => "EaseLinear"
    case EaseStep => "EaseStep"
    case EaseInQuad => "EaseInQuad"
    case EaseOutQuad => "EaseOutQuad"
    case EaseInOutQuad => "EaseInOutQuad"
    case EaseInCubic => "EaseInCubic"
    case EaseOutCubic => "EaseOutCubic"
    case EaseInOutCubic => "EaseInOutCubic"
    case EaseInQuart => "EaseInQuart"
    case EaseOutQuart => "EaseOutQuart"
    case EaseInOutQuart => "EaseInOutQuart"
    case EaseInQuint => "EaseInQuint"
    case EaseOutQuint => "EaseOutQuint"
    case EaseInOutQuint => "EaseInOutQuint"
    case EaseInSine => "EaseInSine"
    case EaseOutSine => "EaseOutSine"
    case EaseInOutSine => "EaseInOutSine"
    case EaseInCirc => "EaseInCirc"
    case EaseOutCirc => "EaseOutCirc"
    case EaseInOutCirc => "EaseInOutCirc"
    case EaseInExpo => "EaseInExpo"
    case EaseOutExpo => "EaseOutExpo"
    case EaseInOutExpo => "EaseInOutExpo"
    case EaseInElastic => "EaseInElastic"
    case EaseOutElastic => "EaseOutElastic"
    case EaseInOutElastic => "EaseInOutElastic"
    case EaseInBack => "EaseInBack"
    case EaseOutBack => "EaseOutBack"
    case EaseInOutBack => "EaseInOutBack"
    case EaseInBounce => "EaseInBounce"
    case EaseOutBounce => "EaseOutBounce"
    case EaseInOutBounce => "EaseInOutBounce"
  }

  /** The spelling map files use: the identifier with its first letter in lower case. */
  function CamelName(f: Functions): (r: string)
    ensures |r| > 0 && r[0] == 'e'
  {
    match f
    case EaseLinear => "easeLinear"
    case EaseStep => "easeStep"
    case EaseInQuad => "easeInQuad"
    case EaseOutQuad => "easeOutQuad"
    case EaseInOutQuad => "easeInOutQuad"
    case EaseInCubic => "easeInCubic"
    case EaseOutCubic => "easeOutCubic"
    case EaseInOutCubic => "easeInOutCubic"
    case EaseInQuart => "easeInQuart"
    case EaseOutQuart => "easeOutQuart"
    case EaseInOutQuart => "easeInOutQuart"
    case EaseInQuint => "easeInQuint"
    case EaseOutQuint => "easeOutQuint"
    case EaseInOutQuint => "easeInOutQuint"
    case EaseInSine => "easeInSine"
    case EaseOutSine => "easeOutSine"
    case EaseInOutSine => "easeInOutSine"
    case EaseInCirc => "easeInCirc"
    case EaseOutCirc => "easeOutCirc"
    case EaseInOutCirc => "easeInOutCirc"
    case EaseInExpo => "easeInExpo"
    case EaseOutExpo => "easeOutExpo"
    case EaseInOutExpo => "easeInOutExpo"
    case EaseInElastic => "easeInElastic"
    case EaseOutElastic => "easeOutElastic"
    case EaseInOutElastic => "easeInOutElastic"
    case EaseInBack => "easeInBack"
    case EaseOutBack => "easeOutBack"
    case EaseInOutBack => "easeInOutBack"
    case EaseInBounce => "easeInBounce"
    case EaseOutBounce => "easeOutBounce"
    case EaseInOutBounce => "easeInOutBounce"
  }

  /** `Functions::from_str`; `None` stands for its `Err(())`. */
  function FromStr(s: string): (r: Option<Functions>)
    ensures r.Some? ==> |s| > 0 && s[0] == 'e'
  {
    match s
    case "easeLinear" => Some(EaseLinear)
    case "easeStep" => Some(EaseStep)
    case "easeInQuad" => Some(EaseInQuad)
    case "easeOutQuad" => Some(EaseOutQuad)
    case "easeInOutQuad" => Some(EaseInOutQuad)
    case "easeInCubic" => Some(EaseInCubic)
    case "easeOutCubic" => Some(EaseOutCubic)
    case "easeInOutCubic" => Some(EaseInOutCubic)
    case "easeInQuart" => Some(EaseInQuart)
    case "easeOutQuart" => Some(EaseOutQuart)
    case "easeInOutQuart" => Some(EaseInOutQuart)
    case "easeInQuint" => Some(EaseInQuint)
    case "easeOutQuint" => Some(EaseOutQuint)
    case "easeInOutQuint" => Some(EaseInOutQuint)
    case "easeInSine" => Some(EaseInSine)
    case "easeOutSine" => Some(EaseOutSine)
    case "easeInOutSine" => Some(EaseInOutSine)
    case "easeInCirc" => Some(EaseInCirc)
    case "easeOutCirc" => Some(EaseOutCirc)
    case "easeInOutCirc" => Some(EaseInOutCirc)
    case "easeInExpo" => Some(EaseInExpo)
    case "easeOutExpo" => Some(EaseOutExpo)
    case "easeInOutExpo" => Some(EaseInOutExpo)
    case "easeInElastic" => Some(EaseInElastic)
    case "easeOutElastic" => Some(EaseOutElastic)
    case "easeInOutElastic" => Some(EaseInOutElastic)
    case "easeInBack" => Some(EaseInBack)
    case "easeOutBack" => Some(EaseOutBack)
    case "easeInOutBack" => Some(EaseInOutBack)
    case "easeInBounce" => Some(EaseInBounce)
    case "easeOutBounce" => Some(EaseOutBounce)
    case "easeInOutBounce" => Some(EaseInOutBounce)
    case _ => None
  }

  /** `Display for Functions`: writes the Debug form, i.e. the Rust identifier. */
  function Display(f: Functions): string
  {
    Name(f)
  }

  /** Every variant is parsed back from its camel-case name. */
  lemma FromStrCamelName(f: Functions)
    ensures FromStr(CamelName(f)) == Some(f)
  {
  }

  /** Whatever the parser accepts is the camel-case name of the variant it returns. */
  lemma FromStrSound(s: string)
    ensures FromStr(s).Some? ==> CamelName(FromStr(s).value) == s
  {
  }

  /** The parser accepts a string exactly when it is the camel-case name of a variant. */
  lemma FromStrExact(s: string, f: Functions)
    ensures FromStr(s) == Some(f) <==> s == CamelName(f)
  {
    FromStrSound(s);
    if s == CamelName(f) {
      FromStrCamelName(f);
    }
  }

  /** Distinct accepted names denote distinct variants. */
  lemma FromStrInjective(s1: string, s2: string)
    requires FromStr(s1).Some? && FromStr(s1) == FromStr(s2)
    ensures s1 == s2
  {
    FromStrSound(s1);
    FromStrSound(s2);
  }

  /** What `Display` prints is never accepted back by the parser. */
  lemma DisplayNotParsed(f: Functions)
    ensures FromStr(Display(f)) == None
  {
    assert Display(f)[0] == 'E';
  }
}

=== FILE: ffi_easings.dfy ===
/** The C entry points for easings: evaluating a curve, and selecting a curve
    by integer index (for callers where passing the enum is awkward).
 */
module FfiEasings {
  import opened Easings
  import opened Maths

  /** `interpolate_easing`: evaluates exactly the curve `Functions::interpolate` evaluates. */
  function InterpolateEasing(m: Maths, f: Functions, t: real): (r: real)
    ensures r == Ease(m, f, t)
  {
    m.ease(f, t)
  }

  /** `get_easing_function_by_index`: indices 0..31 in declaration order, anything else linear. */
  function ByIndex(index: int): (f: Functions)
    ensures !(0 <= index < FunctionCount) ==> f == EaseLinear
  {
    match index
    case 0 => EaseLinear
    case 1 => EaseStep
    case 2 => EaseInQuad
    case 3 => EaseOutQuad
    case 4 => EaseInOutQuad
    case 5 => EaseInCubic
    case 6 => EaseOutCubic
    case 7 => EaseInOutCubic
    case 8 => EaseInQuart
    case 9 => EaseOutQuart
    case 10 => EaseInOutQuart
    case 11 => EaseInQuint
    case 12 => EaseOutQuint
    case 13 => EaseInOutQuint
    case 14 => EaseInSine
    case 15 => EaseOutSine
    case 16 => EaseInOutSine
    case 17 => EaseInCirc
    case 18 => EaseOutCirc
    case 19 => EaseInOutCirc
    case 20 => EaseInExpo
    case 21 => EaseOutExpo
    case 22 => EaseInOutExpo
    case 23 => EaseInElastic
    case 24 => EaseOutElastic
    case 25 => EaseInOutElastic
    case 26 => EaseInBack
    case 27 => EaseOutBack
    case 28 => EaseInOutBack
    case 29 => EaseInBounce
    case 30 => EaseOutBounce
    case 31 => EaseInOutBounce
    case _ => EaseLinear
  }

  /** `get_easing_function_count`. */
  function Count(): (n: int)
    ensures n == FunctionCount
    ensures forall f: Functions :: Ordinal(f) < n
  {
    32
  }

  /** Indices 0..31 select the variants in declaration order. */
  lemma ByIndexInRange(index: int)
    requires 0 <= index < FunctionCount
    ensures Ordinal(ByIndex(index)) == index
  {
  }

  /** Every variant is reachable through its own index. */
  lemma ByIndexOrdinal(f: Functions)
    ensures ByIndex(Ordinal(f)) == f
  {
  }

  /** The indices just outside the table, -1 and the count, both select the linear curve. */
  lemma ByIndexOutside()
    ensures ByIndex(-1) == EaseLinear && ByIndex(Count()) == EaseLinear
  {
  }
}

=== FILE: ffi_types.dfy ===
/** The C-compatible value representation: a type tag next to an untagged
    union of four `f32` slots (`WrapBaseValue`), and its conversions to and
    from `BaseValue`.
 */
module FfiTypes {
  import opened Vectors
  import opened BaseValues

  /** The `#[repr(C)]` discriminant of each value type. */
  function Tag(t: ValueType): (n: int)
    ensures 0 <= n < 4
  {
    match t
    case Vec3Type => 0
    case QuatType => 1
    case Vec4Type => 2
    case FloatType => 3
  }

  /** The union's storage: every member starts at offset 0, so member field k lives in slot k. */
  datatype WrapBaseValueUnion = WrapBaseValueUnion(s0: real, s1: real, s2: real, s3: real)

  datatype WrapBaseValue = WrapBaseValue(ty: ValueType, value: WrapBaseValueUnion)

  /** `From<BaseValue> for WrapBaseValue`. Slots the written member does not cover keep
      whatever the memory held, given here as `unset`. */
  function FromBaseValue(b: BaseValue, unset: real): (w: WrapBaseValue)
    ensures w.ty == GetType(b)
    ensures w.value.s0 == AsSlice(b)[0]
    ensures Len(b) >= 3 ==> [w.value.s0, w.value.s1, w.value.s2] == AsSlice(b)[..3]
    ensures Len(b) == 4 ==> w.value.s3 == AsSlice(b)[3]
  {
    match b
    case Vector3(v) => WrapBaseValue(Vec3Type, WrapBaseValueUnion(v.x, v.y, v.z, unset))
    case Quaternion(q) => WrapBaseValue(QuatType, WrapBaseValueUnion(q.x, q.y, q.z, q.w))
    case Vector4(v) => WrapBaseValue(Vec4Type, WrapBaseValueUnion(v.x, v.y, v.z, v.w))
    case Float(f) => WrapBaseValue(FloatType, WrapBaseValueUnion(f, unset, unset, unset))
  }

  /** `From<WrapBaseValue> for BaseValue`: reads the member the tag names. */
  function ToBaseValue(w: WrapBaseValue): (b: BaseValue)
    ensures GetType(b) == w.ty
    ensures AsSlice(b) == [w.value.s0, w.value.s1, w.value.s2, w.value.s3][..Len(b)]
  {
    match w.ty
    case Vec3Type => Vector3(Vec3(w.value.s0, w.value.s1, w.value.s2))
    case QuatType => Quaternion(Quat(w.value.s0, w.value.s1, w.value.s2, w.value.s3))
    case Vec4Type => Vector4(Vec4(w.value.s0, w.value.s1, w.value.s2, w.value.s3))
    case FloatType => Float(w.value.s0)
  }

  /** Converting to the C form and back gives the original value, whatever the unset slots held. */
  lemma RoundTrip(b: BaseValue, unset: real)
    ensures ToBaseValue(FromBaseValue(b, unset)) == b
  {
  }
}

=== FILE: game_objects.dfy ===
/** The insertion-ordered set of game objects a track drives.

    A `GameObject` is an opaque pointer the game hands over; only its identity
    matters, so it is modelled by the pointer value.  Both track revisions keep
    their objects in a vector that must behave as a set while remembering the
    order of registration.
 */
module GameObjects {

  datatype GameObject = GameObject(ptr: nat)

  /** No object occurs twice. */
  predicate Distinct(s: seq<GameObject>) {
    forall i, j :: 0 <= i < j < |s| ==> s[i] != s[j]
  }

  /** `register_game_object`'s list update: a known object is ignored, a new one is appended. */
  function Register(s: seq<GameObject>, g: GameObject): (r: seq<GameObject>)
    ensures g in r
    ensures forall x :: x in r <==> x in s || x == g
    ensures g in s ==> r == s
    ensures g !in s ==> r == s + [g]
    ensures Distinct(s) ==> Distinct(r)
  {
    if g in s then s else s + [g]
  }

  /** `Vec::retain(|go| go != g)`: every entry equal to `g` goes, the rest keep their order. */
  function Remove(s: seq<GameObject>, g: GameObject): (r: seq<GameObject>)
    ensures g !in r
    ensures forall x :: x in r <==> x in s && x != g
    ensures |r| <= |s|
    ensures g !in s ==> r == s
    ensures Distinct(s) ==> Distinct(r)
  {
    if |s| == 0 then []
    else
      var init, last := s[..|s| - 1], s[|s| - 1];
      var rest := Remove(init, g);
      assert Distinct(s) ==> Distinct(init) && last !in init;
      if last == g then rest else rest + [last]
  }

  /** Removal commutes with concatenation, so the survivors keep their relative order. */
  lemma {:induction false} RemoveAppend(a: seq<GameObject>, b: seq<GameObject>, g: GameObject)
    ensures Remove(a + b, g) == Remove(a, g) + Remove(b, g)
    decreases |b|
  {
    if |b| == 0 {
      assert a + b == a;
    } else {
      var b' := b[..|b| - 1];
      assert (a + b)[..|a + b| - 1] == a + b';
      assert (a + b)[|a + b| - 1] == b[|b| - 1];
      RemoveAppend(a, b', g);
    }
  }

  /** Registering a new object and then removing it restores the list. */
  lemma RegisterThenRemove(s: seq<GameObject>, g: GameObject)
    requires g !in s
    ensures Remove(Register(s, g), g) == s
  {
    RemoveAppend(s, [g], g);
    assert Remove([g], g) == [];
  }
}

=== FILE: json.dfy ===
/** The part of `serde_json::Value` the parser looks at. */
module Json {
  import opened Wrappers

  datatype Json =
    | JNull
    | JBool(b: bool)
    | JNumber(n: real)
    | JString(str: string)
    | JArray(items: seq<Json>)
    | JObject(members: seq<(string, Json)>)

  /** `Value::as_f64`: every JSON number is read as a float. */
  function AsF64(j: Json): (r: Option<real>)
    ensures r.Some? <==> j.JNumber?
  {
    if j.JNumber? then Some(j.n) else None
  }

  /** The numbers of a sequence, in order, every other entry dropped
      (`filter_map(as_f64)`). */
  function Numbers(items: seq<Json>): (r: seq<real>)
    ensures |r| <= |items|
  {
    if |items| == 0 then []
    else (if items[0].JNumber? then [items[0].n] else []) + Numbers(items[1..])
  }

  /** The strings of a sequence, in order. */
  function Strings(items: seq<Json>): (r: seq<string>)
    ensures |r| <= |items|
  {
    if |items| == 0 then []
    else (if items[0].JString? then [items[0].str] else []) + Strings(items[1..])
  }

  lemma {:induction false} NumbersAppend(a: seq<Json>, b: seq<Json>)
    ensures Numbers(a + b) == Numbers(a) + Numbers(b)
  {
    if |a| == 0 {
      assert a + b == b;
    } else {
      assert (a + b)[0] == a[0];
      assert (a + b)[1..] == a[1..] + b;
      NumbersAppend(a[1..], b);
    }
  }

  lemma {:induction false} StringsAppend(a: seq<Json>, b: seq<Json>)
    ensures Strings(a + b) == Strings(a) + Strings(b)
  {
    if |a| == 0 {
      assert a + b == b;
    } else {
      assert (a + b)[0] == a[0];
      assert (a + b)[1..] == a[1..] + b;
      StringsAppend(a[1..], b);
    }
  }
}

=== FILE: maths.dfy ===
/** The floating-point and rotation maths the crate takes from other crates
    (glam, palette) and from its easing implementations, none of which is part
    of this model.

    Each is a field of the `Maths` record, which is passed to every operation
    that needs it, so that every property proved here holds whatever those
    functions compute.
 */
module Maths {
  import opened Vectors
  import opened Easings

  datatype Maths = Maths(
    /** The easing curve of each `Functions` variant. */
    ease: (Functions, real) -> real,
    /** glam `Quat::slerp`. */
    slerp: (Quat, Quat, real) -> Quat,
    /** glam `Quat::from_euler(ZXYEx, a, b, c)` with each angle given in degrees. */
    fromEulerDegrees: (real, real, real) -> Quat,
    /** `to_unity_euler_degrees`: the Euler angles of a rotation as Unity orders them. */
    toUnityEulerDegrees: Quat -> Vec3,
    /** The colour part of `lerp_hsv_vec4` (palette's HSV mix, converted back to RGB). */
    hsvMixRgb: (Vec4, Vec4, real) -> Vec3,
    /** `a / 0.0` in `f32`: an infinity or NaN, which `real` cannot represent. */
    divByZero: real -> real
  )

  /** `Functions::interpolate`. */
  function Ease(m: Maths, f: Functions, t: real): real {
    m.ease(f, t)
  }

  /** `from_unity_euler_degrees`: Unity's (x, y, z) is handed to `from_euler` as (z, x, y). */
  function FromUnityEulerDegrees(m: Maths, v: Vec3): Quat {
    m.fromEulerDegrees(v.z, v.x, v.y)
  }

  /** `f32` division; a zero divisor goes through `divByZero`. */
  function Div(m: Maths, a: real, b: real): real {
    if b != 0.0 then a / b else m.divByZero(a)
  }

  function Div3(m: Maths, a: Vec3, b: Vec3): Vec3 {
    Vec3(Div(m, a.x, b.x), Div(m, a.y, b.y), Div(m, a.z, b.z))
  }

  function Div4(m: Maths, a: Vec4, b: Vec4): Vec4 {
    Vec4(Div(m, a.x, b.x), Div(m, a.y, b.y), Div(m, a.z, b.z), Div(m, a.w, b.w))
  }

  /** The linear curve is the identity, as the crate's `ease_linear` is. */
  ghost predicate LinearIsIdentity(m: Maths) {
    forall t: real {:trigger m.ease(EaseLinear, t)} :: m.ease(EaseLinear, t) == t
  }
}

=== FILE: modifiers.dfy ===
/** Modifiers (`modifiers/`): a value of one kind, static or computed from
    providers, combined left to right with child modifiers of the same kind,
    each child carrying the arithmetic operation that merges it in.
 */
module Modifiers {
  import opened Wrappers
  import opened Vectors
  import opened Maths
  import opened ProviderContext
  import opened Providers

  // ------------------------------------------------------------- operation

  datatype Operation = OpNone | OpAdd | OpSub | OpMul | OpDiv

  /** `Operation::from_str`: the four case-sensitive names, and `None` for every other
      string (it never fails). */
  function OperationFromStr(s: string): (op: Operation)
    ensures op == OpAdd <==> s == "opAdd"
    ensures op == OpSub <==> s == "opSub"
    ensures op == OpMul <==> s == "opMul"
    ensures op == OpDiv <==> s == "opDiv"
  {
    match s
    case "opAdd" => OpAdd
    case "opSub" => OpSub
    case "opMul" => OpMul
    case "opDiv" => OpDiv
    case _ => OpNone
  }

  // ------------------------------------------------------------ datatypes

  datatype ModifierValues<T> = StaticValue(value: T) | Dynamic(providers: seq<ValueProvider>)

  /** A rotation's values: statically both its Euler angles and its quaternion. */
  datatype QuaternionValues = QuatStatic(raw: Vec3, quat: Quat) | QuatDynamic(providers: seq<ValueProvider>)

  /** The four modifier kinds. `hasBase` is computed once, by the constructors below. */
  datatype Modifier =
    | FloatModifier(floatValues: ModifierValues<real>, hasBase: bool, modifiers: seq<Modifier>, operation: Operation)
    | Vector3Modifier(vec3Values: ModifierValues<Vec3>, hasBase: bool, modifiers: seq<Modifier>, operation: Operation)
    | Vector4Modifier(vec4Values: ModifierValues<Vec4>, hasBase: bool, modifiers: seq<Modifier>, operation: Operation)
    | QuaternionModifier(quatValues: QuaternionValues, hasBase: bool, modifiers: seq<Modifier>, operation: Operation)

  /** `static_values` / `as_static_values`. */
  function StaticValues<T>(v: ModifierValues<T>): (r: Option<T>)
    ensures r.Some? <==> v.StaticValue?
    ensures r.Some? ==> v == StaticValue(r.value)
  {
    match v
    case StaticValue(s) => Some(s)
    case Dynamic(_) => None
  }

  /** Some child modifier reads a base provider. */
  predicate AnyHasBase(mods: seq<Modifier>) {
    exists i :: 0 <= i < |mods| && mods[i].hasBase
  }

  /** `shared_has_base_provider`. */
  function SharedHasBaseProvider(isDynamic: bool, mods: seq<Modifier>): bool {
    isDynamic || AnyHasBase(mods)
  }

  function NewFloatModifier(point: ModifierValues<real>, mods: seq<Modifier>, op: Operation): (r: Modifier)
    ensures r.FloatModifier? && r.floatValues == point && r.modifiers == mods && r.operation == op
    ensures r.hasBase <==> point.Dynamic? || exists i :: 0 <= i < |mods| && mods[i].hasBase
  {
    FloatModifier(point, SharedHasBaseProvider(point.Dynamic?, mods), mods, op)
  }

  function NewVector3Modifier(point: ModifierValues<Vec3>, mods: seq<Modifier>, op: Operation): (r: Modifier)
    ensures r.Vector3Modifier? && r.vec3Values == point && r.modifiers == mods && r.operation == op
    ensures r.hasBase <==> point.Dynamic? || exists i :: 0 <= i < |mods| && mods[i].hasBase
  {
    Vector3Modifier(point, SharedHasBaseProvider(point.Dynamic?, mods), mods, op)
  }

  function NewVector4Modifier(point: ModifierValues<Vec4>, mods: seq<Modifier>, op: Operation): (r: Modifier)
    ensures r.Vector4Modifier? && r.vec4Values == point && r.modifiers == mods && r.operation == op
    ensures r.hasBase <==> point.Dynamic? || exists i :: 0 <= i < |mods| && mods[i].hasBase
  {
    Vector4Modifier(point, SharedHasBaseProvider(point.Dynamic?, mods), mods, op)
  }

  function NewQuaternionModifier(point: QuaternionValues, mods: seq<Modifier>, op: Operation): (r: Modifier)
    ensures r.QuaternionModifier? && r.quatValues == point && r.modifiers == mods && r.operation == op
    ensures r.hasBase <==> point.QuatDynamic? || exists i :: 0 <= i < |mods| && mods[i].hasBase
  {
    QuaternionModifier(point, SharedHasBaseProvider(point.QuatDynamic?, mods), mods, op)
  }

  // --------------------------------------------------- fill_values / convert

  /** All the providers' numbers, concatenated in order. */
  function Flatten(ps: seq<ValueProvider>, ctx: BaseProviderContext, m: Maths): (r: Result<seq<real>>)
    requires Valid(ctx)
    ensures r.Ok? ==> forall i :: 0 <= i < |ps| ==> Values(ps[i], ctx, m).Ok?
  {
    if |ps| == 0 then Ok([])
    else
      var vs :- Values(ps[0], ctx, m);
      var rest :- Flatten(ps[1..], ctx, m);
      Ok(vs + rest)
  }

  /** The loop of `fill_values` from the first provider of `ps`, `acc` already collected.
      Every provider up to the first number that no longer fits is read, so a buffer that is
      exactly full still reads the next provider, and its failure still fails the fill. */
  function Fill(ps: seq<ValueProvider>, ctx: BaseProviderContext, m: Maths, count: nat, acc: seq<real>): (r: Result<seq<real>>)
    requires Valid(ctx) && |acc| <= count
    ensures r.Ok? ==> |r.value| <= count && acc <= r.value
  {
    if |ps| == 0 then Ok(acc)
    else
      var vs :- Values(ps[0], ctx, m);
      if |acc| + |vs| > count then Ok((acc + vs)[..count])
      else Fill(ps[1..], ctx, m, count, acc + vs)
  }

  /** `fill_values` with `VALUE_COUNT == count`. */
  function FillValues(ps: seq<ValueProvider>, ctx: BaseProviderContext, m: Maths, count: nat): (r: Result<seq<real>>)
    requires Valid(ctx)
    ensures r.Ok? ==> |r.value| <= count
    ensures |ps| == 0 ==> r == Ok([])
  {
    Fill(ps, ctx, m, count, [])
  }

  function Min(a: nat, b: nat): nat {
    if a <= b then a else b
  }

  lemma {:induction false} FillSpec(ps: seq<ValueProvider>, ctx: BaseProviderContext, m: Maths, count: nat, acc: seq<real>)
    requires Valid(ctx) && |acc| <= count
    requires Flatten(ps, ctx, m).Ok?
    ensures Fill(ps, ctx, m, count, acc) ==
      Ok((acc + Flatten(ps, ctx, m).value)[..Min(|acc| + |Flatten(ps, ctx, m).value|, count)])
    decreases |ps|
  {
    if |ps| > 0 {
      var vs := Values(ps[0], ctx, m).value;
      var rest := Flatten(ps[1..], ctx, m).value;
      assert Flatten(ps, ctx, m).value == vs + rest;
      assert acc + (vs + rest) == (acc + vs) + rest;
      if |acc| + |vs| > count {
        assert ((acc + vs) + rest)[..count] == (acc + vs)[..count];
      } else {
        FillSpec(ps[1..], ctx, m, count, acc + vs);
      }
    } else {
      assert acc + [] == acc;
    }
  }

  /** When every provider can be read, `fill_values` is the in-order concatenation of their
      numbers, cut to `count`; its length is therefore the smaller of the total and `count`. */
  lemma FillValuesSpec(ps: seq<ValueProvider>, ctx: BaseProviderContext, m: Maths, count: nat)
    requires Valid(ctx) && Flatten(ps, ctx, m).Ok?
    ensures FillValues(ps, ctx, m, count).Ok?
    ensures FillValues(ps, ctx, m, count).value == Flatten(ps, ctx, m).value[..Min(|Flatten(ps, ctx, m).value|, count)]
    ensures |FillValues(ps, ctx, m, count).value| == Min(|Flatten(ps, ctx, m).value|, count)
  {
    FillSpec(ps, ctx, m, count, []);
    assert [] + Flatten(ps, ctx, m).value == Flatten(ps, ctx, m).value;
  }

  /** `FloatModifier::translate`: the first number. */
  function TranslateFloat(vs: seq<real>): (r: Result<real>)
    ensures r.Ok? <==> |vs| >= 1
    ensures r.Ok? ==> r.value == vs[0]
  {
    if |vs| < 1 then Err(IndexOutOfRange) else Ok(vs[0])
  }

  /** `Vector3Modifier::translate`: the first three numbers. */
  function TranslateVec3(vs: seq<real>): (r: Result<Vec3>)
    ensures r.Ok? <==> |vs| >= 3
    ensures r.Ok? ==> [r.value.x, r.value.y, r.value.z] == vs[..3]
  {
    if |vs| < 3 then Err(IndexOutOfRange) else Ok(Vec3(vs[0], vs[1], vs[2]))
  }

  /** `Vector4Modifier::translate`: the first four numbers. */
  function TranslateVec4(vs: seq<real>): (r: Result<Vec4>)
    ensures r.Ok? <==> |vs| >= 4
    ensures r.Ok? ==> [r.value.x, r.value.y, r.value.z, r.value.w] == vs[..4]
  {
    if |vs| < 4 then Err(IndexOutOfRange) else Ok(Vec4(vs[0], vs[1], vs[2], vs[3]))
  }

  /** `QuaternionModifier::translate`: the first three numbers read as Unity Euler degrees. */
  function TranslateQuat(m: Maths, vs: seq<real>): (r: Result<Quat>)
    ensures r.Ok? <==> |vs| >= 3
    ensures r.Ok? ==> r.value == FromUnityEulerDegrees(m, Vec3(vs[0], vs[1], vs[2]))
  {
    var v :- TranslateVec3(vs);
    Ok(FromUnityEulerDegrees(m, v))
  }

  /** `convert` for each kind: `translate` of `fill_values`. */
  function ConvertFloat(ps: seq<ValueProvider>, ctx: BaseProviderContext, m: Maths): Result<real>
    requires Valid(ctx)
  {
    var vs :- FillValues(ps, ctx, m, 1);
    TranslateFloat(vs)
  }

  function ConvertVec3(ps: seq<ValueProvider>, ctx: BaseProviderContext, m: Maths): Result<Vec3>
    requires Valid(ctx)
  {
    var vs :- FillValues(ps, ctx, m, 3);
    TranslateVec3(vs)
  }

  function ConvertVec4(ps: seq<ValueProvider>, ctx: BaseProviderContext, m: Maths): Result<Vec4>
    requires Valid(ctx)
  {
    var vs :- FillValues(ps, ctx, m, 4);
    TranslateVec4(vs)
  }

  function ConvertQuat(ps: seq<ValueProvider>, ctx: BaseProviderContext, m: Maths): Result<Quat>
    requires Valid(ctx)
  {
    var vs :- FillValues(ps, ctx, m, 3);
    TranslateQuat(m, vs)
  }

  /** Component `k` of the Euler vector `translate_euler` builds from `vs`: the k-th number,
      or 0 when there is none. */
  function EulerComponent(vs: seq<real>, k: nat): real {
    if k < |vs| then vs[k] else 0.0
  }

  /** `translate_euler`: the first (at most three) numbers, missing components left at 0. */
  function TranslateEuler(ps: seq<ValueProvider>, ctx: BaseProviderContext, m: Maths): Result<Vec3>
    requires Valid(ctx)
  {
    var vs :- FillValues(ps, ctx, m, 3);
    Ok(Vec3(EulerComponent(vs, 0), EulerComponent(vs, 1), EulerComponent(vs, 2)))
  }

  /** When every provider can be read, `translate_euler` holds the first numbers in order
      and zero where the providers run out. */
  lemma TranslateEulerSpec(ps: seq<ValueProvider>, ctx: BaseProviderContext, m: Maths)
    requires Valid(ctx) && Flatten(ps, ctx, m).Ok?
    ensures TranslateEuler(ps, ctx, m).Ok?
    ensures var all := Flatten(ps, ctx, m).value; var v := TranslateEuler(ps, ctx, m).value;
      v.x == EulerComponent(all, 0) && v.y == EulerComponent(all, 1) && v.z == EulerComponent(all, 2)
  {
    FillValuesSpec(ps, ctx, m, 3);
  }

  /** The same modifier with its children replaced. */
  function WithModifiers(md: Modifier, mods: seq<Modifier>): (r: Modifier)
    ensures r.modifiers == mods && r.hasBase == md.hasBase && r.operation == md.operation
  {
    match md
    case FloatModifier(v, h, _, op) => FloatModifier(v, h, mods, op)
    case Vector3Modifier(v, h, _, op) => Vector3Modifier(v, h, mods, op)
    case Vector4Modifier(v, h, _, op) => Vector4Modifier(v, h, mods, op)
    case QuaternionModifier(v, h, _, op) => QuaternionModifier(v, h, mods, op)
  }

  // ------------------------------------------------------------ get_point

  function ApplyFloat(m: Maths, op: Operation, acc: real, v: real): real {
    match op
    case OpAdd => acc + v
    case OpSub => acc - v
    case OpMul => acc * v
    case OpDiv => Div(m, acc, v)
    case OpNone => v
  }

  function ApplyVec3(m: Maths, op: Operation, acc: Vec3, v: Vec3): Vec3 {
    match op
    case OpAdd => Add3(acc, v)
    case OpSub => Sub3(acc, v)
    case OpMul => Mul3(acc, v)
    case OpDiv => Div3(m, acc, v)
    case OpNone => v
  }

  function ApplyVec4(m: Maths, op: Operation, acc: Vec4, v: Vec4): Vec4 {
    match op
    case OpAdd => Add4(acc, v)
    case OpSub => Sub4(acc, v)
    case OpMul => Mul4(acc, v)
    case OpDiv => Div4(m, acc, v)
    case OpNone => v
  }

  /** The value a float modifier starts its fold from. */
  function FloatOriginal(md: Modifier, ctx: BaseProviderContext, m: Maths): Result<real>
    requires Valid(ctx) && md.FloatModifier?
  {
    match md.floatValues
    case StaticValue(s) => Ok(s)
    case Dynamic(ps) => ConvertFloat(ps, ctx, m)
  }

  /** `Modifier::get_float` (and `FloatModifier::get_point` on a float modifier). */
  function GetFloat(md: Modifier, ctx: BaseProviderContext, m: Maths): (r: Result<real>)
    requires Valid(ctx)
    ensures !md.FloatModifier? ==> r == Err(WrongModifierType)
    decreases md, 1
  {
    if !md.FloatModifier? then Err(WrongModifierType)
    else
      var original :- FloatOriginal(md, ctx, m);
      FoldFloat(md.modifiers, ctx, m, 0, original)
  }

  function FoldFloat(kids: seq<Modifier>, ctx: BaseProviderContext, m: Maths, i: nat, acc: real): Result<real>
    requires Valid(ctx) && i <= |kids|
    decreases kids, 0, |kids| - i
  {
    if i == |kids| then Ok(acc)
    else
      var v :- GetFloat(kids[i], ctx, m);
      FoldFloat(kids, ctx, m, i + 1, ApplyFloat(m, kids[i].operation, acc, v))
  }

  lemma {:induction false} FoldFloatSnoc(kids: seq<Modifier>, x: Modifier, ctx: BaseProviderContext, m: Maths, i: nat, acc: real)
    requires Valid(ctx) && i <= |kids|
    ensures FoldFloat(kids + [x], ctx, m, i, acc) ==
      (var a :- FoldFloat(kids, ctx, m, i, acc); var v :- GetFloat(x, ctx, m); Ok(ApplyFloat(m, x.operation, a, v)))
    decreases |kids| - i
  {
    if i < |kids| {
      assert (kids + [x])[i] == kids[i];
      var v := GetFloat(kids[i], ctx, m);
      if v.Ok? {
        FoldFloatSnoc(kids, x, ctx, m, i + 1, ApplyFloat(m, kids[i].operation, acc, v.value));
      }
    } else {
      assert (kids + [x])[i] == x;
    }
  }

  /** Float `get_point`: with no children it is the original value; otherwise it is the
      result without the last child, merged with the last child by that child's operation
      (a left fold), so a last child with `None` decides the result alone. */
  lemma FloatGetPoint(md: Modifier, ctx: BaseProviderContext, m: Maths)
    requires Valid(ctx) && md.FloatModifier?
    ensures |md.modifiers| == 0 ==> GetFloat(md, ctx, m) == FloatOriginal(md, ctx, m)
    ensures |md.modifiers| > 0 ==>
      var x := md.modifiers[|md.modifiers| - 1];
      GetFloat(md, ctx, m) ==
        (var a :- GetFloat(WithModifiers(md, md.modifiers[..|md.modifiers| - 1]), ctx, m);
         var v :- GetFloat(x, ctx, m);
         Ok(ApplyFloat(m, x.operation, a, v)))
    ensures |md.modifiers| > 0 && md.modifiers[|md.modifiers| - 1].operation == OpNone && GetFloat(md, ctx, m).Ok? ==>
      GetFloat(md, ctx, m) == GetFloat(md.modifiers[|md.modifiers| - 1], ctx, m)
  {
    if |md.modifiers| > 0 {
      var n := |md.modifiers| - 1;
      assert md.modifiers == md.modifiers[..n] + [md.modifiers[n]];
      var o := FloatOriginal(md, ctx, m);
      if o.Ok? {
        FoldFloatSnoc(md.modifiers[..n], md.modifiers[n], ctx, m, 0, o.value);
      }
    }
  }

  /** The value a vector3 modifier starts its fold from. */
  function Vec3Original(md: Modifier, ctx: BaseProviderContext, m: Maths): Result<Vec3>
    requires Valid(ctx) && md.Vector3Modifier?
  {
    match md.vec3Values
    case StaticValue(s) => Ok(s)
    case Dynamic(ps) => ConvertVec3(ps, ctx, m)
  }

  /** `Modifier::get_vector3`. */
  function GetVector3(md: Modifier, ctx: BaseProviderContext, m: Maths): (r: Result<Vec3>)
    requires Valid(ctx)
    ensures !md.Vector3Modifier? ==> r == Err(WrongModifierType)
    decreases md, 1
  {
    if !md.Vector3Modifier? then Err(WrongModifierType)
    else
      var original :- Vec3Original(md, ctx, m);
      FoldVec3(md.modifiers, ctx, m, 0, original)
  }

  function FoldVec3(kids: seq<Modifier>, ctx: BaseProviderContext, m: Maths, i: nat, acc: Vec3): Result<Vec3>
    requires Valid(ctx) && i <= |kids|
    decreases kids, 0, |kids| - i
  {
    if i == |kids| then Ok(acc)
    else
      var v :- GetVector3(kids[i], ctx, m);
      FoldVec3(kids, ctx, m, i + 1, ApplyVec3(m, kids[i].operation, acc, v))
  }

  lemma {:induction false} FoldVec3Snoc(kids: seq<Modifier>, x: Modifier, ctx: BaseProviderContext, m: Maths, i: nat, acc: Vec3)
    requires Valid(ctx) && i <= |kids|
    ensures FoldVec3(kids + [x], ctx, m, i, acc) ==
      (var a :- FoldVec3(kids, ctx, m, i, acc); var v :- GetVector3(x, ctx, m); Ok(ApplyVec3(m, x.operation, a, v)))
    decreases |kids| - i
  {
    if i < |kids| {
      assert (kids + [x])[i] == kids[i];
      var v := GetVector3(kids[i], ctx, m);
      if v.Ok? {
        FoldVec3Snoc(kids, x, ctx, m, i + 1, ApplyVec3(m, kids[i].operation, acc, v.value));
      }
    } else {
      assert (kids + [x])[i] == x;
    }
  }

  /** Vector3 `get_point`: the original vector, folded component-wise with the children. */
  lemma Vector3GetPoint(md: Modifier, ctx: BaseProviderContext, m: Maths)
    requires Valid(ctx) && md.Vector3Modifier?
    ensures |md.modifiers| == 0 ==> GetVector3(md, ctx, m) == Vec3Original(md, ctx, m)
    ensures |md.modifiers| > 0 ==>
      var x := md.modifiers[|md.modifiers| - 1];
      GetVector3(md, ctx, m) ==
        (var a :- GetVector3(WithModifiers(md, md.modifiers[..|md.modifiers| - 1]), ctx, m);
         var v :- GetVector3(x, ctx, m);
         Ok(ApplyVec3(m, x.operation, a, v)))
    ensures |md.modifiers| > 0 && md.modifiers[|md.modifiers| - 1].operation == OpNone && GetVector3(md, ctx, m).Ok? ==>
      GetVector3(md, ctx, m) == GetVector3(md.modifiers[|md.modifiers| - 1], ctx, m)
  {
    if |md.modifiers| > 0 {
      var n := |md.modifiers| - 1;
      assert md.modifiers == md.modifiers[..n] + [md.modifiers[n]];
      var o := Vec3Original(md, ctx, m);
      if o.Ok? {
        FoldVec3Snoc(md.modifiers[..n], md.modifiers[n], ctx, m, 0, o.value);
      }
    }
  }

  /** The value a vector4 modifier starts its fold from. */
  function Vec4Original(md: Modifier, ctx: BaseProviderContext, m: Maths): Result<Vec4>
    requires Valid(ctx) && md.Vector4Modifier?
  {
    match md.vec4Values
    case StaticValue(s) => Ok(s)
    case Dynamic(ps) => ConvertVec4(ps, ctx, m)
  }

  /** `Modifier::get_vector4`. */
  function GetVector4(md: Modifier, ctx: BaseProviderContext, m: Maths): (r: Result<Vec4>)
    requires Valid(ctx)
    ensures !md.Vector4Modifier? ==> r == Err(WrongModifierType)
    decreases md, 1
  {
    if !md.Vector4Modifier? then Err(WrongModifierType)
    else
      var original :- Vec4Original(md, ctx, m);
      FoldVec4(md.modifiers, ctx, m, 0, original)
  }

  function FoldVec4(kids: seq<Modifier>, ctx: BaseProviderContext, m: Maths, i: nat, acc: Vec4): Result<Vec4>
    requires Valid(ctx) && i <= |kids|
    decreases kids, 0, |kids| - i
  {
    if i == |kids| then Ok(acc)
    else
      var v :- GetVector4(kids[i], ctx, m);
      FoldVec4(kids, ctx, m, i + 1, ApplyVec4(m, kids[i].operation, acc, v))
  }

  lemma {:induction false} FoldVec4Snoc(kids: seq<Modifier>, x: Modifier, ctx: BaseProviderContext, m: Maths, i: nat, acc: Vec4)
    requires Valid(ctx) && i <= |kids|
    ensures FoldVec4(kids + [x], ctx, m, i, acc) ==
      (var a :- FoldVec4(kids, ctx, m, i, acc); var v :- GetVector4(x, ctx, m); Ok(ApplyVec4(m, x.operation, a, v)))
    decreases |kids| - i
  {
    if i < |kids| {
      assert (kids + [x])[i] == kids[i];
      var v := GetVector4(kids[i], ctx, m);
      if v.Ok? {
        FoldVec4Snoc(kids, x, ctx, m, i + 1, ApplyVec4(m, kids[i].operation, acc, v.value));
      }
    } else {
      assert (kids + [x])[i] == x;
    }
  }

  /** Vector4 `get_point`: the original vector, folded component-wise with the children. */
  lemma Vector4GetPoint(md: Modifier, ctx: BaseProviderContext, m: Maths)
    requires Valid(ctx) && md.Vector4Modifier?
    ensures |md.modifiers| == 0 ==> GetVector4(md, ctx, m) == Vec4Original(md, ctx, m)
    ensures |md.modifiers| > 0 ==>
      var x := md.modifiers[|md.modifiers| - 1];
      GetVector4(md, ctx, m) ==
        (var a :- GetVector4(WithModifiers(md, md.modifiers[..|md.modifiers| - 1]), ctx, m);
         var v :- GetVector4(x, ctx, m);
         Ok(ApplyVec4(m, x.operation, a, v)))
    ensures |md.modifiers| > 0 && md.modifiers[|md.modifiers| - 1].operation == OpNone && GetVector4(md, ctx, m).Ok? ==>
      GetVector4(md, ctx, m) == GetVector4(md.modifiers[|md.modifiers| - 1], ctx, m)
  {
    if |md.modifiers| > 0 {
      var n := |md.modifiers| - 1;
      assert md.modifiers == md.modifiers[..n] + [md.modifiers[n]];
      var o := Vec4Original(md, ctx, m);
      if o.Ok? {
        FoldVec4Snoc(md.modifiers[..n], md.modifiers[n], ctx, m, 0, o.value);
      }
    }
  }

  /** The Euler vector a rotation modifier starts its fold from. */
  function EulerOriginal(md: Modifier, ctx: BaseProviderContext, m: Maths): Result<Vec3>
    requires Valid(ctx) && md.QuaternionModifier?
  {
    match md.quatValues
    case QuatStatic(raw, _) => Ok(raw)
    case QuatDynamic(ps) => TranslateEuler(ps, ctx, m)
  }

  /** `QuaternionModifier::get_vector_point`: the Euler vector, folded component-wise with
      the children's Euler vectors; a child of another kind fails. */
  function GetVectorPoint(md: Modifier, ctx: BaseProviderContext, m: Maths): (r: Result<Vec3>)
    requires Valid(ctx)
    ensures !md.QuaternionModifier? ==> r == Err(WrongModifierType)
    decreases md, 1
  {
    if !md.QuaternionModifier? then Err(WrongModifierType)
    else
      var original :- EulerOriginal(md, ctx, m);
      FoldEuler(md.modifiers, ctx, m, 0, original)
  }

  function FoldEuler(kids: seq<Modifier>, ctx: BaseProviderContext, m: Maths, i: nat, acc: Vec3): Result<Vec3>
    requires Valid(ctx) && i <= |kids|
    decreases kids, 0, |kids| - i
  {
    if i == |kids| then Ok(acc)
    else
      var v :- GetVectorPoint(kids[i], ctx, m);
      FoldEuler(kids, ctx, m, i + 1, ApplyVec3(m, kids[i].operation, acc, v))
  }

  lemma {:induction false} FoldEulerSnoc(kids: seq<Modifier>, x: Modifier, ctx: BaseProviderContext, m: Maths, i: nat, acc: Vec3)
    requires Valid(ctx) && i <= |kids|
    ensures FoldEuler(kids + [x], ctx, m, i, acc) ==
      (var a :- FoldEuler(kids, ctx, m, i, acc); var v :- GetVectorPoint(x, ctx, m); Ok(ApplyVec3(m, x.operation, a, v)))
    decreases |kids| - i
  {
    if i < |kids| {
      assert (kids + [x])[i] == kids[i];
      var v := GetVectorPoint(kids[i], ctx, m);
      if v.Ok? {
        FoldEulerSnoc(kids, x, ctx, m, i + 1, ApplyVec3(m, kids[i].operation, acc, v.value));
      }
    } else {
      assert (kids + [x])[i] == x;
    }
  }

  /** `get_vector_point`: the original Euler vector folded left to right with the children. */
  lemma VectorPointFold(md: Modifier, ctx: BaseProviderContext, m: Maths)
    requires Valid(ctx) && md.QuaternionModifier?
    ensures |md.modifiers| == 0 ==> GetVectorPoint(md, ctx, m) == EulerOriginal(md, ctx, m)
    ensures |md.modifiers| > 0 ==>
      var x := md.modifiers[|md.modifiers| - 1];
      GetVectorPoint(md, ctx, m) ==
        (var a :- GetVectorPoint(WithModifiers(md, md.modifiers[..|md.modifiers| - 1]), ctx, m);
         var v :- GetVectorPoint(x, ctx, m);
         Ok(ApplyVec3(m, x.operation, a, v)))
  {
    if |md.modifiers| > 0 {
      var n := |md.modifiers| - 1;
      assert md.modifiers == md.modifiers[..n] + [md.modifiers[n]];
      var o := EulerOriginal(md, ctx, m);
      if o.Ok? {
        FoldEulerSnoc(md.modifiers[..n], md.modifiers[n], ctx, m, 0, o.value);
      }
    }
  }

  /** `Modifier::get_quaternion`: a static rotation without children is returned as stored;
      otherwise the folded Euler vector is converted back to a rotation. */
  function GetQuaternion(md: Modifier, ctx: BaseProviderContext, m: Maths): (r: Result<Quat>)
    requires Valid(ctx)
    ensures !md.QuaternionModifier? ==> r == Err(WrongModifierType)
    ensures md.QuaternionModifier? && |md.modifiers| == 0 && md.quatValues.QuatStatic? ==>
      r == Ok(md.quatValues.quat)
    ensures md.QuaternionModifier? && !(|md.modifiers| == 0 && md.quatValues.QuatStatic?) ==>
      (r.Ok? <==> GetVectorPoint(md, ctx, m).Ok?) &&
      (r.Ok? ==> r.value == FromUnityEulerDegrees(m, GetVectorPoint(md, ctx, m).value))
  {
    if !md.QuaternionModifier? then Err(WrongModifierType)
    else if |md.modifiers| == 0 && md.quatValues.QuatStatic? then Ok(QuatRawPoint(md))
    else
      var v :- GetVectorPoint(md, ctx, m);
      Ok(FromUnityEulerDegrees(m, v))
  }

  // -------------------------------------------------------- get_raw_point

  /** `get_raw_point` of a float modifier: the static value, or 0. */
  function FloatRawPoint(md: Modifier): (r: real)
    requires md.FloatModifier?
    ensures md.floatValues.StaticValue? ==> r == md.floatValues.value
    ensures md.floatValues.Dynamic? ==> r == 0.0
  {
    StaticValues(md.floatValues).GetOr(0.0)
  }

  /** `get_raw_point` of a vector3 modifier: the static vector, or zero. */
  function Vec3RawPoint(md: Modifier): (r: Vec3)
    requires md.Vector3Modifier?
    ensures md.vec3Values.StaticValue? ==> r == md.vec3Values.value
    ensures md.vec3Values.Dynamic? ==> r == Vec3Zero
  {
    StaticValues(md.vec3Values).GetOr(Vec3Zero)
  }

  /** `get_raw_point` of a vector4 modifier: the static vector, or zero. */
  function Vec4RawPoint(md: Modifier): (r: Vec4)
    requires md.Vector4Modifier?
    ensures md.vec4Values.StaticValue? ==> r == md.vec4Values.value
    ensures md.vec4Values.Dynamic? ==> r == Vec4Zero
  {
    StaticValues(md.vec4Values).GetOr(Vec4Zero)
  }

  /** `get_raw_point` of a rotation modifier: the static quaternion, or the identity. */
  function QuatRawPoint(md: Modifier): (r: Quat)
    requires md.QuaternionModifier?
    ensures md.quatValues.QuatStatic? ==> r == md.quatValues.quat
    ensures md.quatValues.QuatDynamic? ==> r == QuatIdentity
  {
    match md.quatValues
    case QuatStatic(_, q) => q
    case QuatDynamic(_) => QuatIdentity
  }
}

=== FILE: path_interpolation.dfy ===
/** `PointDefinitionInterpolation`: the state of a path property, which blends
    from the definition it held before the last `init` to the one it holds now.

    The Rust struct keeps references into the context's point-definition table;
    the model keeps the definitions themselves, which is the same thing for a
    table that is never changed while the path property is alive.
 */
module PathInterpolation {
  import opened Wrappers
  import opened Vectors
  import opened Maths
  import opened BaseValues
  import opened ProviderContext
  import opened PointDefinitions

  datatype PathInterpolation = PathInterpolation(
    /** The blend weight of `point` against `prev`, set by the path animation coroutine. */
    time: real,
    prev: Option<PointDefinition>,
    point: Option<PointDefinition>,
    ty: ValueType)

  /** Every definition the state holds is of the state's own type, which is what `init` checks. */
  predicate Consistent(p: PathInterpolation) {
    (p.prev.Some? ==> p.prev.value.kind == p.ty) &&
    (p.point.Some? ==> p.point.value.kind == p.ty)
  }

  /** `new`: nothing to blend from yet. */
  function New(point: Option<PointDefinition>, ty: ValueType): (p: PathInterpolation)
    ensures p.time == 0.0 && p.prev.None? && p.point == point && p.ty == ty
    ensures Consistent(p) <==> (point.Some? ==> point.value.kind == ty)
  {
    PathInterpolation(0.0, None, point, ty)
  }

  /** `empty`: no definition at all. */
  function Empty(ty: ValueType): (p: PathInterpolation)
    ensures p.time == 0.0 && p.prev.None? && p.point.None? && p.ty == ty
    ensures Consistent(p)
  {
    PathInterpolation(0.0, None, None, ty)
  }

  function GetType(p: PathInterpolation): ValueType {
    p.ty
  }

  /** `finish`: the blend is over, so only the current definition is kept. */
  function Finish(p: PathInterpolation): (q: PathInterpolation)
    ensures q.prev.None?
    ensures q.point == p.point && q.time == p.time && GetType(q) == GetType(p)
    ensures Consistent(p) ==> Consistent(q)
  {
    PathInterpolation(p.time, None, p.point, p.ty)
  }

  /** `init`: the current definition becomes the previous one and the blend restarts
      at 0; a new definition of another type than the state's makes the crate panic. */
  function Init(p: PathInterpolation, newPoint: Option<PointDefinition>): (r: Result<PathInterpolation>)
    ensures r.Ok? <==> (newPoint.Some? ==> newPoint.value.kind == p.ty)
    ensures r.Err? ==> r.error == MismatchedPathType
    ensures r.Ok? ==> r.value.time == 0.0 && r.value.prev == p.point && r.value.point == newPoint
    ensures r.Ok? ==> GetType(r.value) == GetType(p)
    ensures r.Ok? && Consistent(p) ==> Consistent(r.value)
  {
    if newPoint.Some? && newPoint.value.kind != p.ty then Err(MismatchedPathType)
    else Ok(PathInterpolation(0.0, p.point, newPoint, p.ty))
  }

  /** The coroutine writes the eased progress of the path animation into `time`. */
  function SetTime(p: PathInterpolation, t: real): (q: PathInterpolation)
    ensures q.time == t && q.prev == p.prev && q.point == p.point && GetType(q) == GetType(p)
  {
    PathInterpolation(t, p.prev, p.point, p.ty)
  }

  /** `interpolate`: the previous and the current definition evaluated at `time` and
      blended by the state's own `time`; the current one alone when there is no
      previous one; nothing when there is no current one. */
  function Interpolate(p: PathInterpolation, time: real, ctx: BaseProviderContext, m: Maths): (r: Result<Option<BaseValue>>)
    requires Valid(ctx)
    ensures p.point.None? ==> r == Ok(None)
    ensures p.point.Some? && p.prev.None? ==>
      (r.Ok? <==> BaseInterpolate(p.point.value, time, ctx, m).Ok?) &&
      (r.Ok? ==> r.value == Some(BaseInterpolate(p.point.value, time, ctx, m).value.0))
    ensures p.point.Some? && p.prev.Some? ==>
      (r.Ok? <==> (BaseInterpolate(p.prev.value, time, ctx, m).Ok? && BaseInterpolate(p.point.value, time, ctx, m).Ok? &&
                   BaseValues.Lerp(m, BaseInterpolate(p.prev.value, time, ctx, m).value.0,
                                   BaseInterpolate(p.point.value, time, ctx, m).value.0, p.time).Ok?))
    ensures p.point.Some? && p.prev.Some? && r.Ok? ==>
      r.value == Some(BaseValues.Lerp(m, BaseInterpolate(p.prev.value, time, ctx, m).value.0,
                                       BaseInterpolate(p.point.value, time, ctx, m).value.0, p.time).value)
  {
    match (p.prev, p.point)
    case (Some(a), Some(b)) =>
      var va :- BaseInterpolate(a, time, ctx, m);
      var vb :- BaseInterpolate(b, time, ctx, m);
      var v :- BaseValues.Lerp(m, va.0, vb.0, p.time);
      Ok(Some(v))
    case (None, Some(b)) =>
      var vb :- BaseInterpolate(b, time, ctx, m);
      Ok(Some(vb.0))
    case _ => Ok(None)
  }

  /** In a consistent state whose definitions are not empty, the blend never mixes kinds:
      whenever both definitions evaluate, the result exists and is of the state's type. */
  lemma InterpolateKeepsType(p: PathInterpolation, time: real, ctx: BaseProviderContext, m: Maths)
    requires Valid(ctx) && Consistent(p)
    requires p.prev.Some? ==> |p.prev.value.points| > 0
    requires p.point.Some? && |p.point.value.points| > 0
    requires p.prev.Some? ==> BaseInterpolate(p.prev.value, time, ctx, m).Ok?
    requires BaseInterpolate(p.point.value, time, ctx, m).Ok?
    ensures Interpolate(p, time, ctx, m).Ok?
    ensures Interpolate(p, time, ctx, m).value.Some?
    ensures BaseValues.GetType(Interpolate(p, time, ctx, m).value.value) == p.ty
  {
    BaseInterpolateDelegates(p.point.value, time, ctx, m);
    if p.prev.Some? {
      BaseInterpolateDelegates(p.prev.value, time, ctx, m);
    }
  }

  /** Right after `init` the blend weight is 0, so (apart from quaternions, which slerp)
      the path still shows the previous definition; at weight 1 it shows the new one. */
  lemma BlendEndpoints(p: PathInterpolation, time: real, ctx: BaseProviderContext, m: Maths)
    requires Valid(ctx) && p.prev.Some? && p.point.Some?
    requires Interpolate(p, time, ctx, m).Ok?
    requires !BaseInterpolate(p.prev.value, time, ctx, m).value.0.Quaternion?
    ensures p.time == 0.0 ==>
      Interpolate(p, time, ctx, m) == Ok(Some(BaseInterpolate(p.prev.value, time, ctx, m).value.0))
    ensures p.time == 1.0 ==>
      Interpolate(p, time, ctx, m) == Ok(Some(BaseInterpolate(p.point.value, time, ctx, m).value.0))
  {
    var a := BaseInterpolate(p.prev.value, time, ctx, m).value.0;
    var b := BaseInterpolate(p.point.value, time, ctx, m).value.0;
    LerpComponents(m, a, b, p.time);
  }

  /** An empty previous definition of a kind other than float evaluates to a float zero,
      which `BaseValue::lerp` cannot blend with a value of the state's kind: the crate
      panics while such a blend is in progress. */
  lemma EmptyPrevFails(p: PathInterpolation, time: real, ctx: BaseProviderContext, m: Maths)
    requires Valid(ctx) && Consistent(p) && p.ty != FloatType
    requires p.prev.Some? && |p.prev.value.points| == 0
    requires p.point.Some? && |p.point.value.points| > 0
    ensures Interpolate(p, time, ctx, m).Err?
  {
    BaseInterpolateDelegates(p.point.value, time, ctx, m);
  }
}

=== FILE: point_data.dfy ===
/** Keyframes (`point_data/`): a base modifier that computes the keyframe's value, the
    keyframe's time, the easing applied when arriving at it, and a per-kind flag.
 */
module PointData {
  import opened Wrappers
  import opened Vectors
  import opened Easings
  import opened Maths
  import opened ProviderContext
  import opened Modifiers

  /** `PointData`: exactly four kinds of keyframe. */
  datatype PointData =
    | FloatPointData(modifier: Modifier, easing: Functions, time: real)
    | Vector3PointData(modifier: Modifier, easing: Functions, smooth: bool, time: real)
    | Vector4PointData(modifier: Modifier, easing: Functions, hsvLerp: bool, time: real)
    | QuaternionPointData(modifier: Modifier, easing: Functions, time: real)

  /** `FloatPointData::new`: the base modifier carries the `None` operation. */
  function NewFloatPointData(point: ModifierValues<real>, time: real, mods: seq<Modifier>, easing: Functions): (p: PointData)
    ensures p.FloatPointData? && p.time == time && p.easing == easing
    ensures p.modifier.FloatModifier? && p.modifier.floatValues == point
    ensures p.modifier.modifiers == mods && p.modifier.operation == OpNone
    ensures HasBaseProvider(p) <==> point.Dynamic? || AnyHasBase(mods)
  {
    FloatPointData(NewFloatModifier(point, mods, OpNone), easing, time)
  }

  /** `Vector3PointData::new`. */
  function NewVector3PointData(point: ModifierValues<Vec3>, smooth: bool, time: real, mods: seq<Modifier>, easing: Functions): (p: PointData)
    ensures p.Vector3PointData? && p.time == time && p.easing == easing && p.smooth == smooth
    ensures p.modifier.Vector3Modifier? && p.modifier.vec3Values == point
    ensures p.modifier.modifiers == mods && p.modifier.operation == OpNone
    ensures HasBaseProvider(p) <==> point.Dynamic? || AnyHasBase(mods)
  {
    Vector3PointData(NewVector3Modifier(point, mods, OpNone), easing, smooth, time)
  }

  /** `Vector4PointData::new`. */
  function NewVector4PointData(point: ModifierValues<Vec4>, hsvLerp: bool, time: real, mods: seq<Modifier>, easing: Functions): (p: PointData)
    ensures p.Vector4PointData? && p.time == time && p.easing == easing && p.hsvLerp == hsvLerp
    ensures p.modifier.Vector4Modifier? && p.modifier.vec4Values == point
    ensures p.modifier.modifiers == mods && p.modifier.operation == OpNone
    ensures HasBaseProvider(p) <==> point.Dynamic? || AnyHasBase(mods)
  {
    Vector4PointData(NewVector4Modifier(point, mods, OpNone), easing, hsvLerp, time)
  }

  /** `QuaternionPointData::new`. */
  function NewQuaternionPointData(point: QuaternionValues, time: real, mods: seq<Modifier>, easing: Functions): (p: PointData)
    ensures p.QuaternionPointData? && p.time == time && p.easing == easing
    ensures p.modifier.QuaternionModifier? && p.modifier.quatValues == point
    ensures p.modifier.modifiers == mods && p.modifier.operation == OpNone
    ensures HasBaseProvider(p) <==> point.QuatDynamic? || AnyHasBase(mods)
  {
    QuaternionPointData(NewQuaternionModifier(point, mods, OpNone), easing, time)
  }

  /** `has_base_provider`: the base modifier's flag. */
  function HasBaseProvider(p: PointData): bool {
    p.modifier.hasBase
  }

  /** `PointData::get_float`: a float keyframe's value, and a failure for any other kind. */
  function PointFloat(p: PointData, ctx: BaseProviderContext, m: Maths): (r: Result<real>)
    requires Valid(ctx)
    ensures !p.FloatPointData? ==> r == Err(WrongPointDataType)
    ensures p.FloatPointData? ==> r == GetFloat(p.modifier, ctx, m)
  {
    if p.FloatPointData? then GetFloat(p.modifier, ctx, m) else Err(WrongPointDataType)
  }

  /** `PointData::get_vector3`. */
  function PointVector3(p: PointData, ctx: BaseProviderContext, m: Maths): (r: Result<Vec3>)
    requires Valid(ctx)
    ensures !p.Vector3PointData? ==> r == Err(WrongPointDataType)
    ensures p.Vector3PointData? ==> r == GetVector3(p.modifier, ctx, m)
  {
    if p.Vector3PointData? then GetVector3(p.modifier, ctx, m) else Err(WrongPointDataType)
  }

  /** `PointData::get_vector4`. */
  function PointVector4(p: PointData, ctx: BaseProviderContext, m: Maths): (r: Result<Vec4>)
    requires Valid(ctx)
    ensures !p.Vector4PointData? ==> r == Err(WrongPointDataType)
    ensures p.Vector4PointData? ==> r == GetVector4(p.modifier, ctx, m)
  {
    if p.Vector4PointData? then GetVector4(p.modifier, ctx, m) else Err(WrongPointDataType)
  }

  /** `PointData::get_quaternion`. */
  function PointQuaternion(p: PointData, ctx: BaseProviderContext, m: Maths): (r: Result<Quat>)
    requires Valid(ctx)
    ensures !p.QuaternionPointData? ==> r == Err(WrongPointDataType)
    ensures p.QuaternionPointData? ==> r == GetQuaternion(p.modifier, ctx, m)
  {
    if p.QuaternionPointData? then GetQuaternion(p.modifier, ctx, m) else Err(WrongPointDataType)
  }

  /** A keyframe built from a static value and no modifiers evaluates to that value, in
      every context: the typed getter is its base modifier's `get_point`. */
  lemma StaticPointValue(ctx: BaseProviderContext, m: Maths, time: real, easing: Functions,
                         f: real, v3: Vec3, v4: Vec4, raw: Vec3, q: Quat, smooth: bool, hsv: bool)
    requires Valid(ctx)
    ensures PointFloat(NewFloatPointData(StaticValue(f), time, [], easing), ctx, m) == Ok(f)
    ensures PointVector3(NewVector3PointData(StaticValue(v3), smooth, time, [], easing), ctx, m) == Ok(v3)
    ensures PointVector4(NewVector4PointData(StaticValue(v4), hsv, time, [], easing), ctx, m) == Ok(v4)
    ensures PointQuaternion(NewQuaternionPointData(QuatStatic(raw, q), time, [], easing), ctx, m) == Ok(q)
  {
    FloatGetPoint(NewFloatPointData(StaticValue(f), time, [], easing).modifier, ctx, m);
    Vector3GetPoint(NewVector3PointData(StaticValue(v3), smooth, time, [], easing).modifier, ctx, m);
    Vector4GetPoint(NewVector4PointData(StaticValue(v4), hsv, time, [], easing).modifier, ctx, m);
  }
}

=== FILE: point_definitions.dfy ===
/** Point definitions (`point_definition/`): keyframes of one kind, kept in the order
    they were authored, and the interpolation between them.

    `PointDefinition(kind, points)` stands both for the four typed definitions
    (`FloatPointDefinition`, ...) and for the `BasePointDefinition` enum wrapping them: the
    kind is the enum's variant, and a typed definition's value is the `BaseValue` of
    its kind.
 */
module PointDefinitions {
  import opened Wrappers
  import opened Vectors
  import opened Easings
  import opened Maths
  import opened BaseValues
  import opened ProviderContext
  import opened Providers
  import opened Modifiers
  import opened PointData

  datatype PointDefinition = PointDefinition(kind: ValueType, points: seq<PointData>)

  /** `get_type`: the kind of the wrapped definition. The `From` impls keep the points
      and choose the variant of their typed definition, so they are the constructor. */
  function GetType(d: PointDefinition): ValueType {
    d.kind
  }

  /** `get_count`. */
  function GetCount(d: PointDefinition): nat {
    |d.points|
  }

  /** `points.iter().any(has_base_provider)`, from index `i`. */
  function AnyBase(points: seq<PointData>, i: nat): (b: bool)
    requires i <= |points|
    ensures b <==> exists k :: i <= k < |points| && HasBaseProvider(points[k])
    decreases |points| - i
  {
    if i == |points| then false
    else HasBaseProvider(points[i]) || AnyBase(points, i + 1)
  }

  /** `has_base_provider` of a definition: some keyframe reads the base provider context. */
  function DefinitionHasBaseProvider(d: PointDefinition): (b: bool)
    ensures b <==> exists k :: 0 <= k < |d.points| && HasBaseProvider(d.points[k])
  {
    AnyBase(d.points, 0)
  }

  // ----------------------------------------------------------- get_point

  /** `get_point`: the keyframe's value, as a `BaseValue` of the definition's kind. */
  function GetPoint(kind: ValueType, p: PointData, ctx: BaseProviderContext, m: Maths): (r: Result<BaseValue>)
    requires Valid(ctx)
    ensures r.Ok? ==> BaseValues.GetType(r.value) == kind
    ensures kind == FloatType ==> (r.Ok? <==> PointFloat(p, ctx, m).Ok?)
    ensures kind == Vec3Type ==> (r.Ok? <==> PointVector3(p, ctx, m).Ok?)
    ensures kind == Vec4Type ==> (r.Ok? <==> PointVector4(p, ctx, m).Ok?)
    ensures kind == QuatType ==> (r.Ok? <==> PointQuaternion(p, ctx, m).Ok?)
    ensures kind == FloatType && r.Ok? ==> r.value == Float(PointFloat(p, ctx, m).value)
    ensures kind == Vec3Type && r.Ok? ==> r.value == Vector3(PointVector3(p, ctx, m).value)
    ensures kind == Vec4Type && r.Ok? ==> r.value == Vector4(PointVector4(p, ctx, m).value)
    ensures kind == QuatType && r.Ok? ==> r.value == Quaternion(PointQuaternion(p, ctx, m).value)
  {
    match kind
    case FloatType => var v :- PointFloat(p, ctx, m); Ok(Float(v))
    case Vec3Type => var v :- PointVector3(p, ctx, m); Ok(Vector3(v))
    case Vec4Type => var v :- PointVector4(p, ctx, m); Ok(Vector4(v))
    case QuatType => var v :- PointQuaternion(p, ctx, m); Ok(Quaternion(v))
  }

  // --------------------------------------------------- interpolate_points

  /** One component of the Catmull-Rom blend of `smooth_vector_lerp`. */
  function CatmullRom(p0: real, a: real, b: real, p3: real, t: real): (r: real)
    ensures t == 0.0 ==> r == a
    ensures t == 1.0 ==> r == b
  {
    var tt := t * t;
    var ttt := tt * t;
    var q0 := -ttt + 2.0 * tt - t;
    var q1 := 3.0 * ttt - 5.0 * tt + 2.0;
    var q2 := -3.0 * ttt + 4.0 * tt + t;
    var q3 := ttt - tt;
    0.5 * (p0 * q0 + a * q1 + b * q2 + p3 * q3)
  }

  function CatmullRom3(p0: Vec3, a: Vec3, b: Vec3, p3: Vec3, t: real): (r: Vec3)
    ensures t == 0.0 ==> r == a
    ensures t == 1.0 ==> r == b
  {
    Vec3(CatmullRom(p0.x, a.x, b.x, p3.x, t), CatmullRom(p0.y, a.y, b.y, p3.y, t), CatmullRom(p0.z, a.z, b.z, p3.z, t))
  }

  /** `smooth_vector_lerp`: a Catmull-Rom spline through keyframes `l` and `r`, using the
      keyframes around them as control points and the end keyframes themselves where
      there is no neighbour. */
  function SmoothVectorLerp(points: seq<PointData>, l: nat, r: nat, t: real, ctx: BaseProviderContext, m: Maths): (res: Result<Vec3>)
    requires Valid(ctx) && l < |points| && r < |points|
    ensures res.Ok? ==> PointVector3(points[l], ctx, m).Ok? && PointVector3(points[r], ctx, m).Ok?
    ensures res.Ok? && t == 0.0 ==> res.value == PointVector3(points[l], ctx, m).value
    ensures res.Ok? && t == 1.0 ==> res.value == PointVector3(points[r], ctx, m).value
    ensures res.Ok? && l == 0 && r + 1 == |points| ==>
      var a := PointVector3(points[l], ctx, m).value;
      var b := PointVector3(points[r], ctx, m).value;
      res.value == CatmullRom3(a, a, b, b, t)
  {
    var a :- PointVector3(points[l], ctx, m);
    var b :- PointVector3(points[r], ctx, m);
    var p0 :- if l > 0 then PointVector3(points[l - 1], ctx, m) else Ok(a);
    var p3 :- if r + 1 < |points| then PointVector3(points[r + 1], ctx, m) else Ok(b);
    Ok(CatmullRom3(p0, a, b, p3, t))
  }

  /** `lerp_hsv_vec4`: the colour is mixed in HSV space (outside this model); the alpha
      channel is interpolated linearly. */
  function LerpHsvVec4(m: Maths, c1: Vec4, c2: Vec4, t: real): (r: Vec4)
    ensures Vec3(r.x, r.y, r.z) == m.hsvMixRgb(c1, c2, t)
    ensures t == 0.0 ==> r.w == c1.w
    ensures t == 1.0 ==> r.w == c2.w
    ensures r.w == Vectors.Lerp(c1.w, c2.w, t)
  {
    var rgb := m.hsvMixRgb(c1, c2, t);
    Vec4(rgb.x, rgb.y, rgb.z, c1.w * (1.0 - t) + c2.w * t)
  }

  /** Float `interpolate_points`: linear interpolation of the two keyframes' values. */
  function InterpolateFloat(points: seq<PointData>, l: nat, r: nat, t: real, ctx: BaseProviderContext, m: Maths): (res: Result<real>)
    requires Valid(ctx) && l < |points| && r < |points|
    ensures res.Ok? <==> PointFloat(points[l], ctx, m).Ok? && PointFloat(points[r], ctx, m).Ok?
    ensures res.Ok? && t == 0.0 ==> res.value == PointFloat(points[l], ctx, m).value
    ensures res.Ok? && t == 1.0 ==> res.value == PointFloat(points[r], ctx, m).value
  {
    var a :- PointFloat(points[l], ctx, m);
    var b :- PointFloat(points[r], ctx, m);
    Ok(Vectors.Lerp(a, b, t))
  }

  /** Vector3 `interpolate_points`: the spline when the right-hand keyframe is smooth,
      component-wise linear interpolation otherwise. */
  function InterpolateVector3(points: seq<PointData>, l: nat, r: nat, t: real, ctx: BaseProviderContext, m: Maths): (res: Result<Vec3>)
    requires Valid(ctx) && l < |points| && r < |points|
    ensures points[r].Vector3PointData? && points[r].smooth ==> res == SmoothVectorLerp(points, l, r, t, ctx, m)
    ensures !(points[r].Vector3PointData? && points[r].smooth) ==>
      (res.Ok? <==> PointVector3(points[l], ctx, m).Ok? && PointVector3(points[r], ctx, m).Ok?) &&
      (res.Ok? ==> res.value == Lerp3(PointVector3(points[l], ctx, m).value, PointVector3(points[r], ctx, m).value, t))
  {
    if points[r].Vector3PointData? && points[r].smooth then SmoothVectorLerp(points, l, r, t, ctx, m)
    else
      var a :- PointVector3(points[l], ctx, m);
      var b :- PointVector3(points[r], ctx, m);
      Ok(Lerp3(a, b, t))
  }

  /** Vector4 `interpolate_points`: HSV mixing when the left-hand keyframe asks for it,
      component-wise linear interpolation otherwise. */
  function InterpolateVector4(points: seq<PointData>, l: nat, r: nat, t: real, ctx: BaseProviderContext, m: Maths): (res: Result<Vec4>)
    requires Valid(ctx) && l < |points| && r < |points|
    ensures res.Ok? <==> PointVector4(points[l], ctx, m).Ok? && PointVector4(points[r], ctx, m).Ok?
    ensures res.Ok? && points[l].hsvLerp ==>
      res.value == LerpHsvVec4(m, PointVector4(points[l], ctx, m).value, PointVector4(points[r], ctx, m).value, t)
    ensures res.Ok? && !points[l].hsvLerp ==>
      res.value == Lerp4(PointVector4(points[l], ctx, m).value, PointVector4(points[r], ctx, m).value, t)
  {
    var a :- PointVector4(points[l], ctx, m);
    var b :- PointVector4(points[r], ctx, m);
    if points[l].Vector4PointData? && points[l].hsvLerp then Ok(LerpHsvVec4(m, a, b, t)) else Ok(Lerp4(a, b, t))
  }

  /** Quaternion `interpolate_points`: spherical interpolation of the two rotations. */
  function InterpolateQuaternion(points: seq<PointData>, l: nat, r: nat, t: real, ctx: BaseProviderContext, m: Maths): (res: Result<Quat>)
    requires Valid(ctx) && l < |points| && r < |points|
    ensures res.Ok? <==> PointQuaternion(points[l], ctx, m).Ok? && PointQuaternion(points[r], ctx, m).Ok?
    ensures res.Ok? ==> res.value == m.slerp(PointQuaternion(points[l], ctx, m).value, PointQuaternion(points[r], ctx, m).value, t)
  {
    var a :- PointQuaternion(points[l], ctx, m);
    var b :- PointQuaternion(points[r], ctx, m);
    Ok(m.slerp(a, b, t))
  }

  /** `BasePointDefinition::interpolate_points`: the typed result wrapped in the
      `BaseValue` of the same kind. */
  function InterpolatePoints(kind: ValueType, points: seq<PointData>, l: nat, r: nat, t: real, ctx: BaseProviderContext, m: Maths): (res: Result<BaseValue>)
    requires Valid(ctx) && l < |points| && r < |points|
    ensures res.Ok? ==> BaseValues.GetType(res.value) == kind
    ensures kind == FloatType ==> (res.Ok? <==> InterpolateFloat(points, l, r, t, ctx, m).Ok?)
    ensures kind == FloatType && res.Ok? ==> res.value == Float(InterpolateFloat(points, l, r, t, ctx, m).value)
    ensures kind == Vec3Type ==> (res.Ok? <==> InterpolateVector3(points, l, r, t, ctx, m).Ok?)
    ensures kind == Vec3Type && res.Ok? ==> res.value == Vector3(InterpolateVector3(points, l, r, t, ctx, m).value)
    ensures kind == Vec4Type ==> (res.Ok? <==> InterpolateVector4(points, l, r, t, ctx, m).Ok?)
    ensures kind == Vec4Type && res.Ok? ==> res.value == Vector4(InterpolateVector4(points, l, r, t, ctx, m).value)
    ensures kind == QuatType ==> (res.Ok? <==> InterpolateQuaternion(points, l, r, t, ctx, m).Ok?)
    ensures kind == QuatType && res.Ok? ==> res.value == Quaternion(InterpolateQuaternion(points, l, r, t, ctx, m).value)
  {
    match kind
    case FloatType => var v :- InterpolateFloat(points, l, r, t, ctx, m); Ok(Float(v))
    case Vec3Type => var v :- InterpolateVector3(points, l, r, t, ctx, m); Ok(Vector3(v))
    case Vec4Type => var v :- InterpolateVector4(points, l, r, t, ctx, m); Ok(Vector4(v))
    case QuatType => var v :- InterpolateQuaternion(points, l, r, t, ctx, m); Ok(Quaternion(v))
  }

  /** The linear blends meet the keyframes' own `get_point` values at 0 and 1. The spline,
      the HSV mix and slerp are left out: their end values come from `Maths`. */
  lemma InterpolatePointsMeetsKeyframes(kind: ValueType, points: seq<PointData>, l: nat, r: nat,
                                        ctx: BaseProviderContext, m: Maths)
    requires Valid(ctx) && l < |points| && r < |points|
    requires kind == FloatType ||
      (kind == Vec3Type && !(points[r].Vector3PointData? && points[r].smooth)) ||
      (kind == Vec4Type && !(points[l].Vector4PointData? && points[l].hsvLerp))
    ensures InterpolatePoints(kind, points, l, r, 0.0, ctx, m).Ok? <==>
      GetPoint(kind, points[l], ctx, m).Ok? && GetPoint(kind, points[r], ctx, m).Ok?
    ensures InterpolatePoints(kind, points, l, r, 1.0, ctx, m).Ok? <==>
      GetPoint(kind, points[l], ctx, m).Ok? && GetPoint(kind, points[r], ctx, m).Ok?
    ensures InterpolatePoints(kind, points, l, r, 0.0, ctx, m).Ok? ==>
      InterpolatePoints(kind, points, l, r, 0.0, ctx, m).value == GetPoint(kind, points[l], ctx, m).value
    ensures InterpolatePoints(kind, points, l, r, 1.0, ctx, m).Ok? ==>
      InterpolatePoints(kind, points, l, r, 1.0, ctx, m).value == GetPoint(kind, points[r], ctx, m).value
  {
    match kind
    case FloatType =>
    case Vec3Type =>
    case Vec4Type =>
  }

  // --------------------------------------------------------- search_index

  /** The halving loop of `search_index` from the window `(l, r)`. Nothing is assumed
      about the order of the keyframes' times. */
  function SearchFrom(points: seq<PointData>, time: real, l: nat, r: nat): (lr: (nat, nat))
    requires l < r <= |points|
    ensures l <= lr.0 && lr.1 == lr.0 + 1 && lr.1 <= r
    ensures (l == 0 || points[l].time < time) ==> (lr.0 == 0 || points[lr.0].time < time)
    ensures lr.0 > l ==> points[lr.0].time < time
    ensures (r == |points| || points[r].time >= time) ==> (lr.1 == |points| || points[lr.1].time >= time)
    decreases r - l
  {
    if l < r - 1 then
      var mid := (l + r) / 2;
      if points[mid].time < time then SearchFrom(points, time, mid, r) else SearchFrom(points, time, l, mid)
    else (l, r)
  }

  /** `search_index`: `l` only moves to keyframes earlier than `time` and `r` only to
      keyframes not earlier than it, so when the first keyframe is earlier and the last
      is not, the result brackets `time` with adjacent indices, sorted or not. */
  method SearchIndex(points: seq<PointData>, time: real) returns (l: nat, r: nat)
    requires |points| > 0
    ensures r == l + 1 && r <= |points|
    ensures points[0].time < time ==> points[l].time < time
    ensures r == |points| || points[r].time >= time
    ensures points[0].time < time <= points[|points| - 1].time ==> r < |points|
    ensures (l, r) == SearchFrom(points, time, 0, |points|)
  {
    l := 0;
    r := |points|;
    while l < r - 1
      invariant 0 <= l < r <= |points|
      invariant l == 0 || points[l].time < time
      invariant r == |points| || points[r].time >= time
      invariant SearchFrom(points, time, l, r) == SearchFrom(points, time, 0, |points|)
      decreases r - l
    {
      var mid := (l + r) / 2;
      if points[mid].time < time {
        l := mid;
      } else {
        r := mid;
      }
    }
  }

  /** When the keyframes are sorted by time, the bracketing interval is unique, so the
      search finds the one interval containing `time`. */
  lemma BracketUnique(points: seq<PointData>, time: real, l1: nat, l2: nat)
    requires forall i, j :: 0 <= i <= j < |points| ==> points[i].time <= points[j].time
    requires l1 + 1 < |points| && points[l1].time < time <= points[l1 + 1].time
    requires l2 + 1 < |points| && points[l2].time < time <= points[l2 + 1].time
    ensures l1 == l2
  {
  }

  /** The position of `time` between two keyframe times, or 0 for a zero-length interval. */
  function NormalTime(tl: real, tr: real, time: real): (t: real)
    ensures tl < time <= tr ==> 0.0 < t <= 1.0
    ensures tl < tr && time == tr ==> t == 1.0
  {
    if tr - tl != 0.0 then (time - tl) / (tr - tl) else 0.0
  }

  // ---------------------------------------------------------- interpolate

  /** A value paired with the `is_last` flag, failures passed through. */
  function Tagged(v: Result<BaseValue>, isLast: bool): Result<(BaseValue, bool)> {
    match v
    case Ok(x) => Ok((x, isLast))
    case Err(e) => Err(e)
  }

  /** The shared `interpolate`, with the value an empty definition reports. */
  function InterpolateWith(kind: ValueType, points: seq<PointData>, time: real, default: BaseValue,
                           ctx: BaseProviderContext, m: Maths): (r: Result<(BaseValue, bool)>)
    requires Valid(ctx)
    ensures |points| == 0 ==> r == Ok((default, true))
    ensures |points| > 0 && points[|points| - 1].time <= time ==>
      r == Tagged(GetPoint(kind, points[|points| - 1], ctx, m), true)
    ensures |points| > 0 && time < points[|points| - 1].time && time <= points[0].time ==>
      r == Tagged(GetPoint(kind, points[0], ctx, m), false)
    ensures r.Ok? && |points| > 0 ==> BaseValues.GetType(r.value.0) == kind
    ensures r.Ok? && |points| > 0 ==> (r.value.1 <==> points[|points| - 1].time <= time)
  {
    if |points| == 0 then Ok((default, true))
    else if points[|points| - 1].time <= time then Tagged(GetPoint(kind, points[|points| - 1], ctx, m), true)
    else if points[0].time >= time then Tagged(GetPoint(kind, points[0], ctx, m), false)
    else
      var lr := SearchFrom(points, time, 0, |points|);
      var l := lr.0;
      var r := lr.1;
      assert r < |points| by {
        if r == |points| { assert points[l].time < time; }
      }
      var normal := NormalTime(points[l].time, points[r].time, time);
      Tagged(InterpolatePoints(kind, points, l, r, Ease(m, points[r].easing, normal), ctx, m), false)
  }

  /** Strictly between the first and the last keyframe, `interpolate` blends two adjacent
      keyframes that bracket `time`, at the normalised time eased by the right-hand
      keyframe's easing, and never reports the last point. */
  lemma InterpolateBetween(kind: ValueType, points: seq<PointData>, time: real, default: BaseValue,
                           ctx: BaseProviderContext, m: Maths)
    requires Valid(ctx) && |points| > 0 && points[0].time < time < points[|points| - 1].time
    ensures exists l: nat :: (l + 1 < |points| && points[l].time < time <= points[l + 1].time &&
      0.0 < NormalTime(points[l].time, points[l + 1].time, time) <= 1.0 &&
      InterpolateWith(kind, points, time, default, ctx, m) ==
        Tagged(InterpolatePoints(kind, points, l, l + 1,
          Ease(m, points[l + 1].easing, NormalTime(points[l].time, points[l + 1].time, time)), ctx, m), false))
  {
    var lr := SearchFrom(points, time, 0, |points|);
    var l := lr.0;
    assert lr.1 < |points|;
    assert points[l].time < time <= points[l + 1].time;
  }

  /** A typed definition's `interpolate`: an empty one reports its kind's default value. */
  function Interpolate(d: PointDefinition, time: real, ctx: BaseProviderContext, m: Maths): (r: Result<(BaseValue, bool)>)
    requires Valid(ctx)
    ensures r.Ok? ==> BaseValues.GetType(r.value.0) == d.kind
    ensures |d.points| == 0 ==> r == Ok((Zero(d.kind), true))
  {
    InterpolateWith(d.kind, d.points, time, Zero(d.kind), ctx, m)
  }

  /** `BasePointDefinition`'s `interpolate`: an empty one reports `BaseValue::default()`,
      a float zero, whatever its kind. */
  function BaseInterpolate(d: PointDefinition, time: real, ctx: BaseProviderContext, m: Maths): (r: Result<(BaseValue, bool)>)
    requires Valid(ctx)
    ensures |d.points| == 0 ==> r == Ok((BaseValues.Default, true))
  {
    InterpolateWith(d.kind, d.points, time, BaseValues.Default, ctx, m)
  }

  /** Interpolating through the enum is interpolating the wrapped definition, except on
      an empty definition of a kind other than float, where the enum reports a float
      zero instead of its kind's zero. */
  lemma BaseInterpolateDelegates(d: PointDefinition, time: real, ctx: BaseProviderContext, m: Maths)
    requires Valid(ctx)
    ensures |d.points| > 0 || d.kind == FloatType ==> BaseInterpolate(d, time, ctx, m) == Interpolate(d, time, ctx, m)
    ensures |d.points| == 0 && d.kind != FloatType ==>
      BaseValues.GetType(BaseInterpolate(d, time, ctx, m).value.0) != d.kind
  {
  }

  // ---------------------------------------------------- create_point_data

  /** The numbers of the one static provider when there is exactly one provider and it is static. */
  function SingleStatic(values: seq<ValueProvider>): (r: Option<seq<real>>)
    ensures r.Some? <==> |values| == 1 && values[0].Static?
    ensures r.Some? ==> r.value == values[0].st.values
  {
    if |values| == 1 && values[0].Static? then Some(values[0].st.values) else None
  }

  /** The total number of numbers the providers yield (`map(len).sum()`). */
  function TotalCount(values: seq<ValueProvider>, ctx: BaseProviderContext, m: Maths): (r: Result<nat>)
    requires Valid(ctx)
    ensures r.Ok? <==> Flatten(values, ctx, m).Ok?
    ensures r.Ok? ==> r.value == |Flatten(values, ctx, m).value|
  {
    var flat :- Flatten(values, ctx, m);
    Ok(|flat|)
  }

  /** The last number of the last provider, or 0 when there is none. */
  function LastOfLast(values: seq<ValueProvider>, ctx: BaseProviderContext, m: Maths): Result<real>
    requires Valid(ctx)
  {
    if |values| == 0 then Ok(0.0)
    else
      var vs :- Values(values[|values| - 1], ctx, m);
      Ok(if |vs| == 0 then 0.0 else vs[|vs| - 1])
  }

  /** The time of a keyframe whose values stay dynamic: the last number when the providers
      yield exactly `n` numbers (value plus time), and 0 otherwise. */
  function DynamicTime(values: seq<ValueProvider>, n: nat, ctx: BaseProviderContext, m: Maths): (r: Result<real>)
    requires Valid(ctx)
    ensures r.Ok? <==> Flatten(values, ctx, m).Ok?
    ensures r.Ok? && |Flatten(values, ctx, m).value| != n ==> r.value == 0.0
    ensures r.Ok? && |Flatten(values, ctx, m).value| == n ==> r == LastOfLast(values, ctx, m)
  {
    var count :- TotalCount(values, ctx, m);
    if count == n then LastOfLast(values, ctx, m) else Ok(0.0)
  }

  /** The last provider's numbers close the concatenation, so when it yields any, the
      dynamic time is the last number overall. */
  lemma LastOfLastIsLast(values: seq<ValueProvider>, ctx: BaseProviderContext, m: Maths)
    requires Valid(ctx) && Flatten(values, ctx, m).Ok? && |values| > 0
    requires |Values(values[|values| - 1], ctx, m).value| > 0
    ensures |Flatten(values, ctx, m).value| > 0 &&
      LastOfLast(values, ctx, m) == Ok(Flatten(values, ctx, m).value[|Flatten(values, ctx, m).value| - 1])
  {
    FlattenLast(values, ctx, m);
  }

  lemma {:induction false} FlattenLast(values: seq<ValueProvider>, ctx: BaseProviderContext, m: Maths)
    requires Valid(ctx) && Flatten(values, ctx, m).Ok? && |values| > 0
    ensures Values(values[|values| - 1], ctx, m).Ok?
    ensures |Values(values[|values| - 1], ctx, m).value| <= |Flatten(values, ctx, m).value|
    ensures Flatten(values, ctx, m).value[|Flatten(values, ctx, m).value| - |Values(values[|values| - 1], ctx, m).value|..]
            == Values(values[|values| - 1], ctx, m).value
  {
    if |values| == 1 {
      assert Flatten(values[1..], ctx, m) == Ok([]);
    } else {
      assert values[1..][|values[1..]| - 1] == values[|values| - 1];
      FlattenLast(values[1..], ctx, m);
    }
  }

  /** Float `create_point_data`: one static provider of two numbers is a static value and
      its time; anything else stays dynamic. */
  function CreateFloatPointData(values: seq<ValueProvider>, mods: seq<Modifier>, easing: Functions,
                                ctx: BaseProviderContext, m: Maths): (r: Result<PointData>)
    requires Valid(ctx)
    ensures r.Ok? ==> r.value.FloatPointData? && r.value.easing == easing
    ensures r.Ok? ==> r.value.modifier.FloatModifier?
    ensures r.Ok? ==> r.value.modifier.modifiers == mods && r.value.modifier.operation == OpNone
    ensures SingleStatic(values).Some? && |SingleStatic(values).value| == 2 ==>
      r.Ok? && r.value.modifier.floatValues == StaticValue(values[0].st.values[0]) && r.value.time == values[0].st.values[1]
    ensures !(SingleStatic(values).Some? && |SingleStatic(values).value| == 2) ==>
      (r.Ok? <==> Flatten(values, ctx, m).Ok?) &&
      (r.Ok? ==> r.value.modifier.floatValues == Dynamic(values) && Ok(r.value.time) == DynamicTime(values, 2, ctx, m))
  {
    var st := SingleStatic(values);
    if st.Some? && |st.value| == 2 then
      var vs := st.value;
      Ok(NewFloatPointData(StaticValue(vs[0]), vs[1], mods, easing))
    else
      var time :- DynamicTime(values, 2, ctx, m);
      Ok(NewFloatPointData(Dynamic(values), time, mods, easing))
  }

  /** Vector3 `create_point_data`: one static provider of four numbers is a static vector
      and its time; `splineCatmullRom` among the flags makes the keyframe smooth. */
  function CreateVector3PointData(values: seq<ValueProvider>, flags: seq<string>, mods: seq<Modifier>, easing: Functions,
                                  ctx: BaseProviderContext, m: Maths): (r: Result<PointData>)
    requires Valid(ctx)
    ensures r.Ok? ==> r.value.Vector3PointData? && r.value.easing == easing
    ensures r.Ok? ==> r.value.modifier.Vector3Modifier?
    ensures r.Ok? ==> r.value.modifier.modifiers == mods && r.value.modifier.operation == OpNone
    ensures r.Ok? ==> (r.value.smooth <==> "splineCatmullRom" in flags)
    ensures SingleStatic(values).Some? && |SingleStatic(values).value| == 4 ==>
      var vs := values[0].st.values;
      r.Ok? && r.value.modifier.vec3Values == StaticValue(Vec3(vs[0], vs[1], vs[2])) && r.value.time == vs[3]
    ensures !(SingleStatic(values).Some? && |SingleStatic(values).value| == 4) ==>
      (r.Ok? <==> Flatten(values, ctx, m).Ok?) &&
      (r.Ok? ==> r.value.modifier.vec3Values == Dynamic(values) && Ok(r.value.time) == DynamicTime(values, 4, ctx, m))
  {
    var smooth := "splineCatmullRom" in flags;
    var st := SingleStatic(values);
    if st.Some? && |st.value| == 4 then
      var vs := st.value;
      Ok(NewVector3PointData(StaticValue(Vec3(vs[0], vs[1], vs[2])), smooth, vs[3], mods, easing))
    else
      var time :- DynamicTime(values, 4, ctx, m);
      Ok(NewVector3PointData(Dynamic(values), smooth, time, mods, easing))
  }

  /** Vector4 `create_point_data`: one static provider of five numbers is a static vector
      and its time; `lerpHSV` among the flags selects HSV mixing. */
  function CreateVector4PointData(values: seq<ValueProvider>, flags: seq<string>, mods: seq<Modifier>, easing: Functions,
                                  ctx: BaseProviderContext, m: Maths): (r: Result<PointData>)
    requires Valid(ctx)
    ensures r.Ok? ==> r.value.Vector4PointData? && r.value.easing == easing
    ensures r.Ok? ==> r.value.modifier.Vector4Modifier?
    ensures r.Ok? ==> r.value.modifier.modifiers == mods && r.value.modifier.operation == OpNone
    ensures r.Ok? ==> (r.value.hsvLerp <==> "lerpHSV" in flags)
    ensures SingleStatic(values).Some? && |SingleStatic(values).value| == 5 ==>
      var vs := values[0].st.values;
      r.Ok? && r.value.modifier.vec4Values == StaticValue(Vec4(vs[0], vs[1], vs[2], vs[3])) && r.value.time == vs[4]
    ensures !(SingleStatic(values).Some? && |SingleStatic(values).value| == 5) ==>
      (r.Ok? <==> Flatten(values, ctx, m).Ok?) &&
      (r.Ok? ==> r.value.modifier.vec4Values == Dynamic(values) && Ok(r.value.time) == DynamicTime(values, 5, ctx, m))
  {
    var hsv := "lerpHSV" in flags;
    var st := SingleStatic(values);
    if st.Some? && |st.value| == 5 then
      var vs := st.value;
      Ok(NewVector4PointData(StaticValue(Vec4(vs[0], vs[1], vs[2], vs[3])), hsv, vs[4], mods, easing))
    else
      var time :- DynamicTime(values, 5, ctx, m);
      Ok(NewVector4PointData(Dynamic(values), hsv, time, mods, easing))
  }

  /** Quaternion `create_point_data`: one static provider of four numbers keeps the raw
      Euler angles with their rotation, built from the angles in the order given, and its
      time; the flags are ignored. */
  function CreateQuaternionPointData(values: seq<ValueProvider>, mods: seq<Modifier>, easing: Functions,
                                     ctx: BaseProviderContext, m: Maths): (r: Result<PointData>)
    requires Valid(ctx)
    ensures r.Ok? ==> r.value.QuaternionPointData? && r.value.easing == easing
    ensures r.Ok? ==> r.value.modifier.QuaternionModifier?
    ensures r.Ok? ==> r.value.modifier.modifiers == mods && r.value.modifier.operation == OpNone
    ensures SingleStatic(values).Some? && |SingleStatic(values).value| == 4 ==>
      var vs := values[0].st.values;
      r.Ok? && r.value.time == vs[3] &&
      r.value.modifier.quatValues == QuatStatic(Vec3(vs[0], vs[1], vs[2]), m.fromEulerDegrees(vs[0], vs[1], vs[2]))
    ensures !(SingleStatic(values).Some? && |SingleStatic(values).value| == 4) ==>
      (r.Ok? <==> Flatten(values, ctx, m).Ok?) &&
      (r.Ok? ==> r.value.modifier.quatValues == QuatDynamic(values) && Ok(r.value.time) == DynamicTime(values, 4, ctx, m))
  {
    var st := SingleStatic(values);
    if st.Some? && |st.value| == 4 then
      var vs := st.value;
      Ok(NewQuaternionPointData(QuatStatic(Vec3(vs[0], vs[1], vs[2]), m.fromEulerDegrees(vs[0], vs[1], vs[2])), vs[3], mods, easing))
    else
      var time :- DynamicTime(values, 4, ctx, m);
      Ok(NewQuaternionPointData(QuatDynamic(values), time, mods, easing))
  }

  /** `create_point_data` of the definition's kind. */
  function CreatePointData(kind: ValueType, values: seq<ValueProvider>, flags: seq<string>, mods: seq<Modifier>,
                           easing: Functions, ctx: BaseProviderContext, m: Maths): (r: Result<PointData>)
    requires Valid(ctx)
    ensures r.Ok? ==> r.value.easing == easing && r.value.modifier.modifiers == mods
    ensures r.Ok? ==> PointKind(r.value) == kind
  {
    match kind
    case FloatType => CreateFloatPointData(values, mods, easing, ctx, m)
    case Vec3Type => CreateVector3PointData(values, flags, mods, easing, ctx, m)
    case Vec4Type => CreateVector4PointData(values, flags, mods, easing, ctx, m)
    case QuatType => CreateQuaternionPointData(values, mods, easing, ctx, m)
  }

  /** The kind of value a keyframe holds. */
  function PointKind(p: PointData): ValueType {
    match p
    case FloatPointData(_, _, _) => FloatType
    case Vector3PointData(_, _, _, _) => Vec3Type
    case Vector4PointData(_, _, _, _) => Vec4Type
    case QuaternionPointData(_, _, _) => QuatType
  }

  // ------------------------------------------------------ create_modifier

  /** `create_modifier` of the definition's kind. A single static provider of the right
      length (one number for floats, four for vector3 and vector4, three for rotations)
      is a static value; otherwise the values stay dynamic and their total count must be
      the kind's arity, except for vector3, whose mismatch is only logged. */
  function CreateModifier(kind: ValueType, values: seq<ValueProvider>, mods: seq<Modifier>, op: Operation,
                          ctx: BaseProviderContext, m: Maths): (r: Result<Modifier>)
    requires Valid(ctx)
    ensures r.Ok? ==> r.value.modifiers == mods && r.value.operation == op
    ensures r.Ok? ==> ModifierKind(r.value) == kind
    ensures r.Ok? ==> (r.value.hasBase <==> !IsStatic(r.value) || AnyHasBase(mods))
    ensures SingleStatic(values).Some? && |SingleStatic(values).value| == StaticModifierLength(kind) ==>
      r.Ok? && IsStatic(r.value)
    ensures !(SingleStatic(values).Some? && |SingleStatic(values).value| == StaticModifierLength(kind)) ==>
      (r.Ok? <==> Flatten(values, ctx, m).Ok? && (kind == Vec3Type || |Flatten(values, ctx, m).value| == ModifierArity(kind))) &&
      (r.Ok? ==> !IsStatic(r.value))
  {
    var st := SingleStatic(values);
    if st.Some? && |st.value| == StaticModifierLength(kind) then
      var vs := st.value;
      Ok(match kind
        case FloatType => NewFloatModifier(StaticValue(vs[0]), mods, op)
        case Vec3Type => NewVector3Modifier(StaticValue(Vec3(vs[0], vs[1], vs[2])), mods, op)
        case Vec4Type => NewVector4Modifier(StaticValue(Vec4(vs[0], vs[1], vs[2], vs[3])), mods, op)
        case QuatType => NewQuaternionModifier(QuatStatic(Vec3(vs[0], vs[1], vs[2]), m.fromEulerDegrees(vs[0], vs[1], vs[2])), mods, op))
    else
      var count :- TotalCount(values, ctx, m);
      if kind != Vec3Type && count != ModifierArity(kind) then Err(ValueCountMismatch(ModifierArity(kind), count))
      else
        Ok(match kind
          case FloatType => NewFloatModifier(Dynamic(values), mods, op)
          case Vec3Type => NewVector3Modifier(Dynamic(values), mods, op)
          case Vec4Type => NewVector4Modifier(Dynamic(values), mods, op)
          case QuatType => NewQuaternionModifier(QuatDynamic(values), mods, op))
  }

  /** How many numbers a modifier of each kind reads: a rotation is read as three Euler angles. */
  function ModifierArity(kind: ValueType): nat {
    match kind
    case FloatType => 1
    case Vec3Type => 3
    case Vec4Type => 4
    case QuatType => 3
  }

  /** How many numbers a single static provider needs to become a static modifier value. */
  function StaticModifierLength(kind: ValueType): nat {
    match kind
    case FloatType => 1
    case Vec3Type => 4
    case Vec4Type => 4
    case QuatType => 3
  }

  function ModifierKind(md: Modifier): ValueType {
    match md
    case FloatModifier(_, _, _, _) => FloatType
    case Vector3Modifier(_, _, _, _) => Vec3Type
    case Vector4Modifier(_, _, _, _) => Vec4Type
    case QuaternionModifier(_, _, _, _) => QuatType
  }

  predicate IsStatic(md: Modifier) {
    match md
    case FloatModifier(v, _, _, _) => v.StaticValue?
    case Vector3Modifier(v, _, _, _) => v.StaticValue?
    case Vector4Modifier(v, _, _, _) => v.StaticValue?
    case QuaternionModifier(v, _, _, _) => v.QuatStatic?
  }
}

=== FILE: point_parsing.dfy ===
/** The JSON front end of point definitions (`point_definition/mod.rs`): grouping the
    entries of a keyframe, reading modifiers recursively, and building the keyframes
    in the order they are written.
 */
module PointParsing {
  import opened Wrappers
  import opened Easings
  import opened Maths
  import opened BaseValues
  import opened ProviderContext
  import opened Json
  import opened Providers
  import opened Modifiers
  import opened PointData
  import opened PointDefinitions

  datatype GroupType = ValueGroup | FlagGroup | ModifierGroup

  /** The group of one entry: a string not starting with "base" is a flag, an array is a
      modifier, and everything else (numbers, base provider names, null, ...) is a value. */
  function GroupOf(j: Json): GroupType {
    if j.JString? && !("base" <= j.str) then FlagGroup
    else if j.JArray? then ModifierGroup
    else ValueGroup
  }

  /** The entries of group `g`, in their original order. */
  function Filter(items: seq<Json>, g: GroupType): (r: seq<Json>)
    ensures |r| <= |items|
    ensures forall x :: x in r ==> x in items && GroupOf(x) == g
  {
    if |items| == 0 then []
    else Filter(items[..|items| - 1], g) + (if GroupOf(items[|items| - 1]) == g then [items[|items| - 1]] else [])
  }

  /** The grouping `group_values` computes, stated per group. */
  function Grouped(items: seq<Json>): map<GroupType, seq<Json>> {
    map g: GroupType | |Filter(items, g)| > 0 :: Filter(items, g)
  }

  /** The loop of `group_values`: each entry is pushed onto its group's list. */
  function GroupFrom(items: seq<Json>, i: nat, acc: map<GroupType, seq<Json>>): map<GroupType, seq<Json>>
    requires i <= |items|
    decreases |items| - i
  {
    if i == |items| then acc
    else
      var g := GroupOf(items[i]);
      GroupFrom(items, i + 1, acc[g := (if g in acc then acc[g] else []) + [items[i]]])
  }

  /** `group_values`: anything but an array has no groups. */
  function GroupValues(j: Json): map<GroupType, seq<Json>> {
    if j.JArray? then GroupFrom(j.items, 0, map[]) else map[]
  }

  /** Pushing one more entry onto its group's list extends the grouping by that entry. */
  lemma GroupedStep(prefix: seq<Json>, x: Json)
    ensures var acc := Grouped(prefix);
      var g := GroupOf(x);
      Grouped(prefix + [x]) == acc[g := (if g in acc then acc[g] else []) + [x]]
  {
    var s := prefix + [x];
    var acc := Grouped(prefix);
    var g := GroupOf(x);
    var next := acc[g := (if g in acc then acc[g] else []) + [x]];
    assert s[..|s| - 1] == prefix;
    assert s[|s| - 1] == x;
    var grouped := Grouped(s);
    forall h: GroupType
      ensures h in next <==> h in grouped
      ensures h in next ==> next[h] == grouped[h]
    {
      assert Filter(s, h) == Filter(prefix, h) + (if h == g then [x] else []);
    }
    assert next == grouped;
  }

  lemma {:induction false} GroupFromGrouped(items: seq<Json>, i: nat)
    requires i <= |items|
    ensures GroupFrom(items, i, Grouped(items[..i])) == Grouped(items)
    decreases |items| - i
  {
    if i == |items| {
      assert items[..i] == items;
    } else {
      assert items[..i + 1] == items[..i] + [items[i]];
      GroupedStep(items[..i], items[i]);
      GroupFromGrouped(items, i + 1);
    }
  }

  /** `group_values` of an array has exactly the groups that occur in it, each listing its
      entries in their original order; anything else has no groups. */
  lemma GroupValuesSpec(j: Json, g: GroupType)
    ensures !j.JArray? ==> GroupValues(j) == map[]
    ensures j.JArray? ==> (g in GroupValues(j) <==> exists k :: 0 <= k < |j.items| && GroupOf(j.items[k]) == g)
    ensures j.JArray? && g in GroupValues(j) ==> GroupValues(j)[g] == Filter(j.items, g)
  {
    if j.JArray? {
      assert j.items[..0] == [];
      assert Grouped([]) == map[];
      GroupFromGrouped(j.items, 0);
      FilterNonEmpty(j.items, g);
    }
  }

  lemma {:induction false} FilterNonEmpty(items: seq<Json>, g: GroupType)
    ensures |Filter(items, g)| > 0 <==> exists k :: 0 <= k < |items| && GroupOf(items[k]) == g
  {
    if |items| > 0 {
      var n := |items| - 1;
      FilterNonEmpty(items[..n], g);
      if GroupOf(items[n]) != g && exists k :: 0 <= k < |items| && GroupOf(items[k]) == g {
        var k :| 0 <= k < |items| && GroupOf(items[k]) == g;
        assert items[..n][k] == items[k];
      }
      if exists k :: 0 <= k < n && GroupOf(items[..n][k]) == g {
        var k :| 0 <= k < n && GroupOf(items[..n][k]) == g;
        assert GroupOf(items[k]) == g;
      }
    }
  }

  // -------------------------------------------------- order of the groups

  /** What the loops over the groups record: the entries of each group, if it occurred. */
  datatype Groups = Groups(values: Option<seq<Json>>, flags: Option<seq<Json>>, modifiers: Option<seq<Json>>)

  function Slot(s: Groups, g: GroupType): Option<seq<Json>> {
    match g
    case ValueGroup => s.values
    case FlagGroup => s.flags
    case ModifierGroup => s.modifiers
  }

  /** One iteration: the group's own variable is set, the others are left alone. */
  function Record(s: Groups, g: GroupType, entries: seq<Json>): Groups {
    match g
    case ValueGroup => s.(values := Some(entries))
    case FlagGroup => s.(flags := Some(entries))
    case ModifierGroup => s.(modifiers := Some(entries))
  }

  /** The loop over the groups, in the order the map happens to yield them. */
  function RecordAll(gs: seq<(GroupType, seq<Json>)>, s: Groups): Groups {
    if |gs| == 0 then s else RecordAll(gs[1..], Record(s, gs[0].0, gs[0].1))
  }

  /** The groups looked up by type. */
  function Lookup(mp: map<GroupType, seq<Json>>): Groups {
    Groups(if ValueGroup in mp then Some(mp[ValueGroup]) else None,
           if FlagGroup in mp then Some(mp[FlagGroup]) else None,
           if ModifierGroup in mp then Some(mp[ModifierGroup]) else None)
  }

  /** `gs` lists every entry of `mp` once (the `into_iter().collect()` of a `HashMap`). */
  ghost predicate Enumerates(gs: seq<(GroupType, seq<Json>)>, mp: map<GroupType, seq<Json>>) {
    (forall i :: 0 <= i < |gs| ==> gs[i].0 in mp && mp[gs[i].0] == gs[i].1) &&
    (forall g :: g in mp ==> exists i :: 0 <= i < |gs| && gs[i].0 == g) &&
    (forall i, j :: 0 <= i < j < |gs| ==> gs[i].0 != gs[j].0)
  }

  lemma {:induction false} RecordAllSlot(gs: seq<(GroupType, seq<Json>)>, s: Groups, g: GroupType)
    requires forall i, j :: 0 <= i < j < |gs| ==> gs[i].0 != gs[j].0
    ensures forall i :: 0 <= i < |gs| && gs[i].0 == g ==> Slot(RecordAll(gs, s), g) == Some(gs[i].1)
    ensures (forall i :: 0 <= i < |gs| ==> gs[i].0 != g) ==> Slot(RecordAll(gs, s), g) == Slot(s, g)
  {
    if |gs| > 0 {
      var s' := Record(s, gs[0].0, gs[0].1);
      RecordAllSlot(gs[1..], s', g);
      forall i | 0 <= i < |gs| && gs[i].0 == g
        ensures Slot(RecordAll(gs, s), g) == Some(gs[i].1)
      {
        if i > 0 {
          assert gs[1..][i - 1] == gs[i];
        } else {
          assert forall k :: 0 <= k < |gs[1..]| ==> gs[1..][k] == gs[k + 1];
        }
      }
      if forall i :: 0 <= i < |gs| ==> gs[i].0 != g {
        assert forall k :: 0 <= k < |gs[1..]| ==> gs[1..][k] == gs[k + 1];
      }
    }
  }

  /** Each group is handled by its own branch, which writes only its own variable, so the
      outcome of the loops does not depend on the order in which the groups come. */
  lemma GroupOrderIrrelevant(gs: seq<(GroupType, seq<Json>)>, mp: map<GroupType, seq<Json>>)
    requires Enumerates(gs, mp)
    ensures RecordAll(gs, Groups(None, None, None)) == Lookup(mp)
  {
    var s := RecordAll(gs, Groups(None, None, None));
    forall g: GroupType
      ensures Slot(s, g) == Slot(Lookup(mp), g)
    {
      RecordAllSlot(gs, Groups(None, None, None), g);
      if g in mp {
        var i :| 0 <= i < |gs| && gs[i].0 == g;
      }
    }
    assert Slot(s, ValueGroup) == Slot(Lookup(mp), ValueGroup);
    assert Slot(s, FlagGroup) == Slot(Lookup(mp), FlagGroup);
    assert Slot(s, ModifierGroup) == Slot(Lookup(mp), ModifierGroup);
  }

  // ------------------------------------------------------------- easings

  /** The easing named by the first flag starting with "ease"; linear when there is no such
      flag or it names no easing. */
  function FirstEase(flags: seq<string>): (f: Functions)
    ensures (forall i :: 0 <= i < |flags| ==> !("ease" <= flags[i])) ==> f == EaseLinear
    ensures forall i :: 0 <= i < |flags| && "ease" <= flags[i] && (forall k :: 0 <= k < i ==> !("ease" <= flags[k])) ==>
      f == FromStr(flags[i]).GetOr(EaseLinear)
  {
    if |flags| == 0 then EaseLinear
    else if "ease" <= flags[0] then FromStr(flags[0]).GetOr(EaseLinear)
    else FirstEase(flags[1..])
  }

  // ------------------------------------------------- deserialize_modifier

  /** The operation named by the first flag. Flag groups hold only strings, so the second
      branch is the empty group, which the grouping never produces. */
  function FirstOperation(flags: seq<Json>): Operation {
    if |flags| > 0 && flags[0].JString? then OperationFromStr(flags[0].str) else OpNone
  }

  /** The value group read as providers, if there is one. */
  function ValuesOf(g: Groups, ctx: BaseProviderContext): Result<Option<seq<ValueProvider>>>
    requires Valid(ctx)
  {
    match g.values
    case None => Ok(None)
    case Some(items) => var ps :- DeserializeValues(items, ctx); Ok(Some(ps))
  }

  /** The groups of an entry, looked up by type; modifiers only occur in arrays, among their entries. */
  function GroupsOf(raw: Json): (g: Groups)
    ensures g.values.Some? <==> raw.JArray? && exists k :: 0 <= k < |raw.items| && GroupOf(raw.items[k]) == ValueGroup
    ensures g.flags.Some? <==> raw.JArray? && exists k :: 0 <= k < |raw.items| && GroupOf(raw.items[k]) == FlagGroup
    ensures g.modifiers.Some? ==> raw.JArray? && forall x :: x in g.modifiers.value ==> x in raw.items
  {
    GroupValuesSpec(raw, ValueGroup);
    GroupValuesSpec(raw, FlagGroup);
    GroupValuesSpec(raw, ModifierGroup);
    Lookup(GroupValues(raw))
  }

  /** `deserialize_modifier`: values and an operation are both required; child modifiers
      (the nested arrays) are read recursively with the same kind. */
  function DeserializeModifier(kind: ValueType, list: Json, ctx: BaseProviderContext, m: Maths): (r: Result<Modifier>)
    requires Valid(ctx)
    ensures r.Ok? ==> ModifierKind(r.value) == kind
    ensures r.Ok? ==> list.JArray? && (exists k :: 0 <= k < |list.items| && GroupOf(list.items[k]) == ValueGroup)
    ensures r.Ok? ==> exists k :: 0 <= k < |list.items| && GroupOf(list.items[k]) == FlagGroup
    decreases list, 1
  {
    var g := GroupsOf(list);
    var vals :- ValuesOf(g, ctx);
    var mods :- if g.modifiers.Some? then DeserializeModifiers(kind, g.modifiers.value, list, 0, ctx, m) else Ok([]);
    if vals.None? || g.flags.None? then Err(MissingGroup)
    else CreateModifier(kind, vals.value, mods, FirstOperation(g.flags.value), ctx, m)
  }

  /** Each entry of a modifier group read as a modifier, in order. */
  function DeserializeModifiers(kind: ValueType, group: seq<Json>, ghost parent: Json, i: nat,
                                ctx: BaseProviderContext, m: Maths): (r: Result<seq<Modifier>>)
    requires Valid(ctx) && i <= |group|
    requires parent.JArray? && forall x :: x in group ==> x in parent.items
    ensures r.Ok? ==> |r.value| == |group| - i
    ensures r.Ok? ==> forall k :: 0 <= k < |r.value| ==> ModifierKind(r.value[k]) == kind
    decreases parent, 0, |group| - i
  {
    if i == |group| then Ok([])
    else
      assert group[i] in parent.items;
      var md :- DeserializeModifier(kind, group[i], ctx, m);
      var rest :- DeserializeModifiers(kind, group, parent, i + 1, ctx, m);
      Ok([md] + rest)
  }

  // ---------------------------------------------------------------- parse

  /** A keyframe is only made from an array with an entry of the value group. */
  lemma ParsePointNeedsValues(kind: ValueType, raw: Json, ctx: BaseProviderContext, m: Maths)
    requires Valid(ctx)
    ensures ParsePoint(kind, raw, ctx, m).Ok? && ParsePoint(kind, raw, ctx, m).value.Some? ==>
      raw.JArray? && exists k :: 0 <= k < |raw.items| && GroupOf(raw.items[k]) == ValueGroup
  {
  }

  /** The flags of an entry as strings; none when it has no flag group. */
  function FlagsOf(g: Groups): (flags: seq<string>)
    ensures g.flags.None? ==> flags == []
  {
    if g.flags.Some? then Strings(g.flags.value) else []
  }

  /** The child modifiers of an entry, read with the definition's kind; none when it has
      no modifier group. */
  function ModifiersOf(kind: ValueType, raw: Json, ctx: BaseProviderContext, m: Maths): (r: Result<seq<Modifier>>)
    requires Valid(ctx)
    ensures GroupsOf(raw).modifiers.None? ==> r == Ok([])
    ensures r.Ok? ==> forall k :: 0 <= k < |r.value| ==> ModifierKind(r.value[k]) == kind
  {
    var g := GroupsOf(raw);
    if g.modifiers.Some? then DeserializeModifiers(kind, g.modifiers.value, raw, 0, ctx, m) else Ok([])
  }

  /** One entry of the keyframe list: null and entries without a value group add no
      keyframe; the modifiers are still read, so a bad modifier fails either way. */
  function ParsePoint(kind: ValueType, raw: Json, ctx: BaseProviderContext, m: Maths): (r: Result<Option<PointData>>)
    requires Valid(ctx)
    ensures raw.JNull? ==> r == Ok(None)
    ensures r.Ok? && !raw.JNull? ==> (r.value.Some? <==> GroupsOf(raw).values.Some?)
    ensures r.Ok? && r.value.Some? ==> PointKind(r.value.value) == kind
  {
    if raw.JNull? then Ok(None)
    else
      var g := GroupsOf(raw);
      var vals :- ValuesOf(g, ctx);
      var mods :- ModifiersOf(kind, raw, ctx, m);
      var flags := FlagsOf(g);
      if vals.None? then Ok(None)
      else
        var p :- CreatePointData(kind, vals.value, flags, mods, FirstEase(flags), ctx, m);
        Ok(Some(p))
  }

  /** The keyframe an entry contributes, as a list of zero or one. */
  function Kept<T>(p: Option<T>): (r: seq<T>)
    ensures |r| <= 1 && (r == [] <==> p.None?)
    ensures p.Some? ==> r == [p.value]
  {
    if p.Some? then [p.value] else []
  }

  /** The loop of `parse` over the entries, for any way `entry` of reading one: the first
      entry that fails fails the whole list, and the keyframes are appended in input order. */
  function ParseEach<T>(entry: Json --> Result<Option<T>>, raws: seq<Json>): (r: Result<seq<T>>)
    requires forall k :: 0 <= k < |raws| ==> entry.requires(raws[k])
    ensures r.Ok? <==> forall k :: 0 <= k < |raws| ==> entry(raws[k]).Ok?
    ensures r.Ok? ==> |r.value| <= |raws|
    ensures r.Ok? ==> forall x :: x in r.value ==> exists j :: 0 <= j < |raws| && entry(raws[j]) == Ok(Some(x))
  {
    if |raws| == 0 then Ok([])
    else
      var p :- entry(raws[0]);
      var rest :- ParseEach(entry, raws[1..]);
      assert forall j :: 0 <= j < |raws| - 1 ==> raws[1..][j] == raws[j + 1];
      Ok(Kept(p) + rest)
  }

  /** No entries, no keyframes. */
  lemma ParseEachEmpty<T>(entry: Json --> Result<Option<T>>)
    ensures ParseEach(entry, []) == Ok([])
  {
  }

  /** One entry gives its own keyframe, if it makes one. */
  lemma ParseEachOne<T>(entry: Json --> Result<Option<T>>, raw: Json)
    requires entry.requires(raw)
    ensures ParseEach(entry, [raw]).Ok? <==> entry(raw).Ok?
    ensures entry(raw).Ok? ==> ParseEach(entry, [raw]) == Ok(Kept(entry(raw).value))
  {
    assert [raw][1..] == [];
    ParseEachEmpty(entry);
    if entry(raw).Ok? {
      assert Kept(entry(raw).value) + [] == Kept(entry(raw).value);
    }
  }

  /** Two entries that each make a keyframe give those two keyframes, in order. */
  lemma ParseEachTwo<T>(entry: Json --> Result<Option<T>>, a: Json, b: Json, x: T, y: T)
    requires entry.requires(a) && entry.requires(b)
    requires entry(a) == Ok(Some(x)) && entry(b) == Ok(Some(y))
    ensures ParseEach(entry, [a, b]) == Ok([x, y])
  {
    assert [a, b][1..] == [b];
    ParseEachOne(entry, b);
    assert [x] + [y] == [x, y];
  }

  /** Reading two runs of entries one after the other appends their keyframes in order. */
  lemma {:induction false} ParseEachAppend<T>(entry: Json --> Result<Option<T>>, a: seq<Json>, b: seq<Json>)
    requires forall k :: 0 <= k < |a| ==> entry.requires(a[k])
    requires forall k :: 0 <= k < |b| ==> entry.requires(b[k])
    requires ParseEach(entry, a).Ok? && ParseEach(entry, b).Ok?
    ensures ParseEach(entry, a + b) == Ok(ParseEach(entry, a).value + ParseEach(entry, b).value)
    decreases |a|
  {
    if |a| == 0 {
      assert a + b == b;
      assert ParseEach(entry, a) == Ok([]);
      assert [] + ParseEach(entry, b).value == ParseEach(entry, b).value;
    } else {
      assert (a + b)[0] == a[0];
      assert (a + b)[1..] == a[1..] + b;
      ParseEachAppend(entry, a[1..], b);
      var head := Kept(entry(a[0]).value);
      assert head + ParseEach(entry, a[1..]).value + ParseEach(entry, b).value ==
        head + (ParseEach(entry, a[1..]).value + ParseEach(entry, b).value);
    }
  }

  /** `ParsePoint` for the definition's kind, as the reader of one entry. */
  function PointEntry(kind: ValueType, ctx: BaseProviderContext, m: Maths): (entry: Json --> Result<Option<PointData>>)
    requires Valid(ctx)
    ensures forall raw :: entry.requires(raw) && entry(raw) == ParsePoint(kind, raw, ctx, m)
  {
    raw requires Valid(ctx) => ParsePoint(kind, raw, ctx, m)
  }

  /** The keyframes of the entries: the list parses exactly when every entry does, each
      keyframe is one an entry made, and they come in input order (`ParseEachAppend`). */
  function ParsePoints(kind: ValueType, raws: seq<Json>, ctx: BaseProviderContext, m: Maths): (r: Result<seq<PointData>>)
    requires Valid(ctx)
    ensures r.Ok? <==> forall k :: 0 <= k < |raws| ==> ParsePoint(kind, raws[k], ctx, m).Ok?
    ensures r.Ok? ==> |r.value| <= |raws|
    ensures r.Ok? ==> forall x :: x in r.value ==> exists j :: 0 <= j < |raws| && ParsePoint(kind, raws[j], ctx, m) == Ok(Some(x))
    ensures r.Ok? ==> forall k :: 0 <= k < |r.value| ==> PointKind(r.value[k]) == kind
  {
    var r := ParseEach(PointEntry(kind, ctx, m), raws);
    if r.Ok? then
      assert forall k :: 0 <= k < |r.value| ==> PointKind(r.value[k]) == kind by {
        forall k | 0 <= k < |r.value| ensures PointKind(r.value[k]) == kind {
          assert r.value[k] in r.value;
          var j :| 0 <= j < |raws| && ParsePoint(kind, raws[j], ctx, m) == Ok(Some(r.value[k]));
        }
      }
      r
    else r
  }

  /** Two entries that each make a keyframe parse to those two keyframes, in order. */
  lemma ParsePointsTwo(kind: ValueType, a: Json, b: Json, x: PointData, y: PointData, ctx: BaseProviderContext, m: Maths)
    requires Valid(ctx)
    requires ParsePoint(kind, a, ctx, m) == Ok(Some(x)) && ParsePoint(kind, b, ctx, m) == Ok(Some(y))
    ensures ParsePoints(kind, [a, b], ctx, m) == Ok([x, y])
  {
    ParseEachTwo(PointEntry(kind, ctx, m), a, b, x, y);
  }

  /** Parsing two runs of entries one after the other appends their keyframes in order. */
  lemma ParsePointsAppend(kind: ValueType, a: seq<Json>, b: seq<Json>, ctx: BaseProviderContext, m: Maths)
    requires Valid(ctx)
    requires ParsePoints(kind, a, ctx, m).Ok? && ParsePoints(kind, b, ctx, m).Ok?
    ensures ParsePoints(kind, a + b, ctx, m) == Ok(ParsePoints(kind, a, ctx, m).value + ParsePoints(kind, b, ctx, m).value)
  {
    ParseEachAppend(PointEntry(kind, ctx, m), a, b);
  }

  /** A single entry contributes its own keyframe, if it makes one. */
  lemma ParsePointsOne(kind: ValueType, raw: Json, ctx: BaseProviderContext, m: Maths)
    requires Valid(ctx)
    ensures ParsePoints(kind, [raw], ctx, m).Ok? <==> ParsePoint(kind, raw, ctx, m).Ok?
    ensures ParsePoint(kind, raw, ctx, m).Ok? ==>
      ParsePoints(kind, [raw], ctx, m) == Ok(Kept(ParsePoint(kind, raw, ctx, m).value))
  {
    ParseEachOne(PointEntry(kind, ctx, m), raw);
  }

  /** The entries `parse` walks: a list whose first entry is not an array is one keyframe,
      with a time of 0 appended. */
  function Root(items: seq<Json>): (r: seq<Json>)
    requires |items| > 0
    ensures items[0].JArray? ==> r == items
    ensures !items[0].JArray? ==> r == [JArray(items + [JNumber(0.0)])]
  {
    if items[0].JArray? then items else [JArray(items + [JNumber(0.0)])]
  }

  /** `parse` into a new definition (`FloatPointDefinition::new`, ...): the value must be a
      non-empty array; the keyframes are kept in the order written, never sorted. */
  function Parse(kind: ValueType, value: Json, ctx: BaseProviderContext, m: Maths): (r: Result<PointDefinition>)
    requires Valid(ctx)
    ensures !value.JArray? ==> r == Err(NotAnArray)
    ensures value.JArray? && |value.items| == 0 ==> r == Err(IndexOutOfRange)
    ensures r.Ok? ==> r.value.kind == kind
    ensures value.JArray? && |value.items| > 0 ==> (r.Ok? <==> ParsePoints(kind, Root(value.items), ctx, m).Ok?)
    ensures r.Ok? ==> r.value.points == ParsePoints(kind, Root(value.items), ctx, m).value
    ensures r.Ok? ==> GetCount(r.value) <= |Root(value.items)|
    ensures r.Ok? ==> forall k :: 0 <= k < |r.value.points| ==> PointKind(r.value.points[k]) == kind
  {
    if !value.JArray? then Err(NotAnArray)
    else if |value.items| == 0 then Err(IndexOutOfRange)
    else
      var points :- ParsePoints(kind, Root(value.items), ctx, m);
      Ok(PointDefinition(kind, points))
  }

  /** The entries of a keyframe written as two numbers form one value group. */
  lemma TwoNumbers(a: real, b: real, ctx: BaseProviderContext)
    requires Valid(ctx)
    ensures GroupValues(JArray([JNumber(a), JNumber(b)])) == map[ValueGroup := [JNumber(a), JNumber(b)]]
    ensures DeserializeValues([JNumber(a), JNumber(b)], ctx) == Ok([Static(StaticValues([a, b]))])
  {
    var items := [JNumber(a), JNumber(b)];
    assert GroupOf(items[0]) == ValueGroup && GroupOf(items[1]) == ValueGroup;
    assert GroupFrom(items, 2, map[ValueGroup := items]) == map[ValueGroup := items];
    assert [items[0]] + [items[1]] == items;
    assert map[ValueGroup := [items[0]]][ValueGroup := [items[0]] + [items[1]]] == map[ValueGroup := items];
    var empty: map<GroupType, seq<Json>> := map[];
    var none: seq<Json> := [];
    assert none + [items[0]] == [items[0]];
    assert empty[ValueGroup := none + [items[0]]] == map[ValueGroup := [items[0]]];
    assert GroupFrom(items, 1, map[ValueGroup := [items[0]]]) == map[ValueGroup := items];
    assert GroupFrom(items, 0, empty) == map[ValueGroup := items];
    assert Numbers(items[1..]) == [b];
    assert Numbers(items) == [a, b];
    assert items[0..] == items;
    assert DeserializeFrom(items, ctx, 2, 0) == Ok([Static(StaticValues([a, b]))]);
    assert DeserializeFrom(items, ctx, 1, 0) == Ok([Static(StaticValues([a, b]))]);
  }

  /** The keyframe `[a, b]` is the static float `a` at time `b`, linear. */
  lemma FloatKeyframe(a: real, b: real, ctx: BaseProviderContext, m: Maths)
    requires Valid(ctx)
    ensures ParsePoint(FloatType, JArray([JNumber(a), JNumber(b)]), ctx, m) ==
      Ok(Some(NewFloatPointData(StaticValue(a), b, [], EaseLinear)))
  {
    TwoNumbers(a, b, ctx);
    var raw := JArray([JNumber(a), JNumber(b)]);
    assert GroupsOf(raw) == Groups(Some(raw.items), None, None);
    ValuesOnly(FloatType, raw, raw.items, [Static(StaticValues([a, b]))], ctx, m);
    StaticFloatPoint(a, b, ctx, m);
  }

  /** A keyframe with values but no flags and no modifiers is made from its values alone, linear. */
  lemma ValuesOnly(kind: ValueType, raw: Json, items: seq<Json>, vals: seq<ValueProvider>, ctx: BaseProviderContext, m: Maths)
    requires Valid(ctx) && !raw.JNull?
    requires GroupsOf(raw) == Groups(Some(items), None, None)
    requires DeserializeValues(items, ctx) == Ok(vals)
    ensures CreatePointData(kind, vals, [], [], EaseLinear, ctx, m).Ok? ==>
      ParsePoint(kind, raw, ctx, m) == Ok(Some(CreatePointData(kind, vals, [], [], EaseLinear, ctx, m).value))
  {
    var g := GroupsOf(raw);
    assert ValuesOf(g, ctx) == Ok(Some(vals));
    assert FlagsOf(g) == [];
    FirstEaseNone();
    ParsePointFrom(kind, raw, vals, [], ctx, m);
  }

  /** A non-null entry whose values and child modifiers read is the keyframe `CreatePointData`
      makes from them, its flags and the easing of its first `ease` flag; a failure there
      fails the entry. */
  lemma ParsePointFrom(kind: ValueType, raw: Json, vals: seq<ValueProvider>, mods: seq<Modifier>,
                       ctx: BaseProviderContext, m: Maths)
    requires Valid(ctx) && !raw.JNull?
    requires ValuesOf(GroupsOf(raw), ctx) == Ok(Some(vals))
    requires ModifiersOf(kind, raw, ctx, m) == Ok(mods)
    ensures var flags := FlagsOf(GroupsOf(raw));
      var p := CreatePointData(kind, vals, flags, mods, FirstEase(flags), ctx, m);
      ParsePoint(kind, raw, ctx, m) == if p.Ok? then Ok(Some(p.value)) else Err(p.error)
  {
  }

  /** Every keyframe an entry makes is eased by the entry's first `ease` flag (linear when
      there is none) and carries the entry's child modifiers. */
  lemma ParsePointEasing(kind: ValueType, raw: Json, ctx: BaseProviderContext, m: Maths)
    requires Valid(ctx)
    ensures ParsePoint(kind, raw, ctx, m).Ok? && ParsePoint(kind, raw, ctx, m).value.Some? ==>
      ParsePoint(kind, raw, ctx, m).value.value.easing == FirstEase(FlagsOf(GroupsOf(raw)))
    ensures ParsePoint(kind, raw, ctx, m).Ok? && ParsePoint(kind, raw, ctx, m).value.Some? ==>
      ModifiersOf(kind, raw, ctx, m).Ok? &&
      ParsePoint(kind, raw, ctx, m).value.value.modifier.modifiers == ModifiersOf(kind, raw, ctx, m).value
  {
    ParsePointNoKeyframe(kind, raw, ctx, m);
    if ParsePoint(kind, raw, ctx, m).Ok? && ParsePoint(kind, raw, ctx, m).value.Some? {
      EasingFromParts(kind, raw, ValuesOf(GroupsOf(raw), ctx).value.value, ModifiersOf(kind, raw, ctx, m).value, ctx, m);
    }
  }

  /** `ParsePointEasing` for an entry whose values and modifiers read. */
  lemma EasingFromParts(kind: ValueType, raw: Json, vals: seq<ValueProvider>, mods: seq<Modifier>,
                        ctx: BaseProviderContext, m: Maths)
    requires Valid(ctx) && !raw.JNull?
    requires ValuesOf(GroupsOf(raw), ctx) == Ok(Some(vals))
    requires ModifiersOf(kind, raw, ctx, m) == Ok(mods)
    ensures ParsePoint(kind, raw, ctx, m).Ok? && ParsePoint(kind, raw, ctx, m).value.Some? ==>
      ParsePoint(kind, raw, ctx, m).value.value.easing == FirstEase(FlagsOf(GroupsOf(raw))) &&
      ParsePoint(kind, raw, ctx, m).value.value.modifier.modifiers == mods
  {
    ParsePointFrom(kind, raw, vals, mods, ctx, m);
    var flags := FlagsOf(GroupsOf(raw));
    var p := CreatePointData(kind, vals, flags, mods, FirstEase(flags), ctx, m);
    if p.Ok? {
      assert ParsePoint(kind, raw, ctx, m) == Ok(Some(p.value));
    }
  }

  /** A keyframe is only made from a non-null entry whose values and modifiers both read. */
  lemma ParsePointNoKeyframe(kind: ValueType, raw: Json, ctx: BaseProviderContext, m: Maths)
    requires Valid(ctx)
    ensures ParsePoint(kind, raw, ctx, m).Ok? && ParsePoint(kind, raw, ctx, m).value.Some? ==>
      !raw.JNull? && ValuesOf(GroupsOf(raw), ctx).Ok? && ValuesOf(GroupsOf(raw), ctx).value.Some? &&
      ModifiersOf(kind, raw, ctx, m).Ok?
  {
  }

  /** Without flags the easing is linear. */
  lemma FirstEaseNone()
    ensures FirstEase([]) == EaseLinear
  {
    var none: seq<string> := [];
    assert |none| == 0;
  }

  /** One static provider of two numbers makes a static float keyframe. */
  lemma StaticFloatPoint(a: real, b: real, ctx: BaseProviderContext, m: Maths)
    requires Valid(ctx)
    ensures CreatePointData(FloatType, [Static(StaticValues([a, b]))], [], [], EaseLinear, ctx, m) ==
      Ok(NewFloatPointData(StaticValue(a), b, [], EaseLinear))
  {
    assert SingleStatic([Static(StaticValues([a, b]))]) == Some([a, b]);
  }

  /** A flat list of one number is a single static float keyframe at time 0, linear. */
  lemma ParseFlatFloat(v: real, ctx: BaseProviderContext, m: Maths)
    requires Valid(ctx)
    ensures Parse(FloatType, JArray([JNumber(v)]), ctx, m) ==
      Ok(PointDefinition(FloatType, [NewFloatPointData(StaticValue(v), 0.0, [], EaseLinear)]))
  {
    var raw := JArray([JNumber(v), JNumber(0.0)]);
    assert [JNumber(v)] + [JNumber(0.0)] == raw.items;
    assert Root([JNumber(v)]) == [raw];
    FloatKeyframe(v, 0.0, ctx, m);
    ParsePointsOne(FloatType, raw, ctx, m);
  }

  /** Two keyframes written as `[[0, 0], [10, 1]]` give a definition of two points. */
  lemma ParseTwoKeyframes(ctx: BaseProviderContext, m: Maths)
    requires Valid(ctx)
    ensures Parse(FloatType, JArray([JArray([JNumber(0.0), JNumber(0.0)]), JArray([JNumber(10.0), JNumber(1.0)])]), ctx, m) ==
      Ok(PointDefinition(FloatType, [NewFloatPointData(StaticValue(0.0), 0.0, [], EaseLinear),
                                     NewFloatPointData(StaticValue(10.0), 1.0, [], EaseLinear)]))
  {
    var a := JArray([JNumber(0.0), JNumber(0.0)]);
    var b := JArray([JNumber(10.0), JNumber(1.0)]);
    FloatKeyframe(0.0, 0.0, ctx, m);
    FloatKeyframe(10.0, 1.0, ctx, m);
    ParsePointsTwo(FloatType, a, b,
      NewFloatPointData(StaticValue(0.0), 0.0, [], EaseLinear), NewFloatPointData(StaticValue(10.0), 1.0, [], EaseLinear), ctx, m);
    assert Root([a, b]) == [a, b];
  }
}

=== FILE: provider_context.dfy ===
/** The registry of values the game feeds in by name ("baseCombo",
    "baseHeadRotation", ...), read by base providers.

    The crate stores 36 typed fields; the model stores a map from each name to
    its current value, together with the fixed schema giving each name its
    value type.  `Valid` says the map holds exactly the schema's names, each
    with a value of its type.
 */
module ProviderContext {
  import opened Wrappers
  import opened Vectors
  import opened BaseValues

  /** The 36 known base names and the type of value each one holds. */
  const Schema: map<string, ValueType> := map[
    "baseCombo" := FloatType,
    "baseMultipliedScore" := FloatType,
    "baseImmediateMaxPossibleMultipliedScore" := FloatType,
    "baseModifiedScore" := FloatType,
    "baseImmediateMaxPossibleModifiedScore" := FloatType,
    "baseRelativeScore" := FloatType,
    "baseMultiplier" := FloatType,
    "baseEnergy" := FloatType,
    "baseSongTime" := FloatType,
    "baseSongLength" := FloatType,
    "baseEnvironmentColor0" := Vec4Type,
    "baseEnvironmentColor0Boost" := Vec4Type,
    "baseEnvironmentColor1" := Vec4Type,
    "baseEnvironmentColor1Boost" := Vec4Type,
    "baseEnvironmentColorW" := Vec4Type,
    "baseEnvironmentColorWBoost" := Vec4Type,
    "baseNote0Color" := Vec4Type,
    "baseNote1Color" := Vec4Type,
    "baseObstaclesColor" := Vec4Type,
    "baseSaberAColor" := Vec4Type,
    "baseSaberBColor" := Vec4Type,
    "baseHeadLocalPosition" := Vec3Type,
    "baseHeadLocalRotation" := QuatType,
    "baseHeadLocalScale" := Vec3Type,
    "baseHeadPosition" := Vec3Type,
    "baseHeadRotation" := QuatType,
    "baseLeftHandLocalPosition" := Vec3Type,
    "baseLeftHandLocalRotation" := QuatType,
    "baseLeftHandLocalScale" := Vec3Type,
    "baseLeftHandPosition" := Vec3Type,
    "baseLeftHandRotation" := QuatType,
    "baseRightHandLocalPosition" := Vec3Type,
    "baseRightHandLocalRotation" := QuatType,
    "baseRightHandLocalScale" := Vec3Type,
    "baseRightHandPosition" := Vec3Type,
    "baseRightHandRotation" := QuatType
  ]

  datatype BaseProviderContext = BaseProviderContext(slots: map<string, BaseValue>)

  ghost predicate Valid(ctx: BaseProviderContext) {
    ctx.slots.Keys == Schema.Keys &&
    forall n :: n in ctx.slots ==> GetType(ctx.slots[n]) == Schema[n]
  }

  /** The value each field starts with: zero, or the identity rotation. */
  function Zero(t: ValueType): (b: BaseValue)
    ensures GetType(b) == t
  {
    match t
    case FloatType => Float(0.0)
    case Vec3Type => Vector3(Vec3Zero)
    case Vec4Type => Vector4(Vec4Zero)
    case QuatType => Quaternion(QuatIdentity)
  }

  /** `BaseProviderContext::default()`: every field at its type's default. */
  function Default(): (ctx: BaseProviderContext)
    ensures Valid(ctx)
    ensures forall n :: n in Schema ==> ctx.slots[n] == Zero(Schema[n])
  {
    BaseProviderContext(map n | n in Schema :: Zero(Schema[n]))
  }

  /** `get_values`: the value stored under a known name; any other name fails. */
  function GetValues(ctx: BaseProviderContext, base: string): (r: Result<BaseValue>)
    requires Valid(ctx)
    ensures r.Ok? <==> base in Schema
    ensures r.Ok? ==> GetType(r.value) == Schema[base] && r.value == ctx.slots[base]
    ensures r.Err? ==> r.error == UnknownBaseProvider(base)
  {
    if base in Schema then Ok(ctx.slots[base]) else Err(UnknownBaseProvider(base))
  }

  /** What `set_values` stores for a name of type `t` given `v`, when it accepts it:
      scalar fields take `v[0]` of any value; the others need a value of their own type. */
  function Stored(t: ValueType, v: BaseValue): (r: Option<BaseValue>)
    ensures r.Some? <==> t == FloatType || GetType(v) == t
    ensures r.Some? ==> GetType(r.value) == t
    ensures r.Some? && t == FloatType ==> r.value == Float(AsSlice(v)[0])
    ensures r.Some? && t != FloatType ==> r.value == v
  {
    match t
    case FloatType => Some(Float(AsSlice(v)[0]))
    case Vec4Type => var c :- AsVec4(v); Some(Vector4(c))
    case Vec3Type => var c :- AsVec3(v); Some(Vector3(c))
    case QuatType => var c :- AsQuat(v); Some(Quaternion(c))
  }

  /** `set_values`. Unknown names and values of the wrong kind fail. */
  function SetValues(ctx: BaseProviderContext, base: string, v: BaseValue): (r: Result<BaseProviderContext>)
    requires Valid(ctx)
    ensures r.Ok? <==> base in Schema && (Schema[base] == FloatType || GetType(v) == Schema[base])
    ensures r.Ok? ==> Valid(r.value)
    ensures r.Ok? ==> r.value.slots == ctx.slots[base := Stored(Schema[base], v).value]
  {
    if base !in Schema then Err(UnknownBaseProvider(base))
    else match Stored(Schema[base], v)
      case None => Err(WrongValueType)
      case Some(b) => Ok(BaseProviderContext(ctx.slots[base := b]))
  }

  /** After a successful `set_values`, that name reads back what was stored and every
      other name reads back what it did before. */
  lemma GetAfterSet(ctx: BaseProviderContext, base: string, v: BaseValue, other: string)
    requires Valid(ctx) && SetValues(ctx, base, v).Ok?
    ensures GetValues(SetValues(ctx, base, v).value, base) == Ok(Stored(Schema[base], v).value)
    ensures Schema[base] != FloatType ==> GetValues(SetValues(ctx, base, v).value, base) == Ok(v)
    ensures other != base ==> GetValues(SetValues(ctx, base, v).value, other) == GetValues(ctx, other)
  {
  }
}

=== FILE: providers.dfy ===
/** Value providers: where the numbers of a keyframe or modifier come from
    (`values/mod.rs` and the provider files beside it), and the splitting of a
    raw JSON array into providers.
 */
module Providers {
  import opened Wrappers
  import opened Vectors
  import opened Maths
  import opened BaseValues
  import opened ProviderContext
  import opened Json

  /** Fixed numbers (`StaticValues`). */
  datatype StaticValues = StaticValues(values: seq<real>)

  /** A reference to a named field of the provider context (`BaseProviderValues`). */
  datatype BaseProviderValues = BaseProviderValues(base: string)

  /** A rotation read from another provider and re-expressed as Euler degrees. */
  datatype QuaternionProviderValues = QuaternionProviderValues(source: ValueProvider)

  /** Numbers picked out of `source` by index (`PartialProviderValues`). */
  datatype PartialProviderValues = PartialProviderValues(source: seq<real>, parts: seq<nat>, values: seq<real>)

  /** Numbers that move towards `source` a step at a time (`SmoothProvidersValues`). */
  datatype SmoothProvidersValues = SmoothProvidersValues(source: seq<real>, mult: real, values: seq<real>)

  /** A rotation that moves towards a target, exposed as three Euler angles. */
  datatype SmoothRotationProvidersValues =
    SmoothRotationProvidersValues(rotationValues: Quat, mult: real, lastQuaternion: Quat, values: Vec3)

  datatype ValueProvider =
    | Static(st: StaticValues)
    | BaseProvider(bp: BaseProviderValues)
    | QuaternionProvider(qp: QuaternionProviderValues)
    | PartialProvider(pp: PartialProviderValues)
    | SmoothProviders(sp: SmoothProvidersValues)
    | SmoothRotationProviders(rp: SmoothRotationProvidersValues)

  /** The number of components a value of type `t` has. */
  function TypeLen(t: ValueType): nat {
    match t
    case FloatType => 1
    case Vec3Type => 3
    case Vec4Type => 4
    case QuatType => 4
  }

  // ---------------------------------------------------------------- static

  function StaticNew(values: seq<real>): StaticValues {
    StaticValues(values)
  }

  function StaticValuesOf(s: StaticValues, ctx: BaseProviderContext): seq<real> {
    s.values
  }

  /** `new` followed by `values` gives back the numbers, in any context. */
  lemma StaticRoundTrip(values: seq<real>, ctx: BaseProviderContext, other: BaseProviderContext)
    ensures StaticValuesOf(StaticNew(values), ctx) == values
    ensures |StaticValuesOf(StaticNew(values), ctx)| == |values|
    ensures StaticValuesOf(StaticNew(values), ctx) == StaticValuesOf(StaticNew(values), other)
  {
  }

  // ------------------------------------------------------------------ base

  /** `BaseProviderValues::values`: the components of the named field. */
  function BaseValuesOf(b: BaseProviderValues, ctx: BaseProviderContext): (r: Result<seq<real>>)
    requires Valid(ctx)
    ensures r.Ok? <==> b.base in Schema
    ensures r.Ok? ==> |r.value| == TypeLen(Schema[b.base]) && r.value == AsSlice(ctx.slots[b.base])
    ensures r.Err? ==> r.error == UnknownBaseProvider(b.base)
  {
    var v :- GetValues(ctx, b.base);
    Ok(AsSlice(v))
  }

  /** A base provider reads what the latest `set_values` on its name stored. */
  lemma BaseReflectsSet(b: BaseProviderValues, ctx: BaseProviderContext, v: BaseValue)
    requires Valid(ctx) && SetValues(ctx, b.base, v).Ok?
    ensures BaseValuesOf(b, SetValues(ctx, b.base, v).value) == Ok(AsSlice(Stored(Schema[b.base], v).value))
    ensures Schema[b.base] != FloatType ==> BaseValuesOf(b, SetValues(ctx, b.base, v).value) == Ok(AsSlice(v))
  {
  }

  // ------------------------------------------------------------ dispatch

  /** `ValueProvider::values`: each variant answers with its own numbers. A quaternion
      provider needs four numbers from its source and yields three Euler angles. */
  function Values(p: ValueProvider, ctx: BaseProviderContext, m: Maths): (r: Result<seq<real>>)
    requires Valid(ctx)
    ensures p.Static? ==> r == Ok(StaticValuesOf(p.st, ctx))
    ensures p.BaseProvider? ==> r == BaseValuesOf(p.bp, ctx)
    ensures p.QuaternionProvider? && r.Ok? ==> |r.value| == 3
    ensures p.PartialProvider? ==> r == Ok(PartialValuesOf(p.pp, ctx))
    ensures p.SmoothProviders? ==> r == Ok(SmoothValuesOf(p.sp, ctx))
    ensures p.SmoothRotationProviders? && r.Ok? ==> |r.value| == 3
    decreases p
  {
    match p
    case Static(s) => Ok(StaticValuesOf(s, ctx))
    case BaseProvider(b) => BaseValuesOf(b, ctx)
    case QuaternionProvider(q) =>
      var s :- Values(q.source, ctx, m);
      if |s| < 4 then Err(IndexOutOfRange)
      else
        var e := m.toUnityEulerDegrees(Quat(s[0], s[1], s[2], s[3]));
        Ok([e.x, e.y, e.z])
    case PartialProvider(pp) => Ok(PartialValuesOf(pp, ctx))
    case SmoothProviders(sp) => Ok(SmoothValuesOf(sp, ctx))
    case SmoothRotationProviders(rp) => Ok([rp.values.x, rp.values.y, rp.values.z])
  }

  // ---------------------------------------------------------- clamp_lerp

  /** `clamp_lerp`: linear interpolation with the parameter clamped to [0, 1]. */
  function ClampLerp(start: real, end: real, t: real): (r: real)
    ensures start <= end ==> start <= r <= end
    ensures end <= start ==> end <= r <= start
    ensures t <= 0.0 ==> r == start
    ensures t >= 1.0 ==> r == end
  {
    var c := Clamp(t, 0.0, 1.0);
    Vectors.LerpWithin(start, end, c);
    Vectors.Lerp(start, end, c)
  }

  // --------------------------------------------------------------- smooth

  /** `SmoothProvidersValues::new`: the current values start at zero, one per source number. */
  function SmoothNew(source: seq<real>, mult: real): (s: SmoothProvidersValues)
    ensures s.source == source && s.mult == mult
    ensures |s.values| == |source| && forall i :: 0 <= i < |s.values| ==> s.values[i] == 0.0
  {
    SmoothProvidersValues(source, mult, seq(|source|, _ => 0.0))
  }

  function SmoothValuesOf(s: SmoothProvidersValues, ctx: BaseProviderContext): seq<real> {
    s.values
  }

  /** `SmoothProvidersValues::update`: every value moves towards its source number by `delta`. */
  method SmoothUpdate(s: SmoothProvidersValues, delta: real) returns (r: SmoothProvidersValues)
    requires |s.values| >= |s.source|
    ensures r.source == s.source && r.mult == s.mult && |r.values| == |s.values|
    ensures forall i :: 0 <= i < |s.source| ==> r.values[i] == ClampLerp(s.values[i], s.source[i], delta)
    ensures forall i :: |s.source| <= i < |s.values| ==> r.values[i] == s.values[i]
    ensures delta >= 1.0 && |s.values| == |s.source| ==> r.values == s.source
    ensures delta <= 0.0 ==> r.values == s.values
  {
    var values := s.values;
    var i := 0;
    while i < |s.source|
      invariant 0 <= i <= |s.source|
      invariant |values| == |s.values|
      invariant forall k :: 0 <= k < i ==> values[k] == ClampLerp(s.values[k], s.source[k], delta)
      invariant forall k :: i <= k < |s.values| ==> values[k] == s.values[k]
    {
      values := values[i := ClampLerp(values[i], s.source[i], delta)];
      i := i + 1;
    }
    r := s.(values := values);
  }

  // -------------------------------------------------------------- partial

  /** `PartialProviderValues::new`: one zero per selected part. */
  function PartialNew(source: seq<real>, parts: seq<nat>): (p: PartialProviderValues)
    ensures p.source == source && p.parts == parts
    ensures |p.values| == |parts| && forall i :: 0 <= i < |p.values| ==> p.values[i] == 0.0
  {
    PartialProviderValues(source, parts, seq(|parts|, _ => 0.0))
  }

  /** `PartialProviderValues::values` answers with the whole source, not the selected parts. */
  function PartialValuesOf(p: PartialProviderValues, ctx: BaseProviderContext): seq<real> {
    p.source
  }

  /** `PartialProviderValues::update`: copies the selected source numbers; the time is unused.
      A part past the end of the source, or more parts than values, is an out-of-range index. */
  method PartialUpdate(p: PartialProviderValues, t: real) returns (r: Result<PartialProviderValues>)
    ensures r.Ok? <==> |p.values| >= |p.parts| && forall i :: 0 <= i < |p.parts| ==> p.parts[i] < |p.source|
    ensures r.Err? ==> r.error == IndexOutOfRange
    ensures r.Ok? ==> r.value.source == p.source && r.value.parts == p.parts && |r.value.values| == |p.values|
    ensures r.Ok? ==> forall i :: 0 <= i < |p.parts| ==> r.value.values[i] == p.source[p.parts[i]]
    ensures r.Ok? ==> forall i :: |p.parts| <= i < |p.values| ==> r.value.values[i] == p.values[i]
  {
    var values := p.values;
    var i := 0;
    while i < |p.parts|
      invariant 0 <= i <= |p.parts|
      invariant |values| == |p.values|
      invariant i <= |p.values|
      invariant forall k :: 0 <= k < i ==> p.parts[k] < |p.source|
      invariant forall k :: 0 <= k < i ==> values[k] == p.source[p.parts[k]]
      invariant forall k :: i <= k < |p.values| ==> values[k] == p.values[k]
    {
      if i >= |values| || p.parts[i] >= |p.source| {
        return Err(IndexOutOfRange);
      }
      values := values[i := p.source[p.parts[i]]];
      i := i + 1;
    }
    r := Ok(p.(values := values));
  }

  // ---------------------------------------------------- JsonPointValues

  datatype JsonPointValues = JsonStatic(numbers: seq<real>) | JsonBase(provider: BaseProviderValues)

  function ToProvider(j: JsonPointValues): (p: ValueProvider)
    ensures j.JsonStatic? <==> p.Static?
    ensures j.JsonBase? <==> p.BaseProvider?
  {
    match j
    case JsonStatic(v) => Static(StaticNew(v))
    case JsonBase(b) => BaseProvider(b)
  }

  /** `to_raw_values` answers with exactly what the provider `to_provider` builds would. */
  function ToRawValues(j: JsonPointValues, ctx: BaseProviderContext): (r: Result<seq<real>>)
    requires Valid(ctx)
    ensures forall m: Maths :: r == Values(ToProvider(j), ctx, m)
  {
    match j
    case JsonStatic(v) => Ok(v)
    case JsonBase(b) => BaseValuesOf(b, ctx)
  }

  // --------------------------------------------------- get_value_provider

  /** The text before the first '.', or all of `s` when it has none
      (the first item of `split(".")`). */
  function BaseName(s: string): (r: string)
    ensures r <= s && '.' !in r
    ensures |r| < |s| ==> s[|r|] == '.'
  {
    if |s| == 0 || s[0] == '.' then "" else [s[0]] + BaseName(s[1..])
  }

  /** `get_value_provider`: a provider for the field named before the first '.';
      rotation fields are wrapped so that they read as Euler angles. */
  function GetValueProvider(ctx: BaseProviderContext, s: string): (r: Result<ValueProvider>)
    requires Valid(ctx)
    ensures r.Ok? <==> BaseName(s) in Schema
    ensures r.Ok? && Schema[BaseName(s)] == QuatType ==>
      r.value == QuaternionProvider(QuaternionProviderValues(BaseProvider(BaseProviderValues(BaseName(s)))))
    ensures r.Ok? && Schema[BaseName(s)] != QuatType ==> r.value == BaseProvider(BaseProviderValues(BaseName(s)))
  {
    var name := BaseName(s);
    var v :- GetValues(ctx, name);
    var base := BaseProvider(BaseProviderValues(name));
    if v.Quaternion? then Ok(QuaternionProvider(QuaternionProviderValues(base))) else Ok(base)
  }

  /** A provider made from a name yields as many numbers as its field has components,
      except rotations, which yield three Euler angles. */
  lemma GetValueProviderArity(ctx: BaseProviderContext, s: string, m: Maths)
    requires Valid(ctx) && GetValueProvider(ctx, s).Ok?
    ensures Values(GetValueProvider(ctx, s).value, ctx, m).Ok?
    ensures |Values(GetValueProvider(ctx, s).value, ctx, m).value| ==
      if Schema[BaseName(s)] == QuatType then 3 else TypeLen(Schema[BaseName(s)])
  {
  }

  // --------------------------------------------------- deserialize_values

  /** `close`: an empty run adds nothing; otherwise its numbers (others dropped) become
      one static provider, possibly empty. */
  function Close(run: seq<Json>): (r: seq<ValueProvider>)
    ensures |run| == 0 <==> |r| == 0
    ensures |run| > 0 ==> r == [Static(StaticValues(Numbers(run)))]
  {
    if |run| == 0 then [] else [Static(StaticNew(Numbers(run)))]
  }

  /** The loop of `deserialize_values` from index `i`, with the current run opened at `start`. */
  function DeserializeFrom(items: seq<Json>, ctx: BaseProviderContext, i: nat, start: nat): Result<seq<ValueProvider>>
    requires Valid(ctx)
    requires start <= i <= |items|
    decreases |items| - i
  {
    if i == |items| then Ok(Close(items[start..]))
    else if items[i].JString? then
      var p :- GetValueProvider(ctx, items[i].str);
      var rest :- DeserializeFrom(items, ctx, i + 1, i + 1);
      Ok(Close(items[start..i]) + [p] + rest)
    else DeserializeFrom(items, ctx, i + 1, start)
  }

  /** `deserialize_values`: each string becomes its own named provider and each maximal
      run of other entries between them becomes one static provider. */
  function DeserializeValues(items: seq<Json>, ctx: BaseProviderContext): Result<seq<ValueProvider>>
    requires Valid(ctx)
  {
    DeserializeFrom(items, ctx, 0, 0)
  }

  /** The numbers of the static providers, concatenated in order. */
  function StaticNumbers(ps: seq<ValueProvider>): seq<real> {
    if |ps| == 0 then []
    else (if ps[0].Static? then ps[0].st.values else []) + StaticNumbers(ps[1..])
  }

  /** The providers that are not static, in order. */
  function Named(ps: seq<ValueProvider>): (r: seq<ValueProvider>)
    ensures forall k :: 0 <= k < |r| ==> !r[k].Static?
  {
    if |ps| == 0 then []
    else (if ps[0].Static? then [] else [ps[0]]) + Named(ps[1..])
  }

  lemma {:induction false} StaticNumbersAppend(a: seq<ValueProvider>, b: seq<ValueProvider>)
    ensures StaticNumbers(a + b) == StaticNumbers(a) + StaticNumbers(b)
  {
    if |a| == 0 {
      assert a + b == b;
    } else {
      assert (a + b)[1..] == a[1..] + b;
      StaticNumbersAppend(a[1..], b);
    }
  }

  lemma {:induction false} NamedAppend(a: seq<ValueProvider>, b: seq<ValueProvider>)
    ensures Named(a + b) == Named(a) + Named(b)
  {
    if |a| == 0 {
      assert a + b == b;
    } else {
      assert (a + b)[1..] == a[1..] + b;
      NamedAppend(a[1..], b);
    }
  }

  /** Every named base in `strs` resolves. */
  ghost predicate AllKnown(ctx: BaseProviderContext, strs: seq<string>) {
    forall k :: 0 <= k < |strs| ==> BaseName(strs[k]) in Schema
  }

  /** `named` are, in order, the providers of the names in `strs`. */
  ghost predicate ProvidersOf(ctx: BaseProviderContext, named: seq<ValueProvider>, strs: seq<string>)
    requires Valid(ctx)
  {
    |named| == |strs| &&
    forall k :: 0 <= k < |strs| ==> Ok(named[k]) == GetValueProvider(ctx, strs[k])
  }

  /** A run closes into providers that carry its numbers and no named provider. */
  lemma CloseParts(run: seq<Json>)
    ensures StaticNumbers(Close(run)) == Numbers(run)
    ensures Named(Close(run)) == []
  {
    if |run| > 0 {
      assert StaticNumbers(Close(run)) == Numbers(run) + StaticNumbers([]);
      assert Named(Close(run)) == [] + Named([]);
    }
  }

  /** `AllKnown` of a list with a first name. */
  lemma AllKnownCons(ctx: BaseProviderContext, s: string, tail: seq<string>)
    ensures AllKnown(ctx, [s] + tail) <==> BaseName(s) in Schema && AllKnown(ctx, tail)
  {
    var strs := [s] + tail;
    assert strs[0] == s;
    if BaseName(s) in Schema && AllKnown(ctx, tail) {
      forall k | 0 <= k < |strs|
        ensures BaseName(strs[k]) in Schema
      {
        if k > 0 {
          assert strs[k] == tail[k - 1];
        }
      }
    }
    if AllKnown(ctx, strs) {
      forall k | 0 <= k < |tail|
        ensures BaseName(tail[k]) in Schema
      {
        assert tail[k] == strs[k + 1];
      }
    }
  }

  /** `ProvidersOf` of a list with a first name. */
  lemma ProvidersOfCons(ctx: BaseProviderContext, p: ValueProvider, named: seq<ValueProvider>, s: string, strs: seq<string>)
    requires Valid(ctx) && Ok(p) == GetValueProvider(ctx, s) && ProvidersOf(ctx, named, strs)
    ensures ProvidersOf(ctx, [p] + named, [s] + strs)
  {
    var named', strs' := [p] + named, [s] + strs;
    forall k | 0 <= k < |strs'|
      ensures Ok(named'[k]) == GetValueProvider(ctx, strs'[k])
    {
      if k > 0 {
        assert named'[k] == named[k - 1] && strs'[k] == strs[k - 1];
      }
    }
  }

  /** The entries from `i` on: the entry at `i`, then the rest. */
  lemma SplitHead(items: seq<Json>, i: nat)
    requires i < |items|
    ensures items[i].JString? ==> Strings(items[i..]) == [items[i].str] + Strings(items[i + 1..])
    ensures !items[i].JString? ==> Strings(items[i..]) == Strings(items[i + 1..])
  {
    assert items[i..][0] == items[i];
    assert items[i..][1..] == items[i + 1..];
  }

  /** The entries from `start` on, around the entry at `i`. */
  lemma SplitAround(items: seq<Json>, start: nat, i: nat)
    requires start <= i < |items|
    ensures items[start..] == items[start..i] + [items[i]] + items[i + 1..]
  {
  }

  /** One step of the loop at any other entry: the entry joins the open run. */
  lemma OtherStep(items: seq<Json>, ctx: BaseProviderContext, i: nat, start: nat)
    requires Valid(ctx) && start <= i < |items| && !items[i].JString?
    ensures DeserializeFrom(items, ctx, i, start) == DeserializeFrom(items, ctx, i + 1, start)
  {
  }

  /** What the loop builds at a string: a closed run, the string's provider and the rest. */
  lemma JoinAtString(run: seq<Json>, p: ValueProvider, rest: seq<ValueProvider>, x: Json, tail: seq<Json>)
    requires x.JString? && !p.Static?
    ensures StaticNumbers(Close(run) + [p] + rest) == Numbers(run) + StaticNumbers(rest)
    ensures Numbers(run + [x] + tail) == Numbers(run) + Numbers(tail)
    ensures Named(Close(run) + [p] + rest) == [p] + Named(rest)
  {
    var c := Close(run);
    CloseParts(run);
    StaticNumbersAppend(c + [p], rest);
    StaticNumbersAppend(c, [p]);
    assert StaticNumbers([p]) == [] + StaticNumbers([]);
    NamedAppend(c + [p], rest);
    NamedAppend(c, [p]);
    assert Named([p]) == [p] + Named([]);
    NumbersAppend(run + [x], tail);
    NumbersAppend(run, [x]);
    assert Numbers([x]) == [] + Numbers([]);
  }

  /** One step of the loop at a string entry: the run so far is closed, the string's
      provider follows, and the loop restarts after it. */
  lemma StringStep(items: seq<Json>, ctx: BaseProviderContext, i: nat, start: nat)
    requires Valid(ctx) && start <= i < |items| && items[i].JString?
    ensures DeserializeFrom(items, ctx, i, start).Ok? <==>
      GetValueProvider(ctx, items[i].str).Ok? && DeserializeFrom(items, ctx, i + 1, i + 1).Ok?
    ensures DeserializeFrom(items, ctx, i, start).Ok? ==>
      DeserializeFrom(items, ctx, i, start).value ==
        Close(items[start..i]) + [GetValueProvider(ctx, items[i].str).value] + DeserializeFrom(items, ctx, i + 1, i + 1).value
  {
  }

  /** The string branch of `DeserializeFromOk`, given its claim for the rest. */
  lemma OkAtString(items: seq<Json>, ctx: BaseProviderContext, i: nat, start: nat)
    requires Valid(ctx) && start <= i < |items| && items[i].JString?
    requires DeserializeFrom(items, ctx, i + 1, i + 1).Ok? <==> AllKnown(ctx, Strings(items[i + 1..]))
    ensures DeserializeFrom(items, ctx, i, start).Ok? <==> AllKnown(ctx, Strings(items[i..]))
  {
    SplitHead(items, i);
    StringStep(items, ctx, i, start);
    AllKnownCons(ctx, items[i].str, Strings(items[i + 1..]));
  }

  lemma {:induction false} DeserializeFromOk(items: seq<Json>, ctx: BaseProviderContext, i: nat, start: nat)
    requires Valid(ctx) && start <= i <= |items|
    ensures DeserializeFrom(items, ctx, i, start).Ok? <==> AllKnown(ctx, Strings(items[i..]))
    decreases |items| - i
  {
    if i == |items| {
      assert Strings(items[i..]) == [];
    } else if items[i].JString? {
      DeserializeFromOk(items, ctx, i + 1, i + 1);
      OkAtString(items, ctx, i, start);
    } else {
      SplitHead(items, i);
      OtherStep(items, ctx, i, start);
      DeserializeFromOk(items, ctx, i + 1, start);
    }
  }

  lemma {:induction false} DeserializeFromNumbers(items: seq<Json>, ctx: BaseProviderContext, i: nat, start: nat)
    requires Valid(ctx) && start <= i <= |items|
    ensures DeserializeFrom(items, ctx, i, start).Ok? ==>
      StaticNumbers(DeserializeFrom(items, ctx, i, start).value) == Numbers(items[start..])
    decreases |items| - i
  {
    if DeserializeFrom(items, ctx, i, start).Ok? {
      if i == |items| {
        CloseParts(items[start..]);
      } else if items[i].JString? {
        DeserializeFromNumbers(items, ctx, i + 1, i + 1);
        StringStep(items, ctx, i, start);
        var p := GetValueProvider(ctx, items[i].str).value;
        SplitAround(items, start, i);
        JoinAtString(items[start..i], p, DeserializeFrom(items, ctx, i + 1, i + 1).value, items[i], items[i + 1..]);
      } else {
        OtherStep(items, ctx, i, start);
        DeserializeFromNumbers(items, ctx, i + 1, start);
      }
    }
  }

  lemma {:induction false} DeserializeFromNamed(items: seq<Json>, ctx: BaseProviderContext, i: nat, start: nat)
    requires Valid(ctx) && start <= i <= |items|
    ensures DeserializeFrom(items, ctx, i, start).Ok? ==>
      ProvidersOf(ctx, Named(DeserializeFrom(items, ctx, i, start).value), Strings(items[i..]))
    decreases |items| - i
  {
    if DeserializeFrom(items, ctx, i, start).Ok? {
      if i == |items| {
        assert Strings(items[i..]) == [];
        CloseParts(items[start..]);
      } else {
        SplitHead(items, i);
        if items[i].JString? {
          DeserializeFromNamed(items, ctx, i + 1, i + 1);
          StringStep(items, ctx, i, start);
          var p := GetValueProvider(ctx, items[i].str).value;
          var rest := DeserializeFrom(items, ctx, i + 1, i + 1).value;
          JoinAtString(items[start..i], p, rest, items[i], items[i + 1..]);
          ProvidersOfCons(ctx, p, Named(rest), items[i].str, Strings(items[i + 1..]));
        } else {
          OtherStep(items, ctx, i, start);
          DeserializeFromNamed(items, ctx, i + 1, start);
        }
      }
    }
  }

  /** `deserialize_values` succeeds exactly when every string names a known field; then the
      static providers carry the input's numbers in order, and the other providers are the
      strings' providers in order. */
  lemma DeserializeValuesSpec(items: seq<Json>, ctx: BaseProviderContext)
    requires Valid(ctx)
    ensures DeserializeValues(items, ctx).Ok? <==> AllKnown(ctx, Strings(items))
    ensures DeserializeValues(items, ctx).Ok? ==> StaticNumbers(DeserializeValues(items, ctx).value) == Numbers(items)
    ensures DeserializeValues(items, ctx).Ok? ==>
      ProvidersOf(ctx, Named(DeserializeValues(items, ctx).value), Strings(items))
  {
    assert items[0..] == items;
    DeserializeFromOk(items, ctx, 0, 0);
    DeserializeFromNumbers(items, ctx, 0, 0);
    DeserializeFromNamed(items, ctx, 0, 0);
  }
}

=== FILE: track.dfy ===
/** The newer `Track` of `animation/track.rs`: property names parsed into an
    enumeration (accepting both the v1 and the v2 spelling), property maps with a
    dedicated slot per recognised name, and game-object registration that
    notifies the registered callbacks.

    A callback is an `Rc` closure compared by address; the model identifies it
    by that address and records each call it would receive as a `Notification`.
 */
module Track {
  import opened Wrappers
  import opened BaseValues
  import opened GameObjects
  import opened PathInterpolation

  /** The recognised property names, in declaration order. */
  datatype PropertyNames =
    | Position
    | Rotation
    | Scale
    | LocalRotation
    | LocalPosition
    | DefinitePosition
    | Dissolve
    | DissolveArrow
    | Time
    | Cuttable
    | Color
    | Attentuation
    | FogOffset
    | HeightFogStartY
    | HeightFogHeight
    | UnknownPropertyName

  /** `Display`: the v1 spelling of a name, and "Unknown" for the catch-all variant. */
  function Display(n: PropertyNames): string {
    match n
    case Position => "position"
    case Rotation => "rotation"
    case Scale => "scale"
    case LocalRotation => "local_rotation"
    case LocalPosition => "local_position"
    case DefinitePosition => "definite_position"
    case Dissolve => "dissolve"
    case DissolveArrow => "dissolve_arrow"
    case Time => "time"
    case Cuttable => "cuttable"
    case Color => "color"
    case Attentuation => "attentuation"
    case FogOffset => "fog_offset"
    case HeightFogStartY => "height_fog_start_y"
    case HeightFogHeight => "height_fog_height"
    case UnknownPropertyName => "Unknown"
  }

  /** The v2 spelling of a recognised name. */
  function V2Name(n: PropertyNames): string
    requires n != UnknownPropertyName
  {
    match n
    case Position => "_position"
    case Rotation => "_rotation"
    case Scale => "_scale"
    case LocalRotation => "_localRotation"
    case LocalPosition => "_localPosition"
    case DefinitePosition => "_definitePosition"
    case Dissolve => "_dissolve"
    case DissolveArrow => "_dissolveArrow"
    case Time => "_time"
    case Cuttable => "_cuttable"
    case Color => "_color"
    case Attentuation => "_attenuation"
    case FogOffset => "_fogOffset"
    case HeightFogStartY => "_heightFogStartY"
    case HeightFogHeight => "_heightFogHeight"
  }

  /** The first arm block of `PropertyNames::from_str`: the v1 spellings. */
  function FromV1(s: string): (r: Option<PropertyNames>)
    ensures r.Some? ==> |s| > 0 && s[0] != '_'
  {
    match s
    case "position" => Some(Position)
    case "rotation" => Some(Rotation)
    case "scale" => Some(Scale)
    case "local_rotation" => Some(LocalRotation)
    case "local_position" => Some(LocalPosition)
    case "definite_position" => Some(DefinitePosition)
    case "dissolve" => Some(Dissolve)
    case "dissolve_arrow" => Some(DissolveArrow)
    case "time" => Some(Time)
    case "cuttable" => Some(Cuttable)
    case "color" => Some(Color)
    case "attentuation" => Some(Attentuation)
    case "fog_offset" => Some(FogOffset)
    case "height_fog_start_y" => Some(HeightFogStartY)
    case "height_fog_height" => Some(HeightFogHeight)
    case _ => None
  }

  /** The second arm block: the v2 spellings, each the v1 one in camel case after an underscore. */
  function FromV2(s: string): (r: Option<PropertyNames>)
    ensures r.Some? ==> |s| > 0 && s[0] == '_'
  {
    match s
    case "_position" => Some(Position)
    case "_localPosition" => Some(LocalPosition)
    case "_rotation" => Some(Rotation)
    case "_localRotation" => Some(LocalRotation)
    case "_scale" => Some(Scale)
    case "_definitePosition" => Some(DefinitePosition)
    case "_dissolve" => Some(Dissolve)
    case "_dissolveArrow" => Some(DissolveArrow)
    case "_time" => Some(Time)
    case "_cuttable" => Some(Cuttable)
    case "_color" => Some(Color)
    case "_attenuation" => Some(Attentuation)
    case "_fogOffset" => Some(FogOffset)
    case "_heightFogStartY" => Some(HeightFogStartY)
    case "_heightFogHeight" => Some(HeightFogHeight)
    case _ => None
  }

  /** `PropertyNames::from_str`; `None` stands for its `Err(())`. */
  function FromStr(s: string): Option<PropertyNames> {
    if FromV1(s).Some? then FromV1(s) else FromV2(s)
  }

  /** The v1 block accepts exactly the printed names. */
  lemma V1Spelling(s: string, n: PropertyNames)
    requires FromV1(s) == Some(n)
    ensures n != UnknownPropertyName && s == Display(n)
  {
  }

  /** The v2 block accepts exactly the v2 names. */
  lemma V2Spelling(s: string, n: PropertyNames)
    requires FromV2(s) == Some(n)
    ensures n != UnknownPropertyName && s == V2Name(n)
  {
  }

  /** Both spellings of every recognised name parse to that name. */
  lemma FromStrAccepts(n: PropertyNames)
    requires n != UnknownPropertyName
    ensures FromStr(Display(n)) == Some(n)
    ensures FromStr(V2Name(n)) == Some(n)
  {
    assert FromV1(Display(n)) == Some(n);
    assert FromV2(V2Name(n)) == Some(n);
    assert V2Name(n)[0] == '_';
  }

  /** The parser accepts nothing but the two spellings of a recognised name, so printing
      a parsed name gives back its canonical v1 spelling, which parses to the same name. */
  lemma FromStrSound(s: string)
    ensures FromStr(s).Some? ==> FromStr(s).value != UnknownPropertyName
    ensures FromStr(s).Some? ==> s == Display(FromStr(s).value) || s == V2Name(FromStr(s).value)
    ensures FromStr(s).Some? ==> FromStr(Display(FromStr(s).value)) == FromStr(s)
  {
    if FromV1(s).Some? {
      V1Spelling(s, FromV1(s).value);
      FromStrAccepts(FromV1(s).value);
    } else if FromV2(s).Some? {
      V2Spelling(s, FromV2(s).value);
      FromStrAccepts(FromV2(s).value);
    }
  }

  /** The text printed for the catch-all variant is not a property name. */
  lemma UnknownNotParsed()
    ensures FromStr(Display(UnknownPropertyName)) == None
  {
  }

  /** `ValuePropertyHandle` / `PathPropertyHandle`. */
  datatype Handle = ByName(name: string) | ById(id: PropertyNames)

  /** `*PropertyHandle::new`: a recognised name becomes its enum value, anything else stays a string. */
  function NewHandle(id: string): (h: Handle)
    ensures h.ById? <==> FromStr(id).Some?
    ensures h.ById? ==> h.id == FromStr(id).value
    ensures h.ByName? ==> h.name == id
  {
    match FromStr(id)
    case Some(n) => ById(n)
    case None => ByName(id)
  }

  /** The value type of each dedicated slot, as the default maps create it. */
  function SlotType(n: PropertyNames): ValueType {
    match n
    case Position => Vec3Type
    case Rotation => QuatType
    case Scale => Vec3Type
    case LocalRotation => QuatType
    case LocalPosition => Vec3Type
    case DefinitePosition => Vec3Type
    case Color => Vec4Type
    case _ => FloatType
  }

  /** The names `PropertiesMap` has a slot for: all recognised ones but `DefinitePosition`. */
  const ValueSlots: set<PropertyNames> := {
    Position, Rotation, Scale, LocalRotation, LocalPosition, Dissolve, DissolveArrow,
    Time, Cuttable, Color, Attentuation, FogOffset, HeightFogStartY, HeightFogHeight}

  /** The names `PathPropertiesMap` has a slot for: neither `Time` nor the Chroma names. */
  const PathSlots: set<PropertyNames> := {
    Position, Rotation, Scale, LocalRotation, LocalPosition, DefinitePosition,
    Dissolve, DissolveArrow, Cuttable, Color}

  /** A property map: one slot per name it has a field for, and a map for custom ids. */
  datatype PropertyTable<T> = PropertyTable(slots: map<PropertyNames, T>, custom: map<string, T>)

  /** `get_property_by_name`: the slot of a name, `None` for a name without one. */
  function GetByName<T>(t: PropertyTable<T>, n: PropertyNames): (r: Option<T>)
    ensures r.Some? <==> n in t.slots
    ensures r.Some? ==> r.value == t.slots[n]
  {
    if n in t.slots then Some(t.slots[n]) else None
  }

  function CustomGet<T>(t: PropertyTable<T>, id: string): (r: Option<T>)
    ensures r.Some? <==> id in t.custom
    ensures r.Some? ==> r.value == t.custom[id]
  {
    if id in t.custom then Some(t.custom[id]) else None
  }

  /** `get`: a recognised name reads its slot and never the custom map; any other id
      reads the custom map. */
  function Get<T>(t: PropertyTable<T>, id: string): (r: Option<T>)
    ensures FromStr(id).Some? ==> r == GetByName(t, FromStr(id).value)
    ensures FromStr(id).None? ==> r == CustomGet(t, id)
  {
    match FromStr(id)
    case Some(n) => GetByName(t, n)
    case None => CustomGet(t, id)
  }

  /** `get_by_handle`: `ByName` searches only the custom map, `ById` only the slots. */
  function GetByHandle<T>(t: PropertyTable<T>, h: Handle): (r: Option<T>)
    ensures h.ByName? ==> r == CustomGet(t, h.name)
    ensures h.ById? ==> r == GetByName(t, h.id)
  {
    match h
    case ByName(id) => CustomGet(t, id)
    case ById(n) => GetByName(t, n)
  }

  /** Looking up through the handle of an id is looking up the id. */
  lemma GetByHandleAgrees<T>(t: PropertyTable<T>, id: string)
    ensures GetByHandle(t, NewHandle(id)) == Get(t, id)
  {
  }

  /** A v2 alias and its v1 name reach the same slot. */
  lemma AliasSameSlot<T>(t: PropertyTable<T>, n: PropertyNames)
    requires n != UnknownPropertyName
    ensures Get(t, V2Name(n)) == Get(t, Display(n)) == GetByName(t, n)
  {
    FromStrAccepts(n);
  }

  /** `insert`: overwrite what `get_mut` finds, otherwise add to the custom map.  A
      recognised name without a slot therefore lands in the custom map, where `get`
      never looks. */
  function Insert<T>(t: PropertyTable<T>, id: string, p: T): (r: PropertyTable<T>)
    ensures r.slots.Keys == t.slots.Keys
    ensures Get(r, id) == (if FromStr(id).Some? && FromStr(id).value !in t.slots then None else Some(p))
    ensures forall other :: other != id && (FromStr(other).None? || FromStr(other) != FromStr(id)) ==>
      Get(r, other) == Get(t, other)
  {
    match FromStr(id)
    case Some(n) =>
      if n in t.slots then PropertyTable(t.slots[n := p], t.custom)
      else PropertyTable(t.slots, t.custom[id := p])
    case None => PropertyTable(t.slots, t.custom[id := p])
  }

  /** Inserting under a v2 alias is seen through the v1 name, and the other way round. */
  lemma InsertThroughAlias<T>(t: PropertyTable<T>, n: PropertyNames, p: T)
    requires n != UnknownPropertyName && n in t.slots
    ensures Get(Insert(t, V2Name(n), p), Display(n)) == Some(p)
    ensures Get(Insert(t, Display(n), p), V2Name(n)) == Some(p)
  {
    FromStrAccepts(n);
    AliasSameSlot(Insert(t, V2Name(n), p), n);
    AliasSameSlot(Insert(t, Display(n), p), n);
  }

  /** The newer `ValueProperty`: the current value and the value type it was created for. */
  datatype ValueProperty = ValueProperty(value: Option<BaseValue>, ty: ValueType)

  /** `ValueProperty::empty`. */
  function EmptyValue(ty: ValueType): (p: ValueProperty)
    ensures p.value.None? && p.ty == ty
  {
    ValueProperty(None, ty)
  }

  type PathProperty = PathInterpolation

  /** `PropertiesMap::default()`: every slot empty, with its slot type; no custom ids. */
  function DefaultProperties(): (t: PropertyTable<ValueProperty>)
    ensures t.slots.Keys == ValueSlots && t.custom == map[]
    ensures forall n :: n in ValueSlots ==> GetByName(t, n) == Some(EmptyValue(SlotType(n)))
  {
    PropertyTable(map n | n in ValueSlots :: EmptyValue(SlotType(n)), map[])
  }

  /** `PathPropertiesMap::default()`: every slot an empty blend of its slot type. */
  function DefaultPaths(): (t: PropertyTable<PathProperty>)
    ensures t.slots.Keys == PathSlots && t.custom == map[]
    ensures forall n :: n in PathSlots ==> GetByName(t, n) == Some(Empty(SlotType(n)))
  {
    PropertyTable(map n | n in PathSlots :: Empty(SlotType(n)), map[])
  }

  /** On the default value map `definite_position` has no slot, so what is inserted
      under it cannot be read back. */
  lemma DefaultPropertiesUnslotted(p: ValueProperty)
    ensures Get(Insert(DefaultProperties(), "definite_position", p), "definite_position") == None
  {
    assert FromV1("definite_position") == Some(DefinitePosition);
    assert DefinitePosition !in ValueSlots;
  }

  /** On the default value map a v2 alias writes the slot its v1 name reads. */
  lemma DefaultPropertiesAlias(p: ValueProperty)
    ensures Get(Insert(DefaultProperties(), "_dissolve", p), "dissolve") == Some(p)
  {
    var t := DefaultProperties();
    assert Dissolve in ValueSlots;
    InsertThroughAlias(t, Dissolve, p);
    assert V2Name(Dissolve) == "_dissolve" && Display(Dissolve) == "dissolve";
  }

  /** On the default path map `time` has no slot. */
  lemma DefaultPathsUnslotted(q: PathProperty)
    ensures Get(Insert(DefaultPaths(), "time", q), "time") == None
  {
    assert FromV1("time") == Some(Time);
    assert Time !in PathSlots;
  }

  /** On the default path map `_definitePosition` writes the `definite_position` slot. */
  lemma DefaultPathsAlias(q: PathProperty)
    ensures Get(Insert(DefaultPaths(), "_definitePosition", q), "definite_position") == Some(q)
  {
    var t := DefaultPaths();
    assert DefinitePosition in PathSlots;
    InsertThroughAlias(t, DefinitePosition, q);
    assert V2Name(DefinitePosition) == "_definitePosition" && Display(DefinitePosition) == "definite_position";
  }

  /** A game-object callback, identified by the address of its `Rc`. */
  datatype Callback = Callback(ptr: nat)

  /** One call of a callback: the object and whether it was added (or removed). */
  datatype Notification = Notification(callback: Callback, gameObject: GameObject, added: bool)

  /** Every callback called once with the same object, in registration order. */
  function Notify(callbacks: seq<Callback>, g: GameObject, added: bool): (r: seq<Notification>)
    ensures |r| == |callbacks|
    ensures forall i :: 0 <= i < |r| ==> r[i] == Notification(callbacks[i], g, added)
  {
    seq(|callbacks|, i requires 0 <= i < |callbacks| => Notification(callbacks[i], g, added))
  }

  datatype Track = Track(
    properties: PropertyTable<ValueProperty>,
    pathProperties: PropertyTable<PathProperty>,
    name: string,
    gameObjects: seq<GameObject>,
    callbacks: seq<Callback>)

  /** `Track::default()`. */
  function Default(): (t: Track)
    ensures t.properties == DefaultProperties() && t.pathProperties == DefaultPaths()
    ensures t.name == "" && t.gameObjects == [] && t.callbacks == []
  {
    Track(DefaultProperties(), DefaultPaths(), "", [], [])
  }

  function RegisterProperty(t: Track, id: string, p: ValueProperty): (r: Track)
    ensures r.properties == Insert(t.properties, id, p)
    ensures r.pathProperties == t.pathProperties && r.name == t.name
    ensures r.gameObjects == t.gameObjects && r.callbacks == t.callbacks
  {
    t.(properties := Insert(t.properties, id, p))
  }

  function RegisterPathProperty(t: Track, id: string, p: PathProperty): (r: Track)
    ensures r.pathProperties == Insert(t.pathProperties, id, p)
    ensures r.properties == t.properties && r.name == t.name
    ensures r.gameObjects == t.gameObjects && r.callbacks == t.callbacks
  {
    t.(pathProperties := Insert(t.pathProperties, id, p))
  }

  /** `register_game_object`: a known object changes nothing and calls nobody; a new one
      is appended and every callback hears that it was added. */
  function RegisterGameObject(t: Track, g: GameObject): (r: (Track, seq<Notification>))
    ensures g in t.gameObjects ==> r == (t, [])
    ensures g !in t.gameObjects ==> r.0.gameObjects == t.gameObjects + [g]
    ensures g !in t.gameObjects ==> r.1 == Notify(t.callbacks, g, true)
    ensures Distinct(t.gameObjects) ==> Distinct(r.0.gameObjects)
    ensures r.0.properties == t.properties && r.0.pathProperties == t.pathProperties
    ensures r.0.name == t.name && r.0.callbacks == t.callbacks
  {
    if g in t.gameObjects then (t, [])
    else (t.(gameObjects := Register(t.gameObjects, g)), Notify(t.callbacks, g, true))
  }

  /** `remove_game_object`: every occurrence goes, the others keep their order, and
      every callback hears of the removal even when the object was not there. */
  function RemoveGameObject(t: Track, g: GameObject): (r: (Track, seq<Notification>))
    ensures g !in r.0.gameObjects
    ensures forall x :: x in r.0.gameObjects <==> x in t.gameObjects && x != g
    ensures r.0.gameObjects == Remove(t.gameObjects, g)
    ensures r.1 == Notify(t.callbacks, g, false)
    ensures r.0.properties == t.properties && r.0.pathProperties == t.pathProperties
    ensures r.0.name == t.name && r.0.callbacks == t.callbacks
  {
    (t.(gameObjects := Remove(t.gameObjects, g)), Notify(t.callbacks, g, false))
  }

  /** `register_game_object_callback`: appended, so it is called after the older ones. */
  function RegisterCallback(t: Track, c: Callback): (r: Track)
    ensures r.callbacks == t.callbacks + [c]
    ensures r.properties == t.properties && r.pathProperties == t.pathProperties
    ensures r.name == t.name && r.gameObjects == t.gameObjects
  {
    t.(callbacks := t.callbacks + [c])
  }

  /** The callbacks other than `c`, in order (`retain` with `Rc::ptr_eq`). */
  function WithoutCallback(cs: seq<Callback>, c: Callback): (r: seq<Callback>)
    ensures c !in r
    ensures forall x :: x in r <==> x in cs && x != c
    ensures |r| <= |cs|
    ensures c !in cs ==> r == cs
  {
    if |cs| == 0 then []
    else
      var rest := WithoutCallback(cs[..|cs| - 1], c);
      if cs[|cs| - 1] == c then rest else rest + [cs[|cs| - 1]]
  }

  /** `retain` filters each element on its own, so the survivors keep their order:
      removing from a concatenation removes from each part. */
  lemma {:induction false} WithoutCallbackAppend(a: seq<Callback>, b: seq<Callback>, c: Callback)
    ensures WithoutCallback(a + b, c) == WithoutCallback(a, c) + WithoutCallback(b, c)
    decreases |b|
  {
    if |b| == 0 {
      assert a + b == a;
    } else {
      var b' := b[..|b| - 1];
      assert (a + b)[..|a + b| - 1] == a + b';
      assert (a + b)[|a + b| - 1] == b[|b| - 1];
      WithoutCallbackAppend(a, b', c);
    }
  }

  /** `remove_game_object_callback`: the other callbacks stay, in order. */
  function RemoveCallback(t: Track, c: Callback): (r: Track)
    ensures c !in r.callbacks
    ensures forall x :: x in r.callbacks <==> x in t.callbacks && x != c
    ensures r.callbacks == WithoutCallback(t.callbacks, c)
    ensures c !in t.callbacks ==> r == t
    ensures r.properties == t.properties && r.pathProperties == t.pathProperties
    ensures r.name == t.name && r.gameObjects == t.gameObjects
  {
    t.(callbacks := WithoutCallback(t.callbacks, c))
  }

  /** `reset`: default properties, no objects, no callbacks; the name is kept. */
  function Reset(t: Track): (r: Track)
    ensures r == Default().(name := t.name)
    ensures forall g :: RegisterGameObject(r, g).1 == []
  {
    Track(DefaultProperties(), DefaultPaths(), t.name, [], [])
  }
}

=== FILE: tracks.dfy ===
/** The older `Track` of `animation/tracks.rs`, the one the coroutine scheduler
    animates: string-keyed property maps with a fixed set of names held in
    dedicated fields, the game objects the track drives, and the time of its
    last change.

    The clock reading of `last_updated` is modelled as a counter that every
    `mark_updated` increases.
 */
module Tracks {
  import opened Wrappers
  import opened BaseValues
  import opened GameObjects
  import opened PathInterpolation

  /** The value of an animated property, `None` while nothing has been set. */
  type ValueProperty = Option<BaseValue>

  type PathProperty = PathInterpolation

  /** The names `PropertiesMap` keeps in dedicated fields (v1 spellings only). */
  const ValueFieldNames: set<string> := {
    "position", "rotation", "scale", "local_rotation", "local_position",
    "dissolve", "dissolve_arrow", "time", "cuttable",
    "color", "attentuation", "fog_offset", "height_fog_start_y", "height_fog_height"}

  /** The names `PathPropertiesMap` keeps in dedicated fields. */
  const PathFieldNames: set<string> := {
    "position", "rotation", "scale", "local_rotation", "local_position",
    "definite_position", "dissolve", "dissolve_arrow", "cuttable", "color"}

  /** A property map: dedicated fields, by name, and a map for every other id. */
  datatype NamedMap<T> = NamedMap(fields: map<string, T>, custom: map<string, T>)

  /** `get` (and `get_mut`): a field name reads its field, any other id the custom map. */
  function Get<T>(t: NamedMap<T>, id: string): (r: Option<T>)
    ensures id in t.fields ==> r == Some(t.fields[id])
    ensures id !in t.fields ==> (r.Some? <==> id in t.custom)
    ensures id !in t.fields && r.Some? ==> r.value == t.custom[id]
  {
    if id in t.fields then Some(t.fields[id])
    else if id in t.custom then Some(t.custom[id])
    else None
  }

  /** `insert`: overwrite what `get_mut` finds, otherwise add to the custom map. */
  function Insert<T>(t: NamedMap<T>, id: string, p: T): (r: NamedMap<T>)
    ensures r.fields.Keys == t.fields.Keys
    ensures Get(r, id) == Some(p)
    ensures forall other :: other != id ==> Get(r, other) == Get(t, other)
  {
    if id in t.fields then NamedMap(t.fields[id := p], t.custom)
    else NamedMap(t.fields, t.custom[id := p])
  }

  /** A map whose fields all hold `blank` and whose custom map is empty. */
  function Blank<T>(names: set<string>, blank: T): (t: NamedMap<T>)
    ensures t.fields.Keys == names
    ensures forall id :: id in names ==> Get(t, id) == Some(blank)
    ensures forall id :: id !in names ==> Get(t, id) == None
  {
    NamedMap(map n | n in names :: blank, map[])
  }

  /** With the field set of `PropertiesMap`, exactly the v1 names listed reach a field, so a
      v2 spelling such as "_position" is an ordinary custom id. */
  lemma ValueNamesResolution(t: NamedMap<ValueProperty>, id: string)
    requires t.fields.Keys == ValueFieldNames
    ensures id in ValueFieldNames ==> Get(t, id) == Some(t.fields[id])
    ensures id !in ValueFieldNames ==> Get(t, id) == (if id in t.custom then Some(t.custom[id]) else None)
    ensures "_position" !in ValueFieldNames && "definite_position" !in ValueFieldNames
  {
  }

  /** In the path map "time" and the fog names are not fields but custom ids; "definite_position" is a field. */
  lemma PathNamesResolution(t: NamedMap<PathProperty>, id: string)
    requires t.fields.Keys == PathFieldNames
    ensures id in PathFieldNames ==> Get(t, id) == Some(t.fields[id])
    ensures id !in PathFieldNames ==> Get(t, id) == (if id in t.custom then Some(t.custom[id]) else None)
    ensures "time" !in PathFieldNames && "definite_position" in PathFieldNames
  {
  }

  datatype Track = Track(
    properties: NamedMap<ValueProperty>,
    pathProperties: NamedMap<PathProperty>,
    name: string,
    gameObjects: seq<GameObject>,
    lastUpdated: nat)

  /** `Track::default()`, with the path fields starting at `blankPath`: the crate derives
      that value from a `WrapBaseValueType` default it does not define. */
  function Default(blankPath: PathProperty): (t: Track)
    ensures t.properties.fields.Keys == ValueFieldNames && t.pathProperties.fields.Keys == PathFieldNames
    ensures forall id :: Get(t.properties, id) == (if id in ValueFieldNames then Some(None) else None)
    ensures forall id :: Get(t.pathProperties, id) == (if id in PathFieldNames then Some(blankPath) else None)
    ensures t.name == "" && t.gameObjects == [] && t.lastUpdated == 0
  {
    Track(Blank(ValueFieldNames, None), Blank(PathFieldNames, blankPath), "", [], 0)
  }

  function GetProperty(t: Track, id: string): Option<ValueProperty> {
    Get(t.properties, id)
  }

  function GetPathProperty(t: Track, id: string): Option<PathProperty> {
    Get(t.pathProperties, id)
  }

  /** `register_property`: afterwards `get_property(id)` is the new property, whatever
      the name, and no other id changes. */
  function RegisterProperty(t: Track, id: string, p: ValueProperty): (r: Track)
    ensures GetProperty(r, id) == Some(p)
    ensures forall other :: other != id ==> GetProperty(r, other) == GetProperty(t, other)
    ensures r.pathProperties == t.pathProperties && r.gameObjects == t.gameObjects
    ensures r.name == t.name && r.lastUpdated == t.lastUpdated
  {
    t.(properties := Insert(t.properties, id, p))
  }

  function RegisterPathProperty(t: Track, id: string, p: PathProperty): (r: Track)
    ensures GetPathProperty(r, id) == Some(p)
    ensures forall other :: other != id ==> GetPathProperty(r, other) == GetPathProperty(t, other)
    ensures r.properties == t.properties && r.gameObjects == t.gameObjects
    ensures r.name == t.name && r.lastUpdated == t.lastUpdated
  {
    t.(pathProperties := Insert(t.pathProperties, id, p))
  }

  /** `register_game_object`: a no-op for a known object, an append otherwise. */
  function RegisterGameObject(t: Track, g: GameObject): (r: Track)
    ensures g in t.gameObjects ==> r == t
    ensures g !in t.gameObjects ==> r.gameObjects == t.gameObjects + [g]
    ensures Distinct(t.gameObjects) ==> Distinct(r.gameObjects)
    ensures r.properties == t.properties && r.pathProperties == t.pathProperties
    ensures r.name == t.name && r.lastUpdated == t.lastUpdated
  {
    t.(gameObjects := Register(t.gameObjects, g))
  }

  /** `remove_game_object`: every occurrence goes, the others keep their order. */
  function RemoveGameObject(t: Track, g: GameObject): (r: Track)
    ensures g !in r.gameObjects
    ensures forall x :: x in r.gameObjects <==> x in t.gameObjects && x != g
    ensures r.gameObjects == Remove(t.gameObjects, g)
    ensures g !in t.gameObjects ==> r == t
    ensures r.properties == t.properties && r.pathProperties == t.pathProperties
    ensures r.name == t.name && r.lastUpdated == t.lastUpdated
  {
    t.(gameObjects := Remove(t.gameObjects, g))
  }

  /** `mark_updated`: a later time stamp and nothing else. */
  function MarkUpdated(t: Track): (r: Track)
    ensures r.lastUpdated > t.lastUpdated
    ensures r.properties == t.properties && r.pathProperties == t.pathProperties
    ensures r.name == t.name && r.gameObjects == t.gameObjects
  {
    t.(lastUpdated := t.lastUpdated + 1)
  }
}

=== FILE: tracks_holder.dfy ===
/** `TracksHolder`: the tracks of a map, each under a stable key and a unique name.

    The crate stores them in a `SlotMap`; nothing in the holder removes a track,
    so a key is modelled as the position at which the track was inserted.
 */
module TracksHolder {
  import opened Wrappers
  import Track

  datatype TrackKey = TrackKey(index: nat)

  datatype TracksHolder = TracksHolder(tracks: seq<Track.Track>)

  /** No two tracks share a name. */
  predicate UniqueNames(h: TracksHolder) {
    forall i, j :: 0 <= i < j < |h.tracks| ==> h.tracks[i].name != h.tracks[j].name
  }

  /** Some track has the given name. */
  predicate HasName(h: TracksHolder, name: string) {
    exists i :: 0 <= i < |h.tracks| && h.tracks[i].name == name
  }

  function New(): (h: TracksHolder)
    ensures |h.tracks| == 0 && UniqueNames(h)
  {
    TracksHolder([])
  }

  /** `get_track`: the track under a key, `None` for a key the holder never issued. */
  function GetTrack(h: TracksHolder, k: TrackKey): (r: Option<Track.Track>)
    ensures r.Some? <==> k.index < |h.tracks|
    ensures r.Some? ==> r.value == h.tracks[k.index]
  {
    if k.index < |h.tracks| then Some(h.tracks[k.index]) else None
  }

  /** `add_track`: a second track of the same name makes the crate panic; otherwise the
      track is stored under a fresh key and every other key still finds its track. */
  function AddTrack(h: TracksHolder, t: Track.Track): (r: Result<(TracksHolder, TrackKey)>)
    ensures r.Err? <==> HasName(h, t.name)
    ensures r.Err? ==> r.error == DuplicateName
    ensures r.Ok? ==> GetTrack(r.value.0, r.value.1) == Some(t)
    ensures r.Ok? ==> GetTrack(h, r.value.1).None?
    ensures r.Ok? ==> forall k :: k != r.value.1 ==> GetTrack(r.value.0, k) == GetTrack(h, k)
    ensures r.Ok? && UniqueNames(h) ==> UniqueNames(r.value.0)
  {
    if HasName(h, t.name) then Err(DuplicateName)
    else Ok((TracksHolder(h.tracks + [t]), TrackKey(|h.tracks|)))
  }

  /** The position of the first track at or after `i` with the given name. */
  function FindFrom(tracks: seq<Track.Track>, name: string, i: nat): (r: Option<nat>)
    requires i <= |tracks|
    ensures r.Some? ==> i <= r.value < |tracks| && tracks[r.value].name == name
    ensures r.Some? ==> forall j :: i <= j < r.value ==> tracks[j].name != name
    ensures r.None? ==> forall j :: i <= j < |tracks| ==> tracks[j].name != name
    decreases |tracks| - i
  {
    if i == |tracks| then None
    else if tracks[i].name == name then Some(i)
    else FindFrom(tracks, name, i + 1)
  }

  /** `get_track_key`: the key of the first track with the name. */
  function GetTrackKey(h: TracksHolder, name: string): (r: Option<TrackKey>)
    ensures r.Some? <==> HasName(h, name)
    ensures r.Some? ==> r.value.index < |h.tracks| && h.tracks[r.value.index].name == name
  {
    match FindFrom(h.tracks, name, 0)
    case Some(i) => Some(TrackKey(i))
    case None => None
  }

  /** `get_track_by_name`: the first track with the name. */
  function GetTrackByName(h: TracksHolder, name: string): (r: Option<Track.Track>)
    ensures r.Some? <==> HasName(h, name)
    ensures r.Some? ==> r.value.name == name
  {
    match FindFrom(h.tracks, name, 0)
    case Some(i) => Some(h.tracks[i])
    case None => None
  }

  /** Looking a track up by name and by the key found for that name agree, and with
      unique names the track found is the only one so named. */
  lemma KeyAndNameAgree(h: TracksHolder, name: string)
    ensures GetTrackKey(h, name).Some? ==> GetTrack(h, GetTrackKey(h, name).value) == GetTrackByName(h, name)
    ensures GetTrackKey(h, name).None? ==> GetTrackByName(h, name).None?
    ensures UniqueNames(h) && GetTrackByName(h, name).Some? ==>
      forall i :: 0 <= i < |h.tracks| && h.tracks[i].name == name ==> GetTrackByName(h, name) == Some(h.tracks[i])
  {
  }

  /** After a successful `add_track` the new track is found by its name, through its key. */
  lemma AddThenFind(h: TracksHolder, t: Track.Track)
    requires UniqueNames(h) && AddTrack(h, t).Ok?
    ensures GetTrackByName(AddTrack(h, t).value.0, t.name) == Some(t)
    ensures GetTrackKey(AddTrack(h, t).value.0, t.name) == Some(AddTrack(h, t).value.1)
  {
    var h' := AddTrack(h, t).value.0;
    assert h'.tracks[|h.tracks|] == t;
    assert HasName(h', t.name);
    KeyAndNameAgree(h', t.name);
  }
}

=== FILE: values.dfy ===
/** `BaseValue`, the tagged value every property and keyframe carries, and the
    value-type tag (`WrapBaseValueType`) shared with the C side.
 */
module BaseValues {
  import opened Wrappers
  import opened Vectors
  import opened Maths

  /** The kind of a value. The tags the C side sees are given by `FfiTypes.Tag`. */
  datatype ValueType = Vec3Type | QuatType | Vec4Type | FloatType

  datatype BaseValue =
    | Float(f: real)
    | Vector3(v3: Vec3)
    | Vector4(v4: Vec4)
    | Quaternion(q: Quat)

  /** `BaseValue::default()`. */
  const Default: BaseValue := Float(0.0)

  function GetType(b: BaseValue): ValueType {
    match b
    case Float(_) => FloatType
    case Vector3(_) => Vec3Type
    case Vector4(_) => Vec4Type
    case Quaternion(_) => QuatType
  }

  /** The components of a value in memory order (x, y, z, w; a quaternion's `w` last). */
  function AsSlice(b: BaseValue): seq<real> {
    match b
    case Float(f) => [f]
    case Vector3(v) => [v.x, v.y, v.z]
    case Vector4(v) => [v.x, v.y, v.z, v.w]
    case Quaternion(q) => [q.x, q.y, q.z, q.w]
  }

  /** `len`: the number of components, which is what `as_slice` yields. */
  function Len(b: BaseValue): (n: nat)
    ensures n == |AsSlice(b)| && n > 0
  {
    match b
    case Float(_) => 1
    case Vector3(_) => 3
    case Vector4(_) => 4
    case Quaternion(_) => 4
  }

  /** `from_slice`: 1, 3 or 4 numbers; 4 numbers make a quaternion only when `quat` is set. */
  function FromSlice(v: seq<real>, quat: bool): (r: Result<BaseValue>)
    ensures r.Ok? <==> |v| == 1 || |v| == 3 || |v| == 4
    ensures r.Ok? ==> AsSlice(r.value) == v
    ensures r.Ok? ==> (r.value.Quaternion? <==> |v| == 4 && quat)
  {
    if |v| == 1 then Ok(Float(v[0]))
    else if |v| == 3 then Ok(Vector3(Vec3(v[0], v[1], v[2])))
    else if |v| == 4 && quat then Ok(Quaternion(Quat(v[0], v[1], v[2], v[3])))
    else if |v| == 4 then Ok(Vector4(Vec4(v[0], v[1], v[2], v[3])))
    else Err(InvalidSliceLength(|v|))
  }

  /** Every value is rebuilt from its own components. */
  lemma FromSliceAsSlice(b: BaseValue)
    ensures FromSlice(AsSlice(b), b.Quaternion?) == Ok(b)
  {
  }

  function AsFloat(b: BaseValue): (r: Option<real>)
    ensures r.Some? <==> b.Float?
    ensures r.Some? ==> Float(r.value) == b
  {
    if b.Float? then Some(b.f) else None
  }

  function AsVec3(b: BaseValue): (r: Option<Vec3>)
    ensures r.Some? <==> b.Vector3?
    ensures r.Some? ==> Vector3(r.value) == b
  {
    if b.Vector3? then Some(b.v3) else None
  }

  function AsVec4(b: BaseValue): (r: Option<Vec4>)
    ensures r.Some? <==> b.Vector4?
    ensures r.Some? ==> Vector4(r.value) == b
  {
    if b.Vector4? then Some(b.v4) else None
  }

  function AsQuat(b: BaseValue): (r: Option<Quat>)
    ensures r.Some? <==> b.Quaternion?
    ensures r.Some? ==> Quaternion(r.value) == b
  {
    if b.Quaternion? then Some(b.q) else None
  }

  /** `BaseValue::lerp`: both values must be of the same kind; quaternions slerp. */
  function Lerp(m: Maths, a: BaseValue, b: BaseValue, t: real): (r: Result<BaseValue>)
    ensures r.Ok? <==> GetType(a) == GetType(b)
    ensures r.Ok? ==> GetType(r.value) == GetType(a)
  {
    match (a, b)
    case (Float(x), Float(y)) => Ok(Float(Vectors.Lerp(x, y, t)))
    case (Vector3(x), Vector3(y)) => Ok(Vector3(Lerp3(x, y, t)))
    case (Vector4(x), Vector4(y)) => Ok(Vector4(Lerp4(x, y, t)))
    case (Quaternion(x), Quaternion(y)) => Ok(Quaternion(m.slerp(x, y, t)))
    case _ => Err(MismatchedInterpolation)
  }

  /** Apart from quaternions, `lerp` is component-wise linear interpolation of the slices. */
  lemma LerpComponents(m: Maths, a: BaseValue, b: BaseValue, t: real)
    requires GetType(a) == GetType(b) && !a.Quaternion?
    ensures Lerp(m, a, b, t).Ok?
    ensures forall i :: 0 <= i < Len(a) ==>
      AsSlice(Lerp(m, a, b, t).value)[i] == AsSlice(a)[i] + (AsSlice(b)[i] - AsSlice(a)[i]) * t
  {
  }

  /** `Index<usize>`: a float ignores the index; vectors and quaternions fail past their length. */
  function Index(b: BaseValue, i: nat): (r: Result<real>)
    ensures r.Ok? <==> b.Float? || i < Len(b)
    ensures r.Ok? && !b.Float? ==> r.value == AsSlice(b)[i]
    ensures b.Float? ==> r == Ok(AsSlice(b)[0])
  {
    match b
    case Float(f) => Ok(f)
    case Vector3(v) =>
      if i == 0 then Ok(v.x) else if i == 1 then Ok(v.y) else if i == 2 then Ok(v.z)
      else Err(IndexOutOfRange)
    case Vector4(v) =>
      if i == 0 then Ok(v.x) else if i == 1 then Ok(v.y) else if i == 2 then Ok(v.z)
      else if i == 3 then Ok(v.w) else Err(IndexOutOfRange)
    case Quaternion(q) =>
      if i == 0 then Ok(q.x) else if i == 1 then Ok(q.y) else if i == 2 then Ok(q.z)
      else if i == 3 then Ok(q.w) else Err(IndexOutOfRange)
  }

  /** `Mul<f32>`: every component scaled, the kind kept. */
  function Scale(b: BaseValue, s: real): (r: BaseValue)
    ensures GetType(r) == GetType(b)
    ensures forall i :: 0 <= i < Len(b) ==> AsSlice(r)[i] == AsSlice(b)[i] * s
  {
    match b
    case Float(f) => Float(f * s)
    case Vector3(v) => Vector3(Scale3(v, s))
    case Vector4(v) => Vector4(Scale4(v, s))
    case Quaternion(q) => Quaternion(Quat(q.x * s, q.y * s, q.z * s, q.w * s))
  }

  /** `Div<f32>`: every component divided, the kind kept. */
  function DivScalar(m: Maths, b: BaseValue, s: real): (r: BaseValue)
    ensures GetType(r) == GetType(b)
    ensures forall i :: 0 <= i < Len(b) ==> AsSlice(r)[i] == Div(m, AsSlice(b)[i], s)
  {
    match b
    case Float(f) => Float(Div(m, f, s))
    case Vector3(v) => Vector3(Vec3(Div(m, v.x, s), Div(m, v.y, s), Div(m, v.z, s)))
    case Vector4(v) => Vector4(Vec4(Div(m, v.x, s), Div(m, v.y, s), Div(m, v.z, s), Div(m, v.w, s)))
    case Quaternion(q) => Quaternion(Quat(Div(m, q.x, s), Div(m, q.y, s), Div(m, q.z, s), Div(m, q.w, s)))
  }
}

=== FILE: vectors.dfy ===
/** The glam vector types used by the crate, with `f32` modelled as `real`.

    Only component-wise arithmetic and linear interpolation are defined here;
    everything that needs trigonometry lives behind the `Maths` record.
 */
module Vectors {

  datatype Vec3 = Vec3(x: real, y: real, z: real)

  datatype Vec4 = Vec4(x: real, y: real, z: real, w: real)

  /** A quaternion stored as glam stores it: vector part first, scalar `w` last. */
  datatype Quat = Quat(x: real, y: real, z: real, w: real)

  const Vec3Zero := Vec3(0.0, 0.0, 0.0)
  const Vec4Zero := Vec4(0.0, 0.0, 0.0, 0.0)

  /** `Quat::IDENTITY`, which is also glam's `Quat::default()`. */
  const QuatIdentity := Quat(0.0, 0.0, 0.0, 1.0)

  /** glam's `lerp`: `a + (b - a) * t`. */
  function Lerp(a: real, b: real, t: real): real {
    a + (b - a) * t
  }

  /** A blend with a factor in [0, 1] lies between its two ends, and hits them at 0 and 1. */
  lemma LerpWithin(a: real, b: real, t: real)
    requires 0.0 <= t <= 1.0
    ensures a <= b ==> a <= Lerp(a, b, t) <= b
    ensures b <= a ==> b <= Lerp(a, b, t) <= a
    ensures t == 0.0 ==> Lerp(a, b, t) == a
    ensures t == 1.0 ==> Lerp(a, b, t) == b
  {
    var d := b - a;
    assert d * t + d * (1.0 - t) == d;
    if d >= 0.0 {
      assert d * t >= 0.0;
      assert d * (1.0 - t) >= 0.0;
    } else {
      var e := a - b;
      assert e * t >= 0.0;
      assert e * (1.0 - t) >= 0.0;
      assert d * t == -(e * t);
      assert d * (1.0 - t) == -(e * (1.0 - t));
    }
  }

  function Lerp3(a: Vec3, b: Vec3, t: real): Vec3 {
    Vec3(Lerp(a.x, b.x, t), Lerp(a.y, b.y, t), Lerp(a.z, b.z, t))
  }

  function Lerp4(a: Vec4, b: Vec4, t: real): Vec4 {
    Vec4(Lerp(a.x, b.x, t), Lerp(a.y, b.y, t), Lerp(a.z, b.z, t), Lerp(a.w, b.w, t))
  }

  function Add3(a: Vec3, b: Vec3): Vec3 {
    Vec3(a.x + b.x, a.y + b.y, a.z + b.z)
  }

  function Sub3(a: Vec3, b: Vec3): Vec3 {
    Vec3(a.x - b.x, a.y - b.y, a.z - b.z)
  }

  function Mul3(a: Vec3, b: Vec3): Vec3 {
    Vec3(a.x * b.x, a.y * b.y, a.z * b.z)
  }

  function Scale3(a: Vec3, s: real): Vec3 {
    Vec3(a.x * s, a.y * s, a.z * s)
  }

  function Add4(a: Vec4, b: Vec4): Vec4 {
    Vec4(a.x + b.x, a.y + b.y, a.z + b.z, a.w + b.w)
  }

  function Sub4(a: Vec4, b: Vec4): Vec4 {
    Vec4(a.x - b.x, a.y - b.y, a.z - b.z, a.w - b.w)
  }

  function Mul4(a: Vec4, b: Vec4): Vec4 {
    Vec4(a.x * b.x, a.y * b.y, a.z * b.z, a.w * b.w)
  }

  function Scale4(a: Vec4, s: real): Vec4 {
    Vec4(a.x * s, a.y * s, a.z * s, a.w * s)
  }

  /** `f32::clamp(t, lo, hi)` for `lo <= hi`. */
  function Clamp(t: real, lo: real, hi: real): real {
    if t < lo then lo else if t > hi then hi else t
  }
}

=== FILE: wrappers.dfy ===
/** Failure-compatible datatypes shared by every module of the model.

    The Rust crate reports most impossible situations by panicking (`unwrap`,
    `assert!`, out-of-range indexing, `panic!`).  The model turns each panic
    into an `Err` carrying the reason, so that the error path is explicit and
    can be reasoned about instead of being ruled out by a precondition.
 */
module Wrappers {

  /** The conventional Some/None datatype, usable with `:-`. */
  datatype Option<+T> = None | Some(value: T) {

    predicate IsFailure() {
      None?
    }

    function PropagateFailure<U>(): Option<U>
      requires None?
    {
      None
    }

    function Extract(): T
      requires Some?
    {
      value
    }

    function GetOr(default: T): T {
      match this
      case Some(v) => v
      case None => default
    }
  }

  /** Why a computation of the crate would have panicked. */
  datatype Failure =
    | UnknownBaseProvider(name: string)    // a "base…" name the provider context does not know
    | WrongValueType                       // `as_vec3().unwrap()` and friends on another variant
    | WrongModifierType                    // `Modifier::get_float` and friends on another variant
    | WrongPointDataType                   // `PointData::get_float` and friends on another variant
    | IndexOutOfRange                      // slice or vector indexing past the end
    | InvalidSliceLength(length: nat)      // `BaseValue::from_slice` with a length it does not accept
    | ValueCountMismatch(expected: nat, found: nat) // `assert_eq!` on the number of provided values
    | MissingGroup                         // `unwrap` on an absent values or operation group
    | NotAnArray                           // `as_array().unwrap()` on a JSON value that is not an array
    | NotAString                           // `as_str().unwrap()` on a JSON value that is not a string
    | MismatchedInterpolation              // `BaseValue::lerp` of two different variants
    | MismatchedPathType                   // `PointDefinitionInterpolation::init` with another type
    | DuplicateName                        // a track or point definition registered twice

  /** A Result whose error is always a `Failure`, usable with `:-`. */
  datatype Result<+T> = Ok(value: T) | Err(error: Failure) {

    predicate IsFailure() {
      Err?
    }

    function PropagateFailure<U>(): Result<U>
      requires Err?
    {
      Err(error)
    }

    function Extract(): T
      requires Ok?
    {
      value
    }
  }
}
